=== FILE: README.md ===
# jgol in Dafny

A model of the core of jgol, a Java engine for Conway's Game of Life: a live cell with two or
three live Moore neighbours survives, a dead cell with exactly three is born, and every other
cell is dead in the next generation. Cells outside the `rows x columns` grid count as dead;
there is no wrap-around.

The model follows the engine's own layers, one Dafny module per source file or group of files
(all under `src/`):

- **Java arithmetic and errors** (`java_int.dfy`, `errors.dfy`, `events.dfy`): `int`/`long`
  as subset types with explicit wrap-around, exceptions as `Result`/`Outcome` values, and the
  progress listener as the sequence of callbacks it receives.
- **Cell plumbing** (`cells.dfy`, `cell_set.dfy`, `cell_bag.dfy`): packing a `(row, col)` pair
  into a `long`, the cell set built on that packing, and the growable structure-of-arrays
  `CellBag` (one class with the two growth policies of its five copies in the source).
- **The rule** (`life_rules.dfy`, `row_major.dfy`): the pure `Step(live, rows, cols)` that every
  grid and strategy is proved against, its delta (births and deaths), the scenarios the
  engine's tests check, and the row-major order of `forEachAlive`.
- **Grids** (`finite_grid.dfy`, `padded_grid.dfy`, `bit_vector_grid.dfy`, `hash_grid.dfy`,
  `neighbor_counting_hash_grid.dfy`, `neighbor_counting_grid.dfy`): the shared grid contract
  over the abstract state `live: set<(int, int)>`, and the five storage classes, each a Dafny
  class over its own storage (padded matrix, per-row bit sets, hash set, hash set plus
  neighbour map, byte matrix with cached counts) proving the same contracts of its own
  `Live()`, with invariants such as "the padding stays dead", "the counter is the population"
  and "each cached count is the true Moore count".
- **Delta computation** (`next_gen.dfy`, `chunked_progress.dfy`, `sparse_progress.dfy`): the
  `NextGen` delta and `updateGrid`; the full-scan `progressChunk`; and the sparse rule
  (`evaluate`/`visit` over live cells and their not yet visited dead neighbours), proved to
  record exactly the births and deaths of `Step`, each reported to the listener once.
- **Lifecycle** (`sparse_progress.dfy`, `life.dfy`): the frozen/finished flags that gate
  `progress`, freezing exactly when a generation changes nothing, and the `Life`, `GoL` and
  `AbstractLife` games that drive a strategy. `game/FreezingProgressStrategy.java` has the
  same `progress`, `freeze`, `unfreeze` and `finish` bodies as
  `game/AbstractProgressStrategy.java` (lines 14-34 against 18-38), only declared `final`;
  `SparseProgress.AllAtOnceStrategy.Progress`, `Freeze`, `Unfreeze` and `Finish` model both.
- **The `GameOfLife` facade** (`config.dfy`, `parallel_tiling.dfy`, `game_of_life.dfy`): the
  configuration, the padded matrix of the facade, its all-at-once progress and its parallel
  progress, whose chunks are computed first and applied afterwards, proved to tile the grid
  and to yield `Step`.

Where the code and its prose description disagree, the model follows the code:

- the facade's parallel strategy neither counts updates nor freezes;
- the facade has no `finish` and no pool to release;
- the bags of `game/NextGen.java` and `GameOfLife.java` double while the capacity is at most
  64 (`capacity > 64` picks the half-step), whatever the comment beside the test says.

## Model

| member | source | states |
|---|---|---|
| JavaInt.Wrap32 | src/main/java/com/voidaspect/jgol/grid/cell/CellBag.java:46 | Java `int` wrap-around: the result is the 32-bit value congruent to the input, and the input itself when it fits |
| JavaInt.Wrap64 | src/main/java/com/voidaspect/jgol/grid/cell/Cells.java:9 | Java `long` wrap-around: the 64-bit value congruent to the input, and the input itself when it fits |
| JavaInt.TruncDiv | src/main/java/com/voidaspect/jgol/config/GameOfLifeConfig.java:87 | Java `/` on any non-zero divisor: the remainder `a - q * b` has the dividend's sign and is smaller than the divisor in magnitude (truncation toward zero); on a non-negative dividend and a positive divisor it is the ordinary quotient |
| JavaInt.TruncDivUnique | src/main/java/com/voidaspect/jgol/config/GameOfLifeConfig.java:87 | that remainder rule determines the quotient: any q meeting it is TruncDiv |
| JavaInt.TruncDivNegativeDivisor | src/main/java/com/voidaspect/jgol/config/GameOfLifeConfig.java:87 | 7 / -2 is -3, -7 / -2 is 3 and -7 / 2 is -3, as in Java |
| Cells.ShiftLeft32 | src/main/java/com/voidaspect/jgol/grid/cell/Cells.java:9 | `(long) row << 32` leaves the low 32 bits clear |
| Cells.Low32 | src/main/java/com/voidaspect/jgol/grid/cell/Cells.java:9 | `col & 0xffffffffL` lies in [0, 2^32) |
| Cells.PackHighLow | src/main/java/com/voidaspect/jgol/grid/cell/Cells.java:8-10 | the high 32 bits of pack(row, col) are row and the low 32 bits are col modulo 2^32 |
| Cells.UnpackRowPack | src/main/java/com/voidaspect/jgol/grid/cell/Cells.java:8-14 | unpackRow(pack(row, col)) == row for every pair of ints |
| Cells.UnpackColPack | src/main/java/com/voidaspect/jgol/grid/cell/Cells.java:8-18 | unpackCol(pack(row, col)) == col, negative columns included |
| Cells.PackInjective | src/main/java/com/voidaspect/jgol/grid/cell/Cells.java:8-10 | two pairs pack to the same long exactly when they are equal |
| Cells.PackSetMember | src/main/java/com/voidaspect/jgol/grid/cell/AbstractCellSet.java:21-23 | a packed pair is in the packed set exactly when the pair is in the pair set |
| Cells.PackSetCard | src/main/java/com/voidaspect/jgol/grid/cell/AbstractCellSet.java:25-27 | the packed set has as many elements as the pair set |
| CellBags.NextCapacityGrows | src/main/java/com/voidaspect/jgol/grid/cell/CellBag.java:41-53 | a full bag below MAX_ARRAY_LENGTH grows strictly, and never beyond MAX_ARRAY_LENGTH, under both growth policies |
| CellBags.ThreeHalvesGrowth | src/main/java/com/voidaspect/jgol/grid/cell/CellBag.java:45-50 | a full bag grows by half, clamped to MAX_ARRAY_LENGTH when `capacity + (capacity >> 1)` wraps or exceeds it |
| CellBags.DoublingGrowth | src/main/java/com/voidaspect/jgol/game/NextGen.java:79-86 | a full bag of capacity at most 64 doubles (64 grows to 128), above 64 it grows by half, clamped to MAX_ARRAY_LENGTH |
| CellBags.CopyOf | src/main/java/com/voidaspect/jgol/grid/cell/CellBag.java:51-52 | Arrays.copyOf to a longer length: a fresh array holding the old elements followed by zeros |
| CellBags.CellBag.constructor | src/main/java/com/voidaspect/jgol/grid/cell/CellBag.java:15-27 | a new bag is empty with capacity 0 (no arrays allocated) |
| CellBags.CellBag.Add | src/main/java/com/voidaspect/jgol/grid/cell/CellBag.java:35-58 | appends (row, col) to the contents in order; the first add allocates the initial capacity, an add to a full bag grows it to the next capacity; a full bag of MAX_ARRAY_LENGTH throws "cell bag too big" and keeps its contents |
| CellBags.CellBag.Reserve | src/main/java/com/voidaspect/jgol/grid/cell/CellBag.java:36-54 | the allocation half of add: room for one more entry with the contents kept, or CellBagTooBig exactly when the bag holds MAX_ARRAY_LENGTH entries |
| CellBags.CellBag.ForEach | src/main/java/com/voidaspect/jgol/grid/cell/CellBag.java:29-33 | the action receives exactly the added cells, in insertion order |
| CellBags.CellBag.Size | src/main/java/com/voidaspect/jgol/grid/cell/CellBag.java:60-62 | size() is the number of cells added |
| CellSets.CellSet.constructor | src/main/java/com/voidaspect/jgol/grid/cell/AbstractCellSet.java:9-11 | a new set holds no cell |
| CellSets.CellSet.Add | src/main/java/com/voidaspect/jgol/grid/cell/AbstractCellSet.java:13-15 | adds the pair; returns true exactly when it was not yet present |
| CellSets.CellSet.Remove | src/main/java/com/voidaspect/jgol/grid/cell/AbstractCellSet.java:17-19 | removes the pair; returns true exactly when it was present |
| CellSets.CellSet.Contains | src/main/java/com/voidaspect/jgol/grid/cell/AbstractCellSet.java:21-23 | true exactly when the pair is in the set |
| CellSets.CellSet.Size | src/main/java/com/voidaspect/jgol/grid/cell/AbstractCellSet.java:25-27 | the number of distinct pairs stored |
| CellSets.CellSet.ForEach | src/main/java/com/voidaspect/jgol/grid/cell/AbstractCellSet.java:29-39 | the operation receives every stored pair exactly once, unpacked from its long, and nothing else |
| CellSets.CellSet.Clear | src/main/java/com/voidaspect/jgol/grid/cell/AbstractCellSet.java:33-35 | the set is empty afterwards |
| CellSets.WalkStep | src/main/java/com/voidaspect/jgol/grid/cell/AbstractCellSet.java:37-39 | unpacking a stored long yields the pair it was packed from, so the walk stays one visit per element |
| FiniteGrids.DimensionCheckAsWritten | src/main/java/com/voidaspect/jgol/grid/AbstractFiniteGrid.java:17-27 | the grid is built exactly when rows >= 1 and columns >= 1; a failure names the first bad dimension, and the column failure reports the row count, as every constructor of the source does |
| FiniteGrids.DimensionCheck | src/main/java/com/voidaspect/jgol/grid/AbstractFiniteGrid.java:17-27 | the grid is built exactly when rows >= 1 and columns >= 1; a failure names the first bad dimension and reports its own value |
| FiniteGrids.DimensionChecksAgree | src/main/java/com/voidaspect/jgol/grid/AbstractFiniteGrid.java:18-23 | the checks as written reject exactly the same inputs as the corrected ones, and agree whenever the rows are bad |
| FiniteGrids.DimensionCheckReportsRowsForColumns | src/main/java/com/voidaspect/jgol/grid/AbstractFiniteGrid.java:21-23 | 5 rows and 0 columns: the column exception reports 5, a valid count |
| FiniteGrids.GridSize | src/main/java/com/voidaspect/jgol/grid/AbstractFiniteGrid.java:26 | `(long) rows * cols` never wraps for positive dimensions and is at least each dimension |
| FiniteGrids.CheckIndex | src/main/java/com/voidaspect/jgol/grid/AbstractFiniteGrid.java:29-32 | Objects.checkIndex passes exactly for 0 <= index < length, otherwise IndexOutOfBounds |
| FiniteGrids.CheckFromIndexSize | src/main/java/com/voidaspect/jgol/grid/AbstractFiniteGrid.java:50-55 | Objects.checkFromIndexSize passes exactly when [from, from + size) lies in [0, length), otherwise IndexOutOfBounds |
| FiniteGrids.Covered | src/main/java/com/voidaspect/jgol/grid/AbstractGrid.java:56-67 | the cells fillGrid writes: in-grid positions whose matrix row and entry exist |
| FiniteGrids.TrueEntries | src/main/java/com/voidaspect/jgol/grid/AbstractFiniteGrid.java:100-113 | the in-grid positions the initial matrix marks true |
| FiniteGrids.DefaultRegionAtOrigin | src/main/java/com/voidaspect/jgol/grid/AbstractFiniteGrid.java:45-48 | at origin (0, 0) the default copy is exactly the window, so snapshot() is correct |
| FiniteGrids.DefaultRegionMissesOffset | src/main/java/com/voidaspect/jgol/grid/AbstractFiniteGrid.java:34-43 | on a 2 x 1 grid with (1, 0) alive, the 1 x 1 window at (1, 0) comes back dead |
| FiniteGrids.DefaultRegionBlankPastHeight | src/main/java/com/voidaspect/jgol/grid/AbstractFiniteGrid.java:34-43 | a window whose origin row is at least its height comes back all dead |
| FiniteGrids.FiniteGrid.constructor | src/main/java/com/voidaspect/jgol/grid/AbstractFiniteGrid.java:17-27 | a grid of valid dimensions is empty and keeps its dimensions |
| FiniteGrids.FiniteGrid.Create | src/main/java/com/voidaspect/jgol/grid/AbstractFiniteGrid.java:17-27 | succeeds exactly for rows >= 1 and columns >= 1 with an empty grid; otherwise the dimension check's exception as written (the column failure reports the row count) |
| FiniteGrids.FiniteGrid.HasCell | src/main/java/com/voidaspect/jgol/grid/AbstractFiniteGrid.java:72-75 | true exactly for cells inside rows x columns |
| FiniteGrids.FiniteGrid.CheckCell | src/main/java/com/voidaspect/jgol/grid/AbstractFiniteGrid.java:29-32 | passes exactly for in-grid cells, otherwise IndexOutOfBounds |
| FiniteGrids.FiniteGrid.Get | src/main/java/com/voidaspect/jgol/grid/Grid.java:7 | an in-grid cell's state; out-of-range indices fail with IndexOutOfBounds |
| FiniteGrids.FiniteGrid.GetNeighbors | src/main/java/com/voidaspect/jgol/grid/Grid.java:11 | the live Moore neighbours of an in-grid cell, between 0 and 8; out of range fails |
| FiniteGrids.FiniteGrid.LiveCells | src/main/java/com/voidaspect/jgol/grid/Grid.java:17 | the population, never above the size |
| FiniteGrids.FiniteGrid.Set | src/main/java/com/voidaspect/jgol/grid/Grid.java:9 | an in-grid cell becomes alive or dead, nothing else changes; out of range fails and changes nothing |
| FiniteGrids.FiniteGrid.Clear | src/main/java/com/voidaspect/jgol/grid/AbstractFiniteGrid.java:77-84 | every cell is dead afterwards |
| FiniteGrids.FiniteGrid.ForEachAlive | src/main/java/com/voidaspect/jgol/grid/AbstractFiniteGrid.java:86-98 | the operation receives exactly the live cells, each once, in row-major order, although the loop stops after liveCells() of them |
| FiniteGrids.FiniteGrid.FillGrid | src/main/java/com/voidaspect/jgol/grid/AbstractFiniteGrid.java:100-113 | the live cells gain the in-grid true entries of the matrix and lose nothing; null matrix and null rows are skipped |
| FiniteGrids.FiniteGrid.FillGridAll | src/main/java/com/voidaspect/jgol/grid/AbstractGrid.java:56-67 | every covered cell takes the matrix's value, every other cell keeps its state |
| FiniteGrids.FiniteGrid.SnapshotWithoutBoundChecking | src/main/java/com/voidaspect/jgol/grid/AbstractFiniteGrid.java:34-43 | the copy as written: entry (i, j) is the window cell's state only when its grid row is below the height and its grid column below the width, otherwise false |
| FiniteGrids.FiniteGrid.SnapshotRegion | src/main/java/com/voidaspect/jgol/grid/AbstractFiniteGrid.java:34-43 | the corrected copy: entry (i, j) is the state of cell (fromRow + i, fromCol + j) |
| FiniteGrids.FiniteGrid.Snapshot | src/main/java/com/voidaspect/jgol/grid/AbstractFiniteGrid.java:50-55 | succeeds exactly when the window fits in the grid, with the entries of the default copy (DefaultRegion), which are the states of the window's cells when the window is at the origin; otherwise IndexOutOfBounds |
| FiniteGrids.FiniteGrid.SnapshotAll | src/main/java/com/voidaspect/jgol/grid/AbstractFiniteGrid.java:45-48 | a rows x columns matrix whose entry (i, j) is the state of cell (i, j) |
| PaddedGrids.PaddedLengthWraps | src/main/java/com/voidaspect/jgol/grid/PaddedInMemoryGrid.java:115 | `rows + 2` is the intended length exactly when it fits in an int; for the two largest counts it wraps negative |
| PaddedGrids.LiveOf | src/main/java/com/voidaspect/jgol/grid/PaddedInMemoryGrid.java:33-36 | a cell is alive exactly when it is inside the grid and its entry one row down and one column right is true |
| PaddedGrids.EntryAt | src/main/java/com/voidaspect/jgol/grid/PaddedInMemoryGrid.java:33-36 | an interior entry is the state of the grid cell one up and one left of it |
| PaddedGrids.ValueAtCell | src/main/java/com/voidaspect/jgol/grid/PaddedInMemoryGrid.java:89-91 | while the ring is dead, value() of any padded position, ring included, is the rule's value of the cell one up and one left |
| PaddedGrids.Entries | src/main/java/com/voidaspect/jgol/grid/PaddedInMemoryGrid.java:89-91 | the positions value() reads as 1: exactly the true entries of the matrix, ring included |
| PaddedGrids.PaddedNeighborsOf | src/main/java/com/voidaspect/jgol/grid/PaddedInMemoryGrid.java:43-54 | the eight padded reads of neighbors(), in its order, sum to the cell's live Moore neighbours |
| PaddedGrids.InitGrid | src/main/java/com/voidaspect/jgol/grid/PaddedInMemoryGrid.java:107-116 | succeeds exactly when both dimensions are between 1 and Integer.MAX_VALUE - 2, with an all-false (rows + 2) x (columns + 2) matrix; bad dimensions give the dimension check's exception as written (the column failure reports the row count), wrapped lengths NegativeArraySize |
| PaddedGrids.BuildGrid | src/main/java/com/voidaspect/jgol/grid/PaddedInMemoryGrid.java:94-105 | initGrid, with its exceptions, then each grid cell's entry is the initial matrix's entry where that exists and is true, false elsewhere; the ring stays dead |
| PaddedGrids.PaddedInMemoryGrid.Live | src/main/java/com/voidaspect/jgol/grid/PaddedInMemoryGrid.java:11-19 | the abstract state: the grid cells whose padded entry is true |
| PaddedGrids.PaddedInMemoryGrid.constructor | src/main/java/com/voidaspect/jgol/grid/PaddedInMemoryGrid.java:25-31 | keeps the matrix and dimensions, upper bounds one past the last row and column, the ring dead |
| PaddedGrids.PaddedInMemoryGrid.Create | src/main/java/com/voidaspect/jgol/grid/PaddedInMemoryGrid.java:21-31 | the grid whose live cells are the initial matrix's in-grid true entries, or buildGrid's exception (the dimension check's exception as written (the column failure reports the row count)), with the same success condition; the ring starts dead |
| PaddedGrids.PaddedInMemoryGrid.Get | src/main/java/com/voidaspect/jgol/grid/PaddedInMemoryGrid.java:33-36 | succeeds exactly for rows in [-1, rows] and columns in [-1, columns], with the matrix entry one down and one right: a grid cell's state, and on the ring whatever set() left there (dead while the ring is dead); further out an array index exception |
| PaddedGrids.PaddedInMemoryGrid.Set | src/main/java/com/voidaspect/jgol/grid/PaddedInMemoryGrid.java:38-41 | with no range check: any position in [-1, rows] x [-1, columns] is written and no other entry changes; a grid cell becomes alive or dead, a ring position leaves the live cells alone, and writing true there breaks the dead ring; further out an array index exception with nothing changed |
| PaddedGrids.PaddedInMemoryGrid.SetChecked | src/main/java/com/voidaspect/jgol/grid/AbstractFiniteGrid.java:29-32 | set() behind checkIndex, as the other grids have it: an index exception off the grid, and otherwise the cell becomes alive or dead; the dead ring survives |
| PaddedGrids.PaddedInMemoryGrid.Value | src/main/java/com/voidaspect/jgol/grid/PaddedInMemoryGrid.java:89-91 | 1 exactly when the padded entry is true; while the ring is dead, exactly when the grid cell one up and one left is alive |
| PaddedGrids.PaddedInMemoryGrid.GetNeighbors | src/main/java/com/voidaspect/jgol/grid/PaddedInMemoryGrid.java:43-54 | the true entries around the cell's padded position, ring included; while the ring is dead, the cell's live Moore neighbours; off the grid an array index exception |
| PaddedGrids.PaddedInMemoryGrid.PaddedNeighbors | src/main/java/com/voidaspect/jgol/grid/PaddedInMemoryGrid.java:43-54 | while the ring is dead, the eight value() reads around a grid cell count its live neighbours |
| PaddedGrids.PaddedInMemoryGrid.RingWriteCountsPhantom | src/main/java/com/voidaspect/jgol/grid/PaddedInMemoryGrid.java:38-54 | after set(-1, 0, true) on an empty grid no cell is alive, yet get(-1, 0) is true and neighbors(0, 0) is 1 |
| PaddedGrids.PaddedInMemoryGrid.Snapshot | src/main/java/com/voidaspect/jgol/grid/PaddedInMemoryGrid.java:56-64 | a fresh rows x columns matrix whose entry (i, j) is the state of cell (i, j) |
| PaddedGrids.PaddedInMemoryGrid.Clear | src/main/java/com/voidaspect/jgol/grid/PaddedInMemoryGrid.java:66-72 | rows 1 .. rows, columns 1 .. columns + 1 take row 0's entries and nothing else changes; so with the ring dead every cell is dead afterwards and the ring stays dead |
| PaddedGrids.PaddedInMemoryGrid.GetSize | src/main/java/com/voidaspect/jgol/grid/PaddedInMemoryGrid.java:84-87 | `(long) columns * rows` is exactly rows times columns |
| BitVectorGrids.NextSetBit | src/main/java/com/voidaspect/jgol/grid/BitVectorInMemoryGrid.java:75 | BitSet.nextSetBit: -1 or the first set bit at or after `from`; every bit skipped is clear |
| BitVectorGrids.RowsLive | src/main/java/com/voidaspect/jgol/grid/BitVectorInMemoryGrid.java:9-13 | a cell is alive exactly when it is in the grid and the bit one column right in the BitSet one row down is set |
| BitVectorGrids.ShapeWrite | src/main/java/com/voidaspect/jgol/grid/BitVectorInMemoryGrid.java:36-40 | storing a row of cols + 2 bits with clear ring bits keeps every allocated row well formed |
| BitVectorGrids.EmptyRows | src/main/java/com/voidaspect/jgol/grid/BitVectorInMemoryGrid.java:103-112 | rows whose BitSets are all clear hold no live cell |
| BitVectorGrids.AllocateRow | src/main/java/com/voidaspect/jgol/grid/BitVectorInMemoryGrid.java:36-38 | allocating an empty BitSet for a row changes no cell |
| BitVectorGrids.FlipBit | src/main/java/com/voidaspect/jgol/grid/BitVectorInMemoryGrid.java:39-40 | writing one bit inside the grid adds or removes exactly that cell |
| BitVectorGrids.WriteBit | src/main/java/com/voidaspect/jgol/grid/BitVectorInMemoryGrid.java:39-42 | a bit that changes keeps the row shape and moves the population by exactly one, the amount added to liveCells |
| BitVectorGrids.WriteBitLive | src/main/java/com/voidaspect/jgol/grid/BitVectorInMemoryGrid.java:39-42 | a bit that changes adds or removes exactly its cell and moves the population by one |
| BitVectorGrids.BitMember | src/main/java/com/voidaspect/jgol/grid/BitVectorInMemoryGrid.java:29 | a cell is alive exactly when its bit is set |
| BitVectorGrids.LiveBound | src/main/java/com/voidaspect/jgol/grid/BitVectorInMemoryGrid.java:13 | the population never exceeds rows times columns |
| BitVectorGrids.CardStep | src/main/java/com/voidaspect/jgol/grid/BitVectorInMemoryGrid.java:41 | adding an absent cell or removing a present one moves the count by one |
| BitVectorGrids.KeepBit | src/main/java/com/voidaspect/jgol/grid/BitVectorInMemoryGrid.java:39 | writing a bit its current value changes no cell, so set skips the counter update |
| BitVectorGrids.RowOf | src/main/java/com/voidaspect/jgol/grid/BitVectorInMemoryGrid.java:72-74 | bits 1 .. cols of the BitSet for padded row a are the states of grid row a - 1; an unallocated row reads all dead |
| BitVectorGrids.DeadBetween | src/main/java/com/voidaspect/jgol/grid/BitVectorInMemoryGrid.java:75 | clear bits between two positions are dead cells |
| BitVectorGrids.SkipClear | src/main/java/com/voidaspect/jgol/grid/BitVectorInMemoryGrid.java:74-75 | a row-major walk passes over clear bits without a visit |
| BitVectorGrids.MeetBit | src/main/java/com/voidaspect/jgol/grid/BitVectorInMemoryGrid.java:75-76 | a set bit within the grid columns is the next live cell a row-major walk meets |
| BitVectorGrids.SkipToNext | src/main/java/com/voidaspect/jgol/grid/BitVectorInMemoryGrid.java:75 | nextSetBit(from) jumps over dead cells only and stops within the row or just past it |
| BitVectorGrids.MeetAndSkip | src/main/java/com/voidaspect/jgol/grid/BitVectorInMemoryGrid.java:75-76 | visiting the set bit col and jumping with nextSetBit(col + 1) continues the row-major walk |
| BitVectorGrids.VisitRow | src/main/java/com/voidaspect/jgol/grid/BitVectorInMemoryGrid.java:73-78 | one row of forEachAlive: the cells passed continue the row-major walk of live cells, and the countdown falls by the number passed; if it does not run out the whole row was walked |
| BitVectorGrids.VisitBits | src/main/java/com/voidaspect/jgol/grid/BitVectorInMemoryGrid.java:75-78 | the inner nextSetBit loop of forEachAlive: the same walk for an allocated, non-empty row |
| BitVectorGrids.CopyRow | src/main/java/com/voidaspect/jgol/grid/BitVectorInMemoryGrid.java:92-97 | row i of the snapshot comes to hold the states of its grid row from the window's first column on; other rows are untouched |
| BitVectorGrids.BitVectorInMemoryGrid.Live | src/main/java/com/voidaspect/jgol/grid/BitVectorInMemoryGrid.java:9-13 | the abstract state: the cells whose shifted bit is set |
| BitVectorGrids.BitVectorInMemoryGrid.constructor | src/main/java/com/voidaspect/jgol/grid/BitVectorInMemoryGrid.java:15-19 | an empty grid of valid dimensions, no row allocated |
| BitVectorGrids.BitVectorInMemoryGrid.Create | src/main/java/com/voidaspect/jgol/grid/BitVectorInMemoryGrid.java:15-19 | succeeds exactly for rows in [1, Integer.MAX_VALUE - 2] and columns >= 1 with an empty grid; bad dimensions give the dimension check's exception as written (the column failure reports the row count), a wrapped `rows + 2` NegativeArraySize |
| BitVectorGrids.BitVectorInMemoryGrid.CheckCell | src/main/java/com/voidaspect/jgol/grid/AbstractFiniteGrid.java:29-32 | passes exactly for in-grid cells, otherwise IndexOutOfBounds |
| BitVectorGrids.BitVectorInMemoryGrid.Get | src/main/java/com/voidaspect/jgol/grid/BitVectorInMemoryGrid.java:26-30 | range-checked: an in-grid cell's state, a row never written reads dead; out of range IndexOutOfBounds |
| BitVectorGrids.BitVectorInMemoryGrid.RowBits | src/main/java/com/voidaspect/jgol/grid/BitVectorInMemoryGrid.java:35-38 | the row's BitSet, created empty on first use without changing any cell; a `bits` that wrapped negative throws NegativeArraySize |
| BitVectorGrids.BitVectorInMemoryGrid.Set | src/main/java/com/voidaspect/jgol/grid/BitVectorInMemoryGrid.java:32-43 | succeeds exactly for in-grid cells (when `cols + 2` did not wrap); the cell becomes alive or dead, nothing else changes, and liveCells stays the population; failures change nothing |
| BitVectorGrids.BitVectorInMemoryGrid.Value | src/main/java/com/voidaspect/jgol/grid/BitVectorInMemoryGrid.java:61-64 | 1 exactly when the cell one up and one left of the shifted position is alive; unallocated rows and the ring read 0 |
| BitVectorGrids.BitVectorInMemoryGrid.ShiftedNeighbors | src/main/java/com/voidaspect/jgol/grid/BitVectorInMemoryGrid.java:45-59 | the eight shifted reads around a grid cell sum to its live neighbours |
| BitVectorGrids.BitVectorInMemoryGrid.GetNeighbors | src/main/java/com/voidaspect/jgol/grid/BitVectorInMemoryGrid.java:45-59 | range-checked: the live Moore neighbours of an in-grid cell |
| BitVectorGrids.BitVectorInMemoryGrid.LiveCells | src/main/java/com/voidaspect/jgol/grid/BitVectorInMemoryGrid.java:114-117 | the counter always equals the population |
| BitVectorGrids.BitVectorInMemoryGrid.ForEachAlive | src/main/java/com/voidaspect/jgol/grid/BitVectorInMemoryGrid.java:66-80 | the operation receives exactly the live cells, each once, in row-major order |
| BitVectorGrids.BitVectorInMemoryGrid.SnapshotWithoutBoundChecking | src/main/java/com/voidaspect/jgol/grid/BitVectorInMemoryGrid.java:82-101 | entry (i, j) of the fresh h x w matrix is the state of cell (fromRow + i, fromCol + j) |
| BitVectorGrids.BitVectorInMemoryGrid.Snapshot | src/main/java/com/voidaspect/jgol/grid/AbstractFiniteGrid.java:50-55 | succeeds exactly when the window fits in the grid, with each entry the state of its cell; otherwise IndexOutOfBounds |
| BitVectorGrids.BitVectorInMemoryGrid.Clear | src/main/java/com/voidaspect/jgol/grid/BitVectorInMemoryGrid.java:103-112 | every cell is dead afterwards and the counter is 0 |
| HashGrids.HashGrid.constructor | src/main/java/com/voidaspect/jgol/grid/HashGrid.java:10-13 | an empty grid of valid dimensions |
| HashGrids.HashGrid.Create | src/main/java/com/voidaspect/jgol/grid/HashGrid.java:10-13 | succeeds exactly for rows >= 1 and columns >= 1 with an empty grid; otherwise the dimension check's exception as written (the column failure reports the row count) |
| HashGrids.HashGrid.CheckCell | src/main/java/com/voidaspect/jgol/grid/AbstractFiniteGrid.java:29-32 | passes exactly for in-grid cells, otherwise IndexOutOfBounds |
| HashGrids.HashGrid.Get | src/main/java/com/voidaspect/jgol/grid/HashGrid.java:20-24 | range-checked: true exactly when the cell is in the set |
| HashGrids.HashGrid.Set | src/main/java/com/voidaspect/jgol/grid/HashGrid.java:26-34 | range-checked: the cell is added to or removed from the set and nothing else changes; out of range changes nothing |
| HashGrids.HashGrid.Value | src/main/java/com/voidaspect/jgol/grid/HashGrid.java:50-52 | 1 exactly for a grid cell in the set; positions off the grid count 0 |
| HashGrids.HashGrid.GetNeighbors | src/main/java/com/voidaspect/jgol/grid/HashGrid.java:36-48 | range-checked: the live Moore neighbours of an in-grid cell |
| HashGrids.HashGrid.Clear | src/main/java/com/voidaspect/jgol/grid/HashGrid.java:54-57 | every cell is dead afterwards |
| HashGrids.HashGrid.LiveCells | src/main/java/com/voidaspect/jgol/grid/HashGrid.java:59-62 | the population |
| HashGrids.HashGrid.ForEachAlive | src/main/java/com/voidaspect/jgol/grid/HashGrid.java:64-67 | every live cell is passed exactly once and nothing else (order left open) |
| NeighborCountingHashGrids.BumpAroundKeepsCounts | src/main/java/com/voidaspect/jgol/grid/NeighborCountingHashGrid.java:31-57 | the eight adds of a state-changing set keep every grid cell's stored count equal to its live-neighbour count in the new state |
| NeighborCountingHashGrids.BumpAroundAt | src/main/java/com/voidaspect/jgol/grid/NeighborCountingHashGrid.java:52-54 | for one grid cell, the eight adds move its count by delta exactly when it is adjacent to the changed cell |
| NeighborCountingHashGrids.AdjacentIsOneOfEight | src/main/java/com/voidaspect/jgol/grid/NeighborCountingHashGrid.java:47-54 | the eight positions around a cell are exactly its adjacent cells, each once |
| NeighborCountingHashGrids.BumpAt | src/main/java/com/voidaspect/jgol/grid/NeighborCountingHashGrid.java:89-93 | one add moves the count of its own in-grid cell by delta and leaves every other count |
| NeighborCountingHashGrids.MirrorsStore | src/main/java/com/voidaspect/jgol/grid/NeighborCountingHashGrid.java:89-97 | storing a count under pack(row, col) agrees with storing it under (row, col), because pack is injective |
| NeighborCountingHashGrids.NeighborMap.constructor | src/main/java/com/voidaspect/jgol/grid/NeighborCountingHashGrid.java:85-87 | a new map holds no count |
| NeighborCountingHashGrids.NeighborMap.Count | src/main/java/com/voidaspect/jgol/grid/NeighborCountingHashGrid.java:95-97 | the stored count of the cell, 0 when it has none |
| NeighborCountingHashGrids.NeighborMap.Add | src/main/java/com/voidaspect/jgol/grid/NeighborCountingHashGrid.java:89-93 | off the grid nothing changes; on it the cell's count moves by the given byte |
| NeighborCountingHashGrids.NeighborMap.Clear | src/main/java/com/voidaspect/jgol/grid/NeighborCountingHashGrid.java:99-101 | the map holds no count afterwards |
| NeighborCountingHashGrids.NeighborCountingHashGrid.constructor | src/main/java/com/voidaspect/jgol/grid/NeighborCountingHashGrid.java:14-18 | an empty grid of valid dimensions with an empty map |
| NeighborCountingHashGrids.NeighborCountingHashGrid.Create | src/main/java/com/voidaspect/jgol/grid/NeighborCountingHashGrid.java:14-18 | succeeds exactly for rows >= 1 and columns >= 1 with an empty grid; otherwise the dimension check's exception as written (the column failure reports the row count) |
| NeighborCountingHashGrids.NeighborCountingHashGrid.CheckCell | src/main/java/com/voidaspect/jgol/grid/AbstractFiniteGrid.java:29-32 | passes exactly for in-grid cells, otherwise IndexOutOfBounds |
| NeighborCountingHashGrids.NeighborCountingHashGrid.Get | src/main/java/com/voidaspect/jgol/grid/NeighborCountingHashGrid.java:25-29 | range-checked: true exactly when the cell is in the set |
| NeighborCountingHashGrids.NeighborCountingHashGrid.Set | src/main/java/com/voidaspect/jgol/grid/NeighborCountingHashGrid.java:31-57 | range-checked: the cell becomes alive or dead; a set that changes nothing leaves the map alone, a set that changes the state moves the counts of the in-grid neighbours by one, in the source's order |
| NeighborCountingHashGrids.NeighborCountingHashGrid.Spread | src/main/java/com/voidaspect/jgol/grid/NeighborCountingHashGrid.java:46-54 | the eight adds around the cell, in the source's order |
| NeighborCountingHashGrids.NeighborCountingHashGrid.GetNeighbors | src/main/java/com/voidaspect/jgol/grid/NeighborCountingHashGrid.java:59-63 | range-checked: the stored count is the cell's live Moore neighbours |
| NeighborCountingHashGrids.NeighborCountingHashGrid.LiveCells | src/main/java/com/voidaspect/jgol/grid/NeighborCountingHashGrid.java:65-68 | the population |
| NeighborCountingHashGrids.NeighborCountingHashGrid.Clear | src/main/java/com/voidaspect/jgol/grid/NeighborCountingHashGrid.java:70-74 | every cell is dead and every stored count 0 afterwards |
| NeighborCountingHashGrids.NeighborCountingHashGrid.ForEachAlive | src/main/java/com/voidaspect/jgol/grid/NeighborCountingHashGrid.java:76-79 | every live cell is passed exactly once and nothing else (order left open) |
| JavaInt.ToByte | src/main/java/com/voidaspect/jgol/grid/NeighborCountingGrid.java:56 | `(byte)` narrowing, also what `b += k` stores in a byte: the value in [-128, 128) congruent to the input modulo 256 |
| NeighborCountingGrids.FlipAlive | src/main/java/com/voidaspect/jgol/grid/NeighborCountingGrid.java:36 | `b ^= ALIVE_MASK` flips the state bit and keeps the count bits |
| NeighborCountingGrids.UnsignedShift1 | src/main/java/com/voidaspect/jgol/grid/NeighborCountingGrid.java:75 | `b >>> 1` halves a non-negative byte; a negative byte sign-extends and comes back at least 2^30 |
| NeighborCountingGrids.Encode | src/main/java/com/voidaspect/jgol/grid/NeighborCountingGrid.java:7-11 | the byte of a cell holds its state in bit 0 and twice its live-neighbour count above it, at most 17 |
| NeighborCountingGrids.EncodeDecode | src/main/java/com/voidaspect/jgol/grid/NeighborCountingGrid.java:23-26 | decoding a cell's byte gives back its state (get) and its live-neighbour count (neighbors) |
| NeighborCountingGrids.EncodeEmpty | src/main/java/com/voidaspect/jgol/grid/NeighborCountingGrid.java:13-16 | an empty grid is all zero bytes |
| NeighborCountingGrids.EncodeAfterSet | src/main/java/com/voidaspect/jgol/grid/NeighborCountingGrid.java:28-71 | a state-changing set flips bit 0 of the cell's byte and moves by ALIVE_NEIGHBOR the byte of each in-grid neighbour, so every byte encodes the new state |
| NeighborCountingGrids.NeighborCountingGrid.constructor | src/main/java/com/voidaspect/jgol/grid/NeighborCountingGrid.java:13-16 | an empty grid of valid dimensions, all bytes zero |
| NeighborCountingGrids.NeighborCountingGrid.Create | src/main/java/com/voidaspect/jgol/grid/NeighborCountingGrid.java:13-16 | succeeds exactly for rows >= 1 and columns >= 1 with an empty grid; otherwise the dimension check's exception as written (the column failure reports the row count) |
| NeighborCountingGrids.NeighborCountingGrid.Get | src/main/java/com/voidaspect/jgol/grid/NeighborCountingGrid.java:23-26 | bit 0 of an in-grid cell's byte is its state; indices outside the array throw |
| NeighborCountingGrids.NeighborCountingGrid.GetNeighbors | src/main/java/com/voidaspect/jgol/grid/NeighborCountingGrid.java:73-76 | the byte shifted right is the cell's live-neighbour count; indices outside the array throw |
| NeighborCountingGrids.NeighborCountingGrid.Set | src/main/java/com/voidaspect/jgol/grid/NeighborCountingGrid.java:28-71 | an in-grid cell becomes alive or dead and every byte stays its cell's encoding; indices outside the array throw and change nothing |
| NeighborCountingGrids.NeighborCountingGrid.Clear | src/main/java/com/voidaspect/jgol/grid/NeighborCountingGrid.java:78-85 | every cell dead and every byte zero afterwards |
| NeighborCountingGrids.NeighborCountingGrid.Spread | src/main/java/com/voidaspect/jgol/grid/NeighborCountingGrid.java:52-70 | the adds of the up, middle and down rows, the up and down rows skipped at the edges: each in-grid neighbour's byte moves by the update and nothing else changes |
| NeighborCountingGrids.NeighborCountingGrid.AddAround | src/main/java/com/voidaspect/jgol/grid/NeighborCountingGrid.java:53-59 | the adds of one row around the column, the left and right ones skipped at the edges |
| Listeners.DiedCells | src/main/java/com/voidaspect/jgol/game/AllAtOnceProgressStrategy.java:57-61 | the cells reported through onCellDied, in order |
| Listeners.SpawnedCells | src/main/java/com/voidaspect/jgol/game/AllAtOnceProgressStrategy.java:81-85 | the cells reported through onCellSpawned, in order |
| Listeners.ReportedSnoc | src/main/java/com/voidaspect/jgol/game/AllAtOnceProgressStrategy.java:54-72 | one more event extends the reported deaths or births by that event only |
| Listeners.ReportedMembers | src/main/java/com/voidaspect/jgol/game/AllAtOnceProgressStrategy.java:54-72 | a cell is among the reported deaths exactly when its onCellDied was fired, and among the births exactly when its onCellSpawned was |
| Listeners.ReportedAppend | src/main/java/com/voidaspect/jgol/game/AllAtOnceProgressStrategy.java:54-72 | the cells reported over two stretches of events are those of each stretch, in order |
| LifeRules.Neighbors | src/main/java/com/voidaspect/jgol/grid/PaddedInMemoryGrid.java:43-54 | the Moore neighbour count of a cell, off-grid cells counting as dead, lies in 0 .. 8 |
| LifeRules.Step | src/main/java/com/voidaspect/jgol/game/ChunkedProgressStrategy.java:19-27 | a cell is in the next generation exactly when it is in the grid and either live with 2 or 3 live neighbours or dead with exactly 3 |
| LifeRules.AroundIsAdjacent | src/main/java/com/voidaspect/jgol/game/AbstractProgressStrategy.java:98-104 | the eight positions evaluate visits are exactly the cells adjacent to the evaluated one |
| LifeRules.LiveNeighborWitness | src/main/java/com/voidaspect/jgol/game/AbstractProgressStrategy.java:108-120 | a cell with a live neighbour is among the positions visited around some live grid cell |
| LifeRules.BirthNeedsLiveNeighbor | src/main/java/com/voidaspect/jgol/game/AbstractProgressStrategy.java:108-120 | every birth lies next to a live cell, which is why visiting the neighbours of live cells finds every birth |
| LifeRules.NeighborsAfterBirth | src/main/java/com/voidaspect/jgol/grid/NeighborCountingGrid.java:28-71 | bringing a cell to life adds one to the count of exactly its neighbours |
| LifeRules.NeighborsAfterDeath | src/main/java/com/voidaspect/jgol/grid/NeighborCountingGrid.java:28-71 | killing a cell subtracts one from the count of exactly its neighbours |
| LifeRules.DeltaCells | src/main/java/com/voidaspect/jgol/game/ChunkedProgressStrategy.java:19-27 | the deaths are exactly the grid cells the rule kills and the births exactly those it brings to life |
| LifeRules.ApplyDelta | src/main/java/com/voidaspect/jgol/game/NextGen.java:29-32 | adding the births and removing the deaths, in either order, yields the next generation; no cell is both |
| LifeRules.FixedPoint | src/main/java/com/voidaspect/jgol/game/AbstractProgressStrategy.java:19-23 | a generation leaves the grid unchanged exactly when it has no births and no deaths, so freezing on zero updates freezes exactly the still grids |
| LifeRules.LoneCellDies | src/test/java/com/voidaspect/jgol/GameOfLifeTest.java:118-133 | a lone cell dies and the empty grid stays empty |
| LifeRules.Blinker | src/test/java/com/voidaspect/jgol/GameOfLifeTest.java:273-295 | the blinker on a 5 x 5 grid turns from horizontal to vertical and back |
| LifeRules.Block | src/test/java/com/voidaspect/jgol/GameOfLifeTest.java:209-221 | the 2 x 2 block is a still life anywhere inside the grid |
| LifeRules.FullGrid | src/test/java/com/voidaspect/jgol/GameOfLifeTest.java:69-99 | on a full grid only the four corners survive, and on a grid of at least 3 x 3 those then die |
| LifeRules.AllCells | src/main/java/com/voidaspect/jgol/grid/AbstractFiniteGrid.java:26 | the cells of a rows x cols grid are exactly the in-bounds pairs |
| RowMajor.ScanMembers | src/main/java/com/voidaspect/jgol/grid/AbstractFiniteGrid.java:90-97 | the walk of forEachAlive, on reaching a cell, has met exactly the live cells it has passed |
| RowMajor.ScanIncreasing | src/main/java/com/voidaspect/jgol/grid/AbstractFiniteGrid.java:90-97 | forEachAlive meets the cells in strictly increasing row-major order |
| RowMajor.ScanSkip | src/main/java/com/voidaspect/jgol/grid/AbstractFiniteGrid.java:91-95 | stepping over dead cells reports nothing |
| RowMajor.ScanPrefix | src/main/java/com/voidaspect/jgol/grid/AbstractFiniteGrid.java:94 | a walk stopped early, as the remaining-count exit does, reports a prefix of the full walk |
| RowMajor.ScanComplete | src/main/java/com/voidaspect/jgol/grid/AbstractFiniteGrid.java:94 | once the walk has met as many cells as are live, stopping loses nothing: it is the whole listing |
| RowMajor.RowMajorLiveIsLive | src/main/java/com/voidaspect/jgol/grid/AbstractFiniteGrid.java:86-98 | the row-major listing holds every live cell once, in order, and nothing else |
| RowMajor.FullScan | src/main/java/com/voidaspect/jgol/grid/AbstractFiniteGrid.java:90-97 | on a full grid the walk has met row * cols + col cells on reaching (row, col) |
| RowMajor.PopulationBound | src/main/java/com/voidaspect/jgol/grid/AbstractFiniteGrid.java:26 | a grid holds at most rows * cols live cells |
| RowMajor.IncreasingSnoc | src/main/java/com/voidaspect/jgol/game/ChunkedProgressStrategy.java:17-29 | appending a cell after every recorded one keeps a bag in row-major order |
| NextGens.ApplyBags | src/main/java/com/voidaspect/jgol/game/NextGen.java:29-32 | a cell is live after the delta exactly when it was live or spawned, and was not died |
| NextGens.ApplyOrderFree | src/main/java/com/voidaspect/jgol/game/NextGen.java:29-32 | when no cell is in both bags, applying the deaths first gives the same grid |
| NextGens.DistinctMembers | src/main/java/com/voidaspect/jgol/game/AbstractProgressStrategy.java:84-86 | a bag without repeats holds as many entries as cells, so its size counts cells |
| NextGens.ApplyStep | src/main/java/com/voidaspect/jgol/game/NextGen.java:29-32 | bags holding exactly the births and the deaths turn the grid into the next generation |
| NextGens.MembersSnoc | src/main/java/com/voidaspect/jgol/game/NextGen.java:21-27 | adding one cell to a bag adds exactly that cell to its set |
| NextGens.NextGen.constructor | src/main/java/com/voidaspect/jgol/game/NextGen.java:15-19 | two fresh empty bags over the given grid |
| NextGens.NextGen.WillDie | src/main/java/com/voidaspect/jgol/game/NextGen.java:21-23 | the cell is appended to died, unless the bag is full, which throws and changes nothing; spawned is untouched |
| NextGens.NextGen.WillSpawn | src/main/java/com/voidaspect/jgol/game/NextGen.java:25-27 | the cell is appended to spawned, unless the bag is full; died is untouched |
| NextGens.NextGen.UpdateGrid | src/main/java/com/voidaspect/jgol/game/NextGen.java:29-32 | every spawned cell set alive, then every died cell set dead |
| ChunkedProgress.ClampAsWritten | src/main/java/com/voidaspect/jgol/game/ChunkedProgressStrategy.java:14-15 | the end of the scan as written, toRow by the columns and toCol by the rows; it agrees with the corrected clamp on square grids |
| ChunkedProgress.Clamp | src/main/java/com/voidaspect/jgol/game/ChunkedProgressStrategy.java:14-15 | the end of the scan clamped to the grid, never past the last row or column |
| ChunkedProgress.ProgressChunkAsWritten | src/main/java/com/voidaspect/jgol/game/ChunkedProgressStrategy.java:13-31 | progressChunk with the swapped clamps: the delta of the rectangle those clamps give, or the out-of-range exception |
| ChunkedProgress.ProgressChunk | src/main/java/com/voidaspect/jgol/game/ChunkedProgressStrategy.java:13-31 | a fresh NextGen whose died and spawned hold exactly the deaths and births of the clamped rectangle, in row-major order; only a bag overflow fails |
| ChunkedProgress.ScanChunk | src/main/java/com/voidaspect/jgol/game/ChunkedProgressStrategy.java:17-30 | the two loops record exactly the rectangle's deaths and births, or fail off the grid or on overflow |
| ChunkedProgress.ScanRow | src/main/java/com/voidaspect/jgol/game/ChunkedProgressStrategy.java:18-28 | one row of the rectangle added to the account of the scan |
| ChunkedProgress.Examine | src/main/java/com/voidaspect/jgol/game/ChunkedProgressStrategy.java:19-27 | a live cell with fewer than 2 or more than 3 neighbours goes to died, a dead one with 3 to spawned; reads off the grid throw |
| ChunkedProgress.ScanStep | src/main/java/com/voidaspect/jgol/game/ChunkedProgressStrategy.java:19-27 | recording one cell by the rule keeps the bags equal to the deaths and births of the cells passed |
| ChunkedProgress.NextRow | src/main/java/com/voidaspect/jgol/game/ChunkedProgressStrategy.java:17-18 | the end of one row of the scan is the start of the next |
| ChunkedProgress.ScanEnd | src/main/java/com/voidaspect/jgol/game/ChunkedProgressStrategy.java:17-30 | a completed scan lies in the grid and holds all of the rectangle's deaths and births |
| ChunkedProgress.WholeGridScan | src/main/java/com/voidaspect/jgol/game/ChunkedProgressStrategy.java:13-31 | a chunk over the whole grid, applied with updateGrid, yields the next generation |
| ChunkedProgress.ClampAsWrittenMissesRow | src/main/java/com/voidaspect/jgol/game/ChunkedProgressStrategy.java:14-15 | on a 2 x 1 grid the swapped clamps cut the whole-grid chunk to 1 x 1 and miss a death; the corrected clamp keeps it |
| SparseProgress.VisitAllAppend | src/main/java/com/voidaspect/jgol/game/AbstractProgressStrategy.java:102-104 | visiting two runs of positions is visiting the first, then the second |
| SparseProgress.NearAdd | src/main/java/com/voidaspect/jgol/game/AbstractProgressStrategy.java:98-104 | evaluating one more live cell adds exactly its eight neighbours to the positions visited |
| SparseProgress.HeardDied | src/main/java/com/voidaspect/jgol/game/AbstractProgressStrategy.java:93-94 | willDie followed by onCellDied keeps the listener's events in step with the died bag |
| SparseProgress.HeardSpawned | src/main/java/com/voidaspect/jgol/game/AbstractProgressStrategy.java:117-118 | willSpawn followed by onCellSpawned keeps the listener's events in step with the spawned bag |
| SparseProgress.DieStep | src/main/java/com/voidaspect/jgol/game/AbstractProgressStrategy.java:89-95 | judging a new live cell's own fate keeps died equal to the deaths among the evaluated cells |
| SparseProgress.VisitStep | src/main/java/com/voidaspect/jgol/game/AbstractProgressStrategy.java:108-120 | a visit skips off-grid, live and already visited cells and records a first-seen dead cell with 3 neighbours, keeping spawned equal to the births among the visited |
| SparseProgress.EvaluateStep | src/main/java/com/voidaspect/jgol/game/AbstractProgressStrategy.java:88-106 | evaluate keeps the account with the cell added to those evaluated and its neighbours to those visited |
| SparseProgress.EvaluateAllAccounted | src/main/java/com/voidaspect/jgol/game/AllAtOnceProgressStrategy.java:17 | evaluating distinct live cells in turn accounts for exactly those cells and their neighbourhoods |
| SparseProgress.SparseComplete | src/main/java/com/voidaspect/jgol/game/AllAtOnceProgressStrategy.java:14-20 | once every live cell is evaluated, died holds exactly the deaths and spawned exactly the births |
| SparseProgress.BirthVisited | src/main/java/com/voidaspect/jgol/game/AbstractProgressStrategy.java:108-120 | a cell is spawned exactly when it is a birth, since every birth is next to a live cell |
| SparseProgress.SparseGeneration | src/main/java/com/voidaspect/jgol/game/AllAtOnceProgressStrategy.java:14-20 | the sparse rule over forEachAlive records the whole generation: grid cells only, bags without repeats, each death and birth reported once |
| SparseProgress.UpdatesZero | src/main/java/com/voidaspect/jgol/game/AbstractProgressStrategy.java:84-86 | the int sum of the two bag sizes is zero exactly when both bags are empty: two sizes of at most MAX_ARRAY_LENGTH can wrap, but never to zero |
| SparseProgress.SparseNextGen.EvaluateEach | src/main/java/com/voidaspect/jgol/game/AllAtOnceProgressStrategy.java:17 | evaluate for each live cell in order, or the bag overflow |
| SparseProgress.SparseNextGen.Evaluate | src/main/java/com/voidaspect/jgol/game/AbstractProgressStrategy.java:88-106 | the cell's own fate, then the eight visits, as the account's evaluate effect |
| SparseProgress.SparseNextGen.VisitNeighbors | src/main/java/com/voidaspect/jgol/game/AbstractProgressStrategy.java:98-104 | the eight visits in the source's order |
| SparseProgress.SparseNextGen.Visit | src/main/java/com/voidaspect/jgol/game/AbstractProgressStrategy.java:108-120 | one visit: skip, or mark visited and record a birth with its event |
| SparseProgress.SparseNextGen.RecordDeath | src/main/java/com/voidaspect/jgol/game/AbstractProgressStrategy.java:91-95 | the cell appended to died and onCellDied heard |
| SparseProgress.SparseNextGen.RecordBirth | src/main/java/com/voidaspect/jgol/game/AbstractProgressStrategy.java:115-118 | the cell appended to spawned and onCellSpawned heard |
| SparseProgress.SparseNextGen.UpdateAndCount | src/main/java/com/voidaspect/jgol/game/AllAtOnceProgressStrategy.java:18-19 | the grid becomes the next generation and the count is the number of changed cells, zero exactly when nothing changed |
| SparseProgress.SparseNextGen.CountUpdates | src/main/java/com/voidaspect/jgol/game/AbstractProgressStrategy.java:84-86 | the two bag sizes added as ints, zero exactly when both bags are empty |
| SparseProgress.AllAtOnceStrategy.constructor | src/main/java/com/voidaspect/jgol/game/AbstractProgressStrategy.java:14-16 | neither frozen nor finished |
| SparseProgress.AllAtOnceStrategy.Evaluated | src/main/java/com/voidaspect/jgol/game/AllAtOnceProgressStrategy.java:16-17 | a fresh NextGen that has evaluated every live cell in forEachAlive order |
| SparseProgress.AllAtOnceStrategy.ProgressAndCountUpdates | src/main/java/com/voidaspect/jgol/game/AllAtOnceProgressStrategy.java:14-20 | the grid becomes the next generation, each death and birth is reported once, and the count is zero exactly when nothing changed; an overflow leaves the grid alone |
| SparseProgress.AllAtOnceStrategy.Progress | src/main/java/com/voidaspect/jgol/game/AbstractProgressStrategy.java:19-23 | nothing when finished or frozen; otherwise one generation, after which the strategy is frozen exactly when the grid did not change |
| SparseProgress.AllAtOnceStrategy.Freeze | src/main/java/com/voidaspect/jgol/game/AbstractProgressStrategy.java:26-28 | frozen, finished unchanged |
| SparseProgress.AllAtOnceStrategy.Unfreeze | src/main/java/com/voidaspect/jgol/game/AbstractProgressStrategy.java:31-33 | not frozen, finished unchanged |
| SparseProgress.AllAtOnceStrategy.Finish | src/main/java/com/voidaspect/jgol/game/AbstractProgressStrategy.java:36-38 | finished, frozen unchanged |
| Games.AbstractLife.Progress | src/main/java/com/voidaspect/jgol/game/AbstractLife.java:9-12 | one step of the strategy: nothing when it is finished or frozen, otherwise the next generation or an unchanged grid on overflow |
| Games.AbstractLife.ProgressWith | src/main/java/com/voidaspect/jgol/game/AbstractLife.java:14-22 | a caller's listener hears onProgressStart, then each death and birth once, then onProgressFinish; a null or NOOP listener hears nothing |
| Games.AbstractLife.constructor | src/main/java/com/voidaspect/jgol/game/AbstractLife.java:7-26 | a game over the given grid and strategy, whose nextGen is that strategy's progress (the source leaves nextGen abstract) |
| Games.Life.constructor | src/main/java/com/voidaspect/jgol/game/Life.java:12-15 | the given grid and strategy |
| Games.Life.Finish | src/main/java/com/voidaspect/jgol/game/Life.java:17-21 | the strategy is finished, then replaced by NOOP |
| Games.Life.Progress | src/main/java/com/voidaspect/jgol/game/Life.java:28-31 | NOOP changes nothing; an active strategy progresses the grid |
| Games.GoL.constructor | src/main/java/com/voidaspect/jgol/game/GoL.java:17-21 | the given grid, strategy and callback, nothing run yet |
| Games.GoL.Finish | src/main/java/com/voidaspect/jgol/game/GoL.java:23-29 | NOOP from now on, and the callback runs once per call when there is one |
| Games.GoL.Progress | src/main/java/com/voidaspect/jgol/game/GoL.java:36-39 | NOOP changes nothing; an active strategy progresses the grid |
| LifeRules.Around | src/main/java/com/voidaspect/jgol/game/AbstractProgressStrategy.java:98-104 | the eight positions evaluate visits, in its order |
| RowMajor.ScanStep | src/main/java/com/voidaspect/jgol/grid/AbstractFiniteGrid.java:92-93 | stepping over a cell reports it exactly when it is live |
| SparseProgress.VisitAllStep | src/main/java/com/voidaspect/jgol/game/AbstractProgressStrategy.java:102-104 | visiting a run of positions keeps the account, with all of them added to those visited |
| SparseProgress.DiedComplete | src/main/java/com/voidaspect/jgol/game/AbstractProgressStrategy.java:89-95 | once every live cell's fate is judged, died holds exactly the deaths |
| SparseProgress.SparseNextGen.constructor | src/main/java/com/voidaspect/jgol/game/AbstractProgressStrategy.java:64-74 | empty bags of the 64-slot growth policy, an empty visited set and no events |
| Configs.IntProductFitsLong | src/main/java/com/voidaspect/jgol/config/GameOfLifeConfig.java:96-98 | the product of two ints is at most 2^62 in size, so `(long) rows * columns` never wraps |
| Configs.Size | src/main/java/com/voidaspect/jgol/config/GameOfLifeConfig.java:96-98 | the size is exactly rows times columns |
| Configs.ChunksAsWritten | src/main/java/com/voidaspect/jgol/config/GameOfLifeConfig.java:84-90 | getChunks as written, with the int chunk size, Java's truncating long division for either sign of it, and the int comparison; fails with an ArithmeticException exactly when the int chunk size wraps to zero |
| Configs.Chunks | src/main/java/com/voidaspect/jgol/config/GameOfLifeConfig.java:84-90 | getChunks with the comparison in long arithmetic (the division truncating for either sign of the chunk size) fails exactly when the int chunk size is zero |
| Configs.ChunkCountCeiling | src/main/java/com/voidaspect/jgol/config/GameOfLifeConfig.java:86-89 | the count is the ceiling of size over chunk size: enough chunks to cover every cell, and one fewer would not be |
| Configs.ChunksCeiling | src/main/java/com/voidaspect/jgol/config/GameOfLifeConfig.java:84-90 | for a positive int chunk size getChunks succeeds with the ceiling of size over chunk size |
| Configs.ChunksAgreeOnIntSizes | src/main/java/com/voidaspect/jgol/config/GameOfLifeConfig.java:84-90 | the as-written and corrected counts agree whenever the size fits in an int |
| Configs.SmallGridChunks | src/main/java/com/voidaspect/jgol/config/GameOfLifeConfig.java:84-90 | for fewer than Integer.MAX_VALUE cells and a positive int chunk size, getChunks as written is the ceiling of size over chunk size |
| Configs.ChunksOverflow | src/main/java/com/voidaspect/jgol/config/GameOfLifeConfig.java:88 | a 100000 x 100000 grid in 1000 x 1000 chunks needs 10000 chunks, but the int product wraps and getChunks counts 10001 |
| Configs.NegativeChunkSize | src/main/java/com/voidaspect/jgol/config/GameOfLifeConfig.java:84-90 | positive 50000 x 50000 chunks wrap to the int -1794967296; getChunks then counts 1 chunk for a 2000 x 2000 grid and -1 for a 63246 x 63246 grid |
| Configs.GameOfLifeConfig.constructor | src/main/java/com/voidaspect/jgol/config/GameOfLifeConfig.java:12-28 | the field initialisers: no dimensions or state, parallel on, thread safety off, threshold 1000000, chunks 1000 x 1000 |
| Configs.GameOfLifeConfig.SetRows | src/main/java/com/voidaspect/jgol/config/GameOfLifeConfig.java:34-37 | rows set, every other setting unchanged, the configuration returned |
| Configs.GameOfLifeConfig.SetColumns | src/main/java/com/voidaspect/jgol/config/GameOfLifeConfig.java:43-46 | columns set, every other setting unchanged, the configuration returned |
| Configs.GameOfLifeConfig.SetInitialState | src/main/java/com/voidaspect/jgol/config/GameOfLifeConfig.java:52-55 | initial state set, every other setting unchanged, the configuration returned |
| Configs.GameOfLifeConfig.SetProgressExecutor | src/main/java/com/voidaspect/jgol/config/GameOfLifeConfig.java:61-64 | executor set, every other setting unchanged, the configuration returned |
| Configs.GameOfLifeConfig.SetParallelizationThreshold | src/main/java/com/voidaspect/jgol/config/GameOfLifeConfig.java:70-73 | threshold set, every other setting unchanged, the configuration returned |
| Configs.GameOfLifeConfig.SetParallel | src/main/java/com/voidaspect/jgol/config/GameOfLifeConfig.java:79-82 | parallel flag set, every other setting unchanged, the configuration returned |
| Configs.GameOfLifeConfig.SetChunkHeight | src/main/java/com/voidaspect/jgol/config/GameOfLifeConfig.java:100-103 | chunk height set, every other setting unchanged, the configuration returned |
| Configs.GameOfLifeConfig.SetChunkWidth | src/main/java/com/voidaspect/jgol/config/GameOfLifeConfig.java:109-112 | chunk width set, every other setting unchanged, the configuration returned |
| Configs.GameOfLifeConfig.SetThreadSafe | src/main/java/com/voidaspect/jgol/config/GameOfLifeConfig.java:118-121 | thread-safety flag set, every other setting unchanged, the configuration returned |
| Configs.GameOfLifeConfig.GetSize | src/main/java/com/voidaspect/jgol/config/GameOfLifeConfig.java:96-98 | the number of cells, rows times columns, exactly |
| Configs.GameOfLifeConfig.GetChunks | src/main/java/com/voidaspect/jgol/config/GameOfLifeConfig.java:84-90 | getChunks as written, for every chunk size including a wrapped negative one: an ArithmeticException exactly when the int chunk size wraps to zero, and the ceiling of size over chunk size for grids of fewer than Integer.MAX_VALUE cells and a positive chunk size |
| ParallelTiling.TileEnd | src/main/java/com/voidaspect/jgol/GameOfLife.java:337-338 | the end of a tile is its start plus the side, saturated at Integer.MAX_VALUE instead of wrapping |
| ParallelTiling.ClampedTileEnd | src/main/java/com/voidaspect/jgol/GameOfLife.java:276-277 | a clamped tile end lies after the start, at the grid's bound or the start plus the side |
| ParallelTiling.TileEndOverflow | src/main/java/com/voidaspect/jgol/GameOfLife.java:333-337 | on a two-row grid a side of Integer.MAX_VALUE wraps the first toRow below fromRow, so the band is empty; the row counter wraps the same way, to a second band starting at Integer.MIN_VALUE whose first cell reads the row above, index Integer.MAX_VALUE, outside the matrix; the saturated end covers the grid |
| ParallelTiling.DeltaInside | src/main/java/com/voidaspect/jgol/GameOfLife.java:280-291 | the births and deaths of a generation lie in the grid |
| ParallelTiling.NothingSwept | src/main/java/com/voidaspect/jgol/GameOfLife.java:332-333 | before the first task no cell is swept and none recorded |
| ParallelTiling.BandStart | src/main/java/com/voidaspect/jgol/GameOfLife.java:333-334 | opening a band sweeps nothing until its first tile |
| ParallelTiling.TileStep | src/main/java/com/voidaspect/jgol/GameOfLife.java:334-340 | a tile whose chunk recorded its deaths and births extends the swept region and the recorded cells together |
| ParallelTiling.TileStepParts | src/main/java/com/voidaspect/jgol/GameOfLife.java:339 | the same step on the list of tasks: the chunk's bags are appended |
| ParallelTiling.BandEnd | src/main/java/com/voidaspect/jgol/GameOfLife.java:333-341 | once a band's tiles reach the last column, every row of the band is swept |
| ParallelTiling.TileDelta | src/main/java/com/voidaspect/jgol/GameOfLife.java:335-339 | a tile at padded coordinates, clamped by progressChunk, accounts for the next chunkHeight columns of the band |
| ParallelTiling.NextTile | src/main/java/com/voidaspect/jgol/GameOfLife.java:334 | the clamped end of a tile is the start of the next, or the grid's last column |
| ParallelTiling.BandOpen | src/main/java/com/voidaspect/jgol/GameOfLife.java:333 | a band of chunkWidth rows ends where progressChunk clamps it |
| ParallelTiling.BandClose | src/main/java/com/voidaspect/jgol/GameOfLife.java:333-341 | a band that has passed the last column has swept every row before the next band |
| ParallelTiling.AllSwept | src/main/java/com/voidaspect/jgol/GameOfLife.java:332-341 | once the bands pass the last row, the chunk tasks together hold every birth and every death |
| ParallelTiling.ApplyInTurn | src/main/java/com/voidaspect/jgol/GameOfLife.java:347-349 | applying the next task's delta after the earlier ones adds its births and its deaths to those applied |
| GameOfLifeFacade.Unpad | src/main/java/com/voidaspect/jgol/GameOfLife.java:217-223 | a padded cell (r, c) stands for grid cell (r - 1, c - 1), entry by entry |
| GameOfLifeFacade.ScanCell | src/main/java/com/voidaspect/jgol/GameOfLife.java:282-290 | recording one padded cell by the rule keeps the bags equal, in grid coordinates, to the deaths and births passed |
| GameOfLifeFacade.ScanChunkEnd | src/main/java/com/voidaspect/jgol/GameOfLife.java:280-293 | a finished scan of a padded rectangle holds exactly its deaths and births |
| GameOfLifeFacade.PaddedCount | src/main/java/com/voidaspect/jgol/GameOfLife.java:296-306 | the eight reads of neighbors, in the source's order, sum to the neighbour count of the grid cell, in 0 .. 8 |
| GameOfLifeFacade.ChunkAccount | src/main/java/com/voidaspect/jgol/GameOfLife.java:335-339 | a chunk task's delta extends the chunk tasks' account of births and deaths by the tile's columns |
| GameOfLifeFacade.ApplyNext | src/main/java/com/voidaspect/jgol/GameOfLife.java:347-349 | task k's delta lies in the grid, and applying it after the earlier ones applies one more task |
| GameOfLifeFacade.CellVerdict | src/main/java/com/voidaspect/jgol/GameOfLife.java:284-290 | the padded entry and its count decide death and birth exactly as the rule does |
| GameOfLifeFacade.Verdict | src/main/java/com/voidaspect/jgol/game/ChunkedProgressStrategy.java:19-27 | a cell dies exactly when it is live with fewer than 2 or more than 3 neighbours and is born exactly when it is dead with 3 |
| GameOfLifeFacade.GameOfLife.Live | src/main/java/com/voidaspect/jgol/GameOfLife.java:150-154 | the live cells are exactly the grid cells whose interior entry is true |
| GameOfLifeFacade.GameOfLife.constructor | src/main/java/com/voidaspect/jgol/GameOfLife.java:99-127 | the fields the configuration chose, with size rows times columns |
| GameOfLifeFacade.GameOfLife.Create | src/main/java/com/voidaspect/jgol/GameOfLife.java:93-128 | succeeds exactly for 1 .. INT_MAX - 2 rows and columns and, when parallel, a non-zero chunk size; otherwise the dimension check's exception as written (the column failure reports the row count), NegativeArraySize or ArithmeticException; the grid holds the initial state's true entries; the strategy is parallel exactly when enabled and the size passes the threshold, and then holds the configured chunk sides and getChunks as written, which is negative for some positive sides whose int product wraps (then progress fails with IllegalArgumentException) |
| GameOfLifeFacade.GameOfLife.Set | src/main/java/com/voidaspect/jgol/GameOfLife.java:130-138 | an out-of-range index throws and changes nothing; otherwise exactly that cell takes the state |
| GameOfLifeFacade.GameOfLife.IsAlive | src/main/java/com/voidaspect/jgol/GameOfLife.java:150-154 | an out-of-range index throws; otherwise whether the cell is live |
| GameOfLifeFacade.GameOfLife.CopyRow | src/main/java/com/voidaspect/jgol/GameOfLife.java:183 | a fresh copy of the interior of one padded row |
| GameOfLifeFacade.GameOfLife.Snapshot | src/main/java/com/voidaspect/jgol/GameOfLife.java:166-186 | a fresh rows x columns matrix of distinct fresh rows, true exactly at the live cells |
| GameOfLifeFacade.GameOfLife.Clear | src/main/java/com/voidaspect/jgol/GameOfLife.java:188-211 | every cell is dead |
| GameOfLifeFacade.GameOfLife.Spawn | src/main/java/com/voidaspect/jgol/GameOfLife.java:217-219 | the cell at the padded position becomes alive, nothing else changes |
| GameOfLifeFacade.GameOfLife.Kill | src/main/java/com/voidaspect/jgol/GameOfLife.java:221-223 | the cell at the padded position becomes dead, nothing else changes |
| GameOfLifeFacade.GameOfLife.SpawnAll | src/main/java/com/voidaspect/jgol/GameOfLife.java:401 | every cell of the bag becomes alive |
| GameOfLifeFacade.GameOfLife.KillAll | src/main/java/com/voidaspect/jgol/GameOfLife.java:402 | every cell of the bag becomes dead |
| GameOfLifeFacade.GameOfLife.SpawnNext | src/main/java/com/voidaspect/jgol/GameOfLife.java:401 | one more cell of the bag set alive |
| GameOfLifeFacade.GameOfLife.Value | src/main/java/com/voidaspect/jgol/GameOfLife.java:308-310 | 1 for a live cell, 0 otherwise, the ring reading dead |
| GameOfLifeFacade.GameOfLife.Neighbors | src/main/java/com/voidaspect/jgol/GameOfLife.java:296-306 | the number of live neighbours of the grid cell |
| GameOfLifeFacade.GameOfLife.ProgressChunk | src/main/java/com/voidaspect/jgol/GameOfLife.java:275-294 | the bags hold exactly the deaths and births of the rectangle clamped to the padded bounds; only an overflow fails |
| GameOfLifeFacade.GameOfLife.ScanRow | src/main/java/com/voidaspect/jgol/GameOfLife.java:281-291 | one padded row added to the account of the scan |
| GameOfLifeFacade.GameOfLife.Examine | src/main/java/com/voidaspect/jgol/GameOfLife.java:282-290 | one padded cell recorded by the rule |
| GameOfLifeFacade.GameOfLife.ProgressAllAtOnce | src/main/java/com/voidaspect/jgol/GameOfLife.java:314-320 | the grid becomes the next generation, or stays as it was when a bag overflows |
| GameOfLifeFacade.GameOfLife.ProgressParallel | src/main/java/com/voidaspect/jgol/GameOfLife.java:331-355 | the grid becomes the next generation; a negative chunk count or an overflow leaves it as it was |
| GameOfLifeFacade.GameOfLife.ComputeTasks | src/main/java/com/voidaspect/jgol/GameOfLife.java:332-341 | the chunk tasks of the tiling together hold exactly the births and the deaths of the generation |
| GameOfLifeFacade.GameOfLife.TileBand | src/main/java/com/voidaspect/jgol/GameOfLife.java:334-340 | the chunk tasks of one band account for every row of the band |
| GameOfLifeFacade.GameOfLife.AddTile | src/main/java/com/voidaspect/jgol/GameOfLife.java:335-339 | one task appended, accounting for the tile's columns |
| GameOfLifeFacade.GameOfLife.ApplyTasks | src/main/java/com/voidaspect/jgol/GameOfLife.java:343-349 | applying every task in turn yields the next generation |
| GameOfLifeFacade.GameOfLife.ApplyTask | src/main/java/com/voidaspect/jgol/GameOfLife.java:357-362 | one task's update adds its births and deaths to those applied and leaves the later tasks intact |
| GameOfLifeFacade.GameOfLife.Progress | src/main/java/com/voidaspect/jgol/GameOfLife.java:213-215 | the grid becomes the next generation, or stays as it was on failure |
| GameOfLifeFacade.NextGen.constructor | src/main/java/com/voidaspect/jgol/GameOfLife.java:395-398 | two empty bags of the 16-slot, doubling growth policy |
| GameOfLifeFacade.NextGen.AddDied | src/main/java/com/voidaspect/jgol/GameOfLife.java:286 | the cell appended to died, unless the bag is full; spawned untouched |
| GameOfLifeFacade.NextGen.AddSpawned | src/main/java/com/voidaspect/jgol/GameOfLife.java:289 | the cell appended to spawned, unless the bag is full; died untouched |
| GameOfLifeFacade.NextGen.UpdateGrid | src/main/java/com/voidaspect/jgol/GameOfLife.java:400-403 | spawn every spawned cell, then kill every died cell |

## Left out

- Concurrency. The executor, `invokeAll` and `Future.get` of `GameOfLife.java:342-354` and `game/ParallelProgressStrategy.java` are not modelled: the chunks of the parallel strategy are computed in task order, then applied in task order, one at a time. Interrupts are not modelled.
- Locking. `game/ThreadSafeLife.java`, `game/ThreadSafeGoL.java` and the lock paths of `GameOfLife.java` are not modelled. A thread-safe facade behaves as the plain one in a sequential model.
- `game/GameOfLifeBuilder.java` is not modelled; the games are built from a grid and a strategy directly.
- `listener/LoggingProgressListener.java` is not modelled. Listeners are the sequence of events they receive, and NOOP receives nothing.
- The backing collections. `HashSet`, the fastutil sets and maps, `java.util.BitSet`, `Arrays.copyOf` and `System.arraycopy` are used through their abstract contracts. A BitSet is a sequence of bits of the size it is created with, which the grid never exceeds. The iteration order of `LinkedCellSet` and `HashGrid` is left open.
- Getters. `getRows`, `getColumns`, `grid()`, `isParallel` and the like are fields read directly. `getInitialState` and `getProgressExecutor` are the nullable fields themselves, modelled as `Option`s.
- The pool of the facade. A configured executor or a fixed thread pool is recorded as a token; the number of processors is not modelled.
- NeighborCountingGrids.NeighborCountingGrid: `liveCells` is absent from `grid/NeighborCountingGrid.java`, so the inherited `forEachAlive`, which calls it, is not modelled for this grid.
- Games.Life.Progress and Games.GoL.Progress: `Life.java` and `GoL.java` call `ps.progress()` and `ps.terminate()`, which `game/ProgressStrategy.java` does not declare. The model gives them the sparse strategy's `progress(grid)` and `finish`.
- The remaining test scenarios: glider, tub, boat, beehive, loaf, beacon and toad are not restated as lemmas. `LifeRules.Step` covers them, and the blinker, block, lone cell and full grid are proved.
- Timing assertions of the tests and their mock-interaction checks are not modelled.
- GameOfLifeFacade.GameOfLife.Create: requires non-negative chunk sides when the parallel strategy is chosen. Positive sides are all admitted, including those whose int product wraps negative, for which getChunks can be negative (Configs.NegativeChunkSize) and progress fails as the source does. With a negative side, getChunks can be negative, and then `new ArrayList<>(chunks)` in `GameOfLife.java:332` throws IllegalArgumentException. Otherwise `row += chunkWidth` or `col += chunkHeight` in `GameOfLife.java:333-334` walks down past Integer.MIN_VALUE and wraps to a large value beyond the bound. The loop ends after about 2^31 / |side| steps, having added chunk tasks that start at negative positions. The model does not follow a counter below the grid.
- ParallelTiling.TileEnd: requires a non-negative side, which the facade guarantees as above.
- GameOfLifeFacade.GameOfLife.ProgressParallel: the tiling uses the saturated tile end (see Findings), not the wrapping `fromRow + chunkWidth` of the source. Its counters `row` and `col` are unbounded integers, where `GameOfLife.java:333-334` wraps them. Take a side greater than Integer.MAX_VALUE less the padded bound, such as Integer.MAX_VALUE on a 2-row grid. There the source's counter wraps to a negative row still below the bound. The next chunk starts at that row and reads outside the matrix, throwing ArrayIndexOutOfBoundsException. `chunk.get()` turns that into an ExecutionException, rethrown as RuntimeException with the grid unchanged. The model instead returns the next generation. ParallelTiling.TileEndOverflow shows that input.
- GameOfLifeFacade.GameOfLife.ComputeTasks: `row += chunkWidth` is an unbounded sum, not the int sum of `GameOfLife.java:333`. For the sides named in the ProgressParallel line above, the source adds chunks at wrapped negative rows, which throw when run. The model's tiling stops at the bound.
- GameOfLifeFacade.GameOfLife.TileBand: `col += chunkHeight` is an unbounded sum, not the int sum of `GameOfLife.java:334`. The same wrap, and the same exception, is not modelled for the columns.
- GameOfLifeFacade.GameOfLife.AddTile: `toCol` is the saturated TileEnd, not the wrapping `fromCol + chunkHeight` of `GameOfLife.java:338`.
- GameOfLifeFacade.GameOfLife.Progress: for a parallel game it is ProgressParallel, with the counter wrap and its RuntimeException left out as stated there.
- Games.AbstractLife: `game/AbstractLife.java` has no fields and no constructor, and leaves `nextGen` abstract. The model gives the class a grid and an AllAtOnceStrategy, and fixes nextGen to that strategy's progress, the only strategy the games run.
- ChunkedProgress.ProgressChunk: requires non-negative `fromRow` and `fromCol`. Its caller in the source is `game/ParallelProgressStrategy.java:39-45`, which extends ChunkedProgressStrategy and calls `progressChunk(fromRow, fromCol, fromRow + chunkHeight, fromCol + chunkWidth)` for every tile. Its counters start at 0 and step by `row += chunkHeight` and `col += chunkWidth`, so the starts it passes are non-negative as long as both chunk sides are non-negative and those sums do not wrap past Integer.MAX_VALUE. A negative chunk side gives negative starts without any wrap, and a wrapped sum gives them too; neither is covered by this member. The as-written `ProgressChunkAsWritten` takes any start and reports the range exception. That caller is also where the swapped clamps of the second Findings row bite: on a grid with rows != columns its tiles are clamped to the wrong bounds, so cells are missed or read out of range, as `ClampAsWrittenMissesRow` shows.
- The grids' tests expect `get(-1, 0)` to read dead, while the range-checked grids throw. The model follows the grids and throws.

## Findings

| source | as written | input that shows it | evidently intended | confidence | as-written member | corrected member |
|---|---|---|---|---|---|---|
| src/main/java/com/voidaspect/jgol/grid/AbstractFiniteGrid.java:34-43 | the default region copy loops `row < rows` and `col < columns`, comparing with the window's height and width rather than its origin plus size | a 2 x 1 grid with cell (1, 0) alive: the 1 x 1 window at (1, 0) comes back dead | copy rows fromRow .. fromRow + rows - 1 and columns fromColumn .. fromColumn + columns - 1 | not executed | FiniteGrids.DefaultRegionMissesOffset | FiniteGrids.FiniteGrid.SnapshotRegion |
| src/main/java/com/voidaspect/jgol/game/ChunkedProgressStrategy.java:14-15 | `toRow` is clamped by `getColumns()` and `toCol` by `getRows()` | a 2 x 1 grid with (1, 0) alive, chunk (0, 0, 2, 1): clamped to 1 x 1, the death of (1, 0) is missed | clamp `toRow` by the rows and `toCol` by the columns | not executed | ChunkedProgress.ClampAsWrittenMissesRow | ChunkedProgress.ProgressChunk |
| src/main/java/com/voidaspect/jgol/grid/AbstractFiniteGrid.java:21-23 | the exception for a bad column count reports `rows`; so do `grid/AbstractGrid.java:19-21`, `grid/PaddedInMemoryGrid.java:111-113` and `GameOfLife.java:261-263`, and the Create members of every grid and of the facade model that message as written | 5 rows and 0 columns: "Number of columns expected >= 1, got 5" | report the column count | not executed | FiniteGrids.DimensionCheckReportsRowsForColumns | FiniteGrids.DimensionCheck |
| src/main/java/com/voidaspect/jgol/config/GameOfLifeConfig.java:84-90 | `chunks * chunkSize < size` multiplies two ints, which wraps | 100000 x 100000 cells in 1000 x 1000 chunks: 10^10 wraps to 1410065408, so 10001 chunks are counted instead of 10000 (the facade stores that count, which sizes its task lists) | compare in long arithmetic | not executed | Configs.ChunksOverflow | Configs.ChunksCeiling |
| src/main/java/com/voidaspect/jgol/GameOfLife.java:333-339 | `toRow = fromRow + chunkWidth` and `toCol = fromCol + chunkHeight` are int sums, which wrap | a 2-row grid with chunk width Integer.MAX_VALUE: the first `toRow` wraps below `fromRow`, so the first band has no rows; `row += chunkWidth` wraps the same way, to Integer.MIN_VALUE, below the bound. The next band's chunk reads row Integer.MAX_VALUE, outside the matrix, and progress throws RuntimeException | a tile end saturated at Integer.MAX_VALUE, then clamped to the grid, and a counter that stops at the bound | not executed | ParallelTiling.TileEndOverflow | ParallelTiling.TileEnd |
| src/main/java/com/voidaspect/jgol/grid/PaddedInMemoryGrid.java:39-41 | set() writes `grid[row + 1][col + 1]` with no range check, unlike the other grids' checkIndex | an empty grid, set(-1, 0, true): get(-1, 0) is true and neighbors(0, 0) is 1 although no cell is alive; further out it throws ArrayIndexOutOfBoundsException instead of IndexOutOfBoundsException | check the index and leave the ring dead | not executed | PaddedGrids.PaddedInMemoryGrid.RingWriteCountsPhantom | PaddedGrids.PaddedInMemoryGrid.SetChecked |

=== FILE: src/bit_vector_grid.dfy ===
/** BitVectorInMemoryGrid.java: one java.util.BitSet per row, allocated on the first write to
    that row, plus a `liveCells` counter. Rows and columns are shifted by one, as in the padded
    grid, so that `neighbors` may read one row and one column beyond the grid on every side: rows
    0 and rows + 1 are never allocated and bits 0 and cols + 1 are never set.

    A BitSet is modelled as the sequence of its `bits` bits, the size it is created with; every
    index this grid writes is below that size, so the BitSet never grows. */
module BitVectorGrids {
  import opened JavaInt
  import opened Errors
  import opened LifeRules
  import opened RowMajor
  import opened FiniteGrids
  import PaddedGrids

  /** BitSet.get(i): bits beyond the end read false. */
  function BitGet(s: seq<bool>, i: int): bool {
    0 <= i < |s| && s[i]
  }

  /** BitSet.nextSetBit(from): the first set bit at or after `from`, or -1 when there is none. */
  function NextSetBit(s: seq<bool>, from: nat): (r: int)
    ensures r == -1 || from <= r < |s|
    ensures r >= 0 ==> s[r]
    ensures forall i | from <= i < (if r < 0 then |s| else r) :: !s[i]
    decreases |s| - from
  {
    if from >= |s| then -1
    else if s[from] then from
    else NextSetBit(s, from + 1)
  }

  /** BitSet.isEmpty() */
  predicate IsEmpty(s: seq<bool>) {
    true !in s
  }

  /** The bit for padded position (a, b) in a sequence of rows. */
  predicate BitAt(g: seq<Option<seq<bool>>>, a: int, b: int) {
    0 <= a < |g| && g[a].Some? && BitGet(g[a].value, b)
  }

  /** The live cells of a row sequence: those whose shifted bit is set. */
  ghost function RowsLive(g: seq<Option<seq<bool>>>, rows: int, cols: int): (s: set<Cell>)
    ensures forall p :: p in s <==> InBounds(rows, cols, p.0, p.1) && BitAt(g, p.0 + 1, p.1 + 1)
  {
    set p | p in AllCells(rows, cols) && BitAt(g, p.0 + 1, p.1 + 1)
  }

  /** The allocated rows are the grid rows 1..rows, each `cols + 2` bits long (so `bits` did not
      wrap), with the two ring bits clear. */
  ghost predicate RowsShape(g: seq<Option<seq<bool>>>, rows: int, cols: int, bits: int) {
    cols >= 0 && forall a | 0 <= a < |g| && g[a].Some? ::
      && 1 <= a <= rows && bits >= 0
      && |g[a].value| == cols + 2
      && !g[a].value[0] && !g[a].value[cols + 1]
  }

  /** Storing a well-formed row keeps the shape. */
  lemma ShapeWrite(g: seq<Option<seq<bool>>>, rows: int, cols: int, bits: int, a: int, v: seq<bool>)
    requires RowsShape(g, rows, cols, bits)
    requires 1 <= a <= rows && a < |g| && bits >= 0 && cols >= 0 && |v| == cols + 2 && !v[0] && !v[cols + 1]
    ensures RowsShape(g[a := Some(v)], rows, cols, bits)
  {
  }

  /** Rows whose bits are all clear hold no live cell. */
  lemma EmptyRows(g: seq<Option<seq<bool>>>, rows: int, cols: int)
    requires forall a | 0 <= a < |g| && g[a].Some? :: IsEmpty(g[a].value)
    ensures RowsLive(g, rows, cols) == {}
  {
  }

  /** Allocating an empty row changes no cell. */
  lemma AllocateRow(g: seq<Option<seq<bool>>>, rows: int, cols: int, a: int, n: nat)
    requires 0 <= a < |g| && g[a].None?
    ensures RowsLive(g[a := Some(seq(n, _ => false))], rows, cols) == RowsLive(g, rows, cols)
  {
    var g' := g[a := Some(seq(n, _ => false))];
    forall p: Cell ensures BitAt(g', p.0 + 1, p.1 + 1) == BitAt(g, p.0 + 1, p.1 + 1) {
    }
  }

  /** Flipping one bit of an allocated row inside the grid adds or removes exactly that cell. */
  lemma FlipBit(g: seq<Option<seq<bool>>>, g': seq<Option<seq<bool>>>, rows: int, cols: int,
                a: int, b: int, state: bool)
    requires 1 <= a <= rows && 1 <= b <= cols && a < |g| && g[a].Some? && b < |g[a].value|
    requires g' == g[a := Some(g[a].value[b := state])]
    ensures RowsLive(g', rows, cols) == if state then RowsLive(g, rows, cols) + {(a - 1, b - 1)}
                                        else RowsLive(g, rows, cols) - {(a - 1, b - 1)}
  {
    forall p: Cell ensures BitAt(g', p.0 + 1, p.1 + 1) == if p == (a - 1, b - 1) then state else BitAt(g, p.0 + 1, p.1 + 1) {
    }
  }

  /** ... and, when the bit changes, keeps the shape and moves the population by one. */
  lemma WriteBit(g: seq<Option<seq<bool>>>, g': seq<Option<seq<bool>>>, rows: int, cols: int, bits: int,
                 a: int, b: int, state: bool)
    requires RowsShape(g, rows, cols, bits) && 0 <= a < |g| && g[a].Some? && 1 <= b <= cols
    requires g[a].value[b] != state && g' == g[a := Some(g[a].value[b := state])]
    ensures RowsShape(g', rows, cols, bits)
    ensures RowsLive(g', rows, cols) == if state then RowsLive(g, rows, cols) + {(a - 1, b - 1)}
                                        else RowsLive(g, rows, cols) - {(a - 1, b - 1)}
    ensures |RowsLive(g', rows, cols)| == |RowsLive(g, rows, cols)| + (if state then 1 else -1)
  {
    var v := g[a].value;
    assert 1 <= a <= rows && |v| == cols + 2 && !v[0] && !v[cols + 1];
    ShapeWrite(g, rows, cols, bits, a, v[b := state]);
    WriteBitLive(g, g', rows, cols, a, b, state);
  }

  lemma WriteBitLive(g: seq<Option<seq<bool>>>, g': seq<Option<seq<bool>>>, rows: int, cols: int,
                     a: int, b: int, state: bool)
    requires 1 <= a <= rows && 1 <= b <= cols && a < |g| && g[a].Some? && b < |g[a].value|
    requires g[a].value[b] != state && g' == g[a := Some(g[a].value[b := state])]
    ensures RowsLive(g', rows, cols) == if state then RowsLive(g, rows, cols) + {(a - 1, b - 1)}
                                        else RowsLive(g, rows, cols) - {(a - 1, b - 1)}
    ensures |RowsLive(g', rows, cols)| == |RowsLive(g, rows, cols)| + (if state then 1 else -1)
  {
    FlipBit(g, g', rows, cols, a, b, state);
    BitMember(g, rows, cols, a, b);
    CardStep(RowsLive(g, rows, cols), RowsLive(g', rows, cols), (a - 1, b - 1), state);
  }

  lemma BitMember(g: seq<Option<seq<bool>>>, rows: int, cols: int, a: int, b: int)
    requires 1 <= a <= rows && 1 <= b <= cols && a < |g| && g[a].Some? && b < |g[a].value|
    ensures ((a - 1, b - 1) in RowsLive(g, rows, cols)) == g[a].value[b]
  {
    assert BitAt(g, a, b) == g[a].value[b];
  }

  /** The rows never hold more live cells than the grid has cells. */
  lemma LiveBound(g: seq<Option<seq<bool>>>, rows: int, cols: int)
    requires rows > 0 && cols > 0
    ensures |RowsLive(g, rows, cols)| <= rows * cols
  {
    PopulationBound(RowsLive(g, rows, cols), rows, cols);
  }

  /** Adding an absent element or removing a present one moves the size by one. */
  lemma CardStep<T>(s: set<T>, s': set<T>, x: T, add: bool)
    requires (x in s) == !add && s' == if add then s + {x} else s - {x}
    ensures |s'| == |s| + if add then 1 else -1
  {
    if !add {
      assert s == s' + {x};
    }
  }

  /** Writing a bit its current value leaves the cell set as it is. */
  lemma KeepBit(g: seq<Option<seq<bool>>>, rows: int, cols: int, a: int, b: int, state: bool)
    requires 1 <= a <= rows && 1 <= b <= cols && a < |g| && g[a].Some? && b < |g[a].value|
    requires g[a].value[b] == state
    ensures RowsLive(g, rows, cols) == if state then RowsLive(g, rows, cols) + {(a - 1, b - 1)}
                                       else RowsLive(g, rows, cols) - {(a - 1, b - 1)}
  {
    assert ((a - 1, b - 1) in RowsLive(g, rows, cols)) == state;
  }

  /** No bit of `s` between b1 (inclusive) and b2 (exclusive) is set. */
  predicate NoneSet(s: seq<bool>, b1: int, b2: int) {
    forall i | b1 <= i < b2 && 0 <= i < |s| :: !s[i]
  }

  /** Bits 1 .. cols of `cells` are the states of grid row `row`. */
  ghost predicate RowMatches(live: set<Cell>, cols: int, row: int, cells: seq<bool>) {
    forall c | 0 <= c < cols :: (row, c) in live <==> BitGet(cells, c + 1)
  }

  /** Each padded row of the sequence (an unallocated one reads as no bits) matches its grid row. */
  lemma RowOf(g: seq<Option<seq<bool>>>, rows: int, cols: int, live: set<Cell>, a: int)
    requires live == RowsLive(g, rows, cols) && 1 <= a <= rows && a < |g|
    ensures RowMatches(live, cols, a - 1, if g[a].None? then [] else g[a].value)
  {
    var row := a - 1;
    forall c | 0 <= c < cols ensures (row, c) in live <==> BitGet(if g[a].None? then [] else g[a].value, c + 1) {
      assert BitAt(g, a, c + 1) == BitGet(if g[a].None? then [] else g[a].value, c + 1);
    }
  }

  /** Bits of a row that are clear from b1 up to b2 are dead cells. */
  lemma DeadBetween(live: set<Cell>, cols: int, row: int, cells: seq<bool>, b1: int, b2: int)
    requires RowMatches(live, cols, row, cells) && NoneSet(cells, b1, b2) && 1 <= b1 && b2 <= cols + 1
    ensures forall c | b1 - 1 <= c < b2 - 1 :: (row, c) !in live
  {
    forall c | b1 - 1 <= c < b2 - 1 ensures (row, c) !in live {
      assert !BitGet(cells, c + 1);
    }
  }

  /** Bits of a row that are clear from b1 up to b2 are dead cells, so a row-major walk passes over
      them without a visit. */
  lemma SkipClear(live: set<Cell>, cols: nat, row: nat, cells: seq<bool>, b1: nat, b2: nat)
    requires RowMatches(live, cols, row, cells) && NoneSet(cells, b1, b2)
    requires 1 <= b1 <= b2 <= cols + 1
    ensures Scan(live, cols, row, b2 - 1) == Scan(live, cols, row, b1 - 1)
  {
    DeadBetween(live, cols, row, cells, b1, b2);
    ScanSkip(live, cols, row, b1 - 1, b2 - 1);
  }

  /** A set bit within the grid columns is a live cell, the next one a row-major walk meets. */
  lemma MeetBit(live: set<Cell>, cols: nat, row: nat, cells: seq<bool>, col: nat, visits: seq<Cell>)
    requires RowMatches(live, cols, row, cells) && 1 <= col <= cols && col < |cells| && cells[col]
    requires visits == Scan(live, cols, row, col - 1)
    ensures visits + [(row, col - 1)] == Scan(live, cols, row, col)
  {
    assert BitGet(cells, col);
  }

  /** Where a walk along a row of `cols` columns stands after nextSetBit returned `next`: on the
      found bit, or past the last column. */
  function StopBit(next: int, cols: int): int {
    if next < 0 || next > cols then cols + 1 else next
  }

  /** nextSetBit(from) jumps over dead cells only. */
  lemma SkipToNext(live: set<Cell>, cols: nat, row: nat, cells: seq<bool>, from: nat)
    requires RowMatches(live, cols, row, cells) && 1 <= from <= cols + 1
    ensures from <= StopBit(NextSetBit(cells, from), cols) <= cols + 1
    ensures Scan(live, cols, row, StopBit(NextSetBit(cells, from), cols) - 1) == Scan(live, cols, row, from - 1)
  {
    SkipClear(live, cols, row, cells, from, StopBit(NextSetBit(cells, from), cols));
  }

  /** The body of forEachAlive's loop for one row: an unallocated or empty row BitSet is skipped,
      any other is walked by VisitBits. The cells passed continue the row-major walk `passed` up
      to column `stop`; when `remaining` does not run out, the whole row has been met. */
  method VisitRow(bitset: Option<seq<bool>>, cols: int32, row: nat, remaining: int64, passed: seq<Cell>,
                  ghost live: set<Cell>)
    returns (visits: seq<Cell>, left: int64, ghost stop: nat)
    requires cols > 0 && (bitset.Some? ==> |bitset.value| == cols as int + 2)
    requires RowMatches(live, cols as int, row, if bitset.None? then [] else bitset.value) && remaining > 0
    requires passed == Scan(live, cols as int, row, 0)
    ensures stop <= cols as int
    ensures visits == Scan(live, cols as int, row, stop)
    ensures 0 <= left as int == remaining as int - (|visits| - |passed|)
    ensures left > 0 ==> stop == cols as int
  {
    if bitset.None? || IsEmpty(bitset.value) {
      SkipClear(live, cols as int, row, if bitset.None? then [] else bitset.value, 1, cols as int + 1);
      return passed, remaining, cols as int;
    }
    visits, left, stop := VisitBits(bitset.value, cols, row, remaining, passed, live);
  }

  /** forEachAlive's inner loop over one row's bits: the set bits from bit 1 while they are grid
      columns are passed, as cells of grid row `row`, until `remaining` runs out. */
  method VisitBits(cells: seq<bool>, cols: int32, row: nat, remaining: int64, passed: seq<Cell>,
                   ghost live: set<Cell>)
    returns (visits: seq<Cell>, left: int64, ghost stop: nat)
    requires cols > 0 && |cells| == cols as int + 2
    requires RowMatches(live, cols as int, row, cells) && remaining > 0
    requires passed == Scan(live, cols as int, row, 0)
    ensures stop <= cols as int
    ensures visits == Scan(live, cols as int, row, stop)
    ensures 0 <= left as int == remaining as int - (|visits| - |passed|)
    ensures left > 0 ==> stop == cols as int
  {
    visits := passed;
    left := remaining;
    var col := NextSetBit(cells, 1);
    SkipToNext(live, cols as int, row, cells, 1);
    while col <= cols && col > 0
      invariant col == -1 || 1 <= col < |cells|
      invariant col > 0 ==> cells[col]
      invariant visits == Scan(live, cols as int, row, StopBit(col, cols as int) - 1)
      invariant 0 < left as int == remaining as int - (|visits| - |passed|)
      decreases if col < 0 then 0 else |cells| - col
    {
      MeetAndSkip(live, cols as int, row, cells, col, visits);
      visits := visits + [(row, col - 1)];
      left := left - 1;
      if left == 0 {
        stop := col;
        return;
      }
      col := NextSetBit(cells, col + 1);
    }
    stop := cols as int;
  }

  /** Meeting the set bit `col` adds its cell to the walk, and nextSetBit(col + 1) then skips only
      dead cells. */
  lemma MeetAndSkip(live: set<Cell>, cols: nat, row: nat, cells: seq<bool>, col: nat, visits: seq<Cell>)
    requires RowMatches(live, cols, row, cells) && 1 <= col <= cols && col < |cells| && cells[col]
    requires visits == Scan(live, cols, row, col - 1)
    ensures col + 1 <= StopBit(NextSetBit(cells, col + 1), cols) <= cols + 1
    ensures visits + [(row, col - 1)] == Scan(live, cols, row, StopBit(NextSetBit(cells, col + 1), cols) - 1)
  {
    MeetBit(live, cols, row, cells, col, visits);
    SkipToNext(live, cols, row, cells, col + 1);
  }

  /** The body of snapshotWithoutBoundChecking's loop for one row: an unallocated or empty row
      BitSet is skipped; otherwise each set bit from `firstCol` while it is before the window's end
      is turned on in row i of the snapshot. Either way row i comes to hold the states of grid row
      `row` from column firstCol - 1 on. */
  method CopyRow(snap: array2<bool>, i: int, bitset: Option<seq<bool>>, cols: int, row: int, firstCol: int,
                 ghost live: set<Cell>)
    requires 0 <= i < snap.Length0 && 1 <= firstCol && firstCol + snap.Length1 <= cols + 1
    requires bitset.Some? ==> |bitset.value| == cols + 2
    requires RowMatches(live, cols, row, if bitset.None? then [] else bitset.value)
    requires forall j | 0 <= j < snap.Length1 :: !snap[i, j]
    modifies snap
    ensures forall k, j | 0 <= k < snap.Length0 && 0 <= j < snap.Length1 ::
              snap[k, j] == if k == i then (row, firstCol - 1 + j) in live else old(snap[k, j])
  {
    if bitset.None? || IsEmpty(bitset.value) {
      DeadBetween(live, cols, row, if bitset.None? then [] else bitset.value, firstCol, firstCol + snap.Length1);
      return;
    }
    var cells := bitset.value;
    var toCol := firstCol + snap.Length1;
    var ci := NextSetBit(cells, firstCol);
    DeadBetween(live, cols, row, cells, firstCol, if ci < 0 || ci > toCol then toCol else ci);
    while ci < toCol && ci > 0
      invariant ci == -1 || firstCol <= ci < |cells|
      invariant ci > 0 ==> cells[ci]
      invariant forall k, j | 0 <= k < snap.Length0 && 0 <= j < snap.Length1 ::
                  snap[k, j] == if k == i then (ci < 0 || firstCol + j < ci) && (row, firstCol - 1 + j) in live
                                else old(snap[k, j])
      decreases if ci < 0 then 0 else |cells| + 1 - ci
    {
      assert (row, ci - 1) in live;
      snap[i, ci - firstCol] := true;
      var next := NextSetBit(cells, ci + 1);
      DeadBetween(live, cols, row, cells, ci + 1, if next < 0 || next > toCol then toCol else next);
      ci := next;
    }
  }

  class BitVectorInMemoryGrid {
    const rows: int32
    const cols: int32
    const size: int64
    /** the row BitSets, indexed by row + 1; null until the row is first written */
    const grid: array<Option<seq<bool>>>
    /** cols + 2, the size each row BitSet is created with */
    const bits: int32
    var liveCells: int64

    /** The live cells: those whose shifted bit is set. */
    ghost function Live(): (s: set<Cell>)
      reads grid
      ensures s == RowsLive(grid[..], rows as int, cols as int)
    {
      RowsLive(grid[..], rows as int, cols as int)
    }

    ghost predicate Valid()
      reads this, grid
    {
      && rows >= MIN_SIZE && cols >= MIN_SIZE
      && size == rows as int * cols as int
      && grid.Length == rows as int + 2
      && bits == PaddedGrids.PaddedLength(cols)
      && RowsShape(grid[..], rows as int, cols as int, bits as int)
      && liveCells as int == |Live()|
    }

    constructor (rows: int32, cols: int32)
      requires DimensionCheck(rows, cols).Pass? && rows <= INT_MAX - 2
      ensures Valid() && fresh(grid) && this.rows == rows && this.cols == cols && Live() == {}
    {
      this.rows := rows;
      this.cols := cols;
      this.size := GridSize(rows, cols);
      this.grid := new Option<seq<bool>>[rows + 2](_ => None);
      this.bits := PaddedGrids.PaddedLength(cols);
      this.liveCells := 0;
      new;
      assert Live() == {};
    }

    /** new BitVectorInMemoryGrid(rows, cols): the dimension checks, then `new BitSet[rows + 2]`,
        which throws when rows + 2 wraps negative. */
    static method Create(rows: int32, cols: int32) returns (res: Result<BitVectorInMemoryGrid>)
      ensures res.Success? <==> MIN_SIZE <= rows <= INT_MAX - 2 && MIN_SIZE <= cols
      ensures DimensionCheckAsWritten(rows, cols).Fail? ==> res == Failure(DimensionCheckAsWritten(rows, cols).error)
      ensures DimensionCheckAsWritten(rows, cols).Pass? && res.Failure? ==> res.error == NegativeArraySize
      ensures res.Success? ==> fresh(res.value) && fresh(res.value.grid) && res.value.Valid()
      ensures res.Success? ==> res.value.rows == rows && res.value.cols == cols && res.value.Live() == {}
    {
      var check := DimensionCheckAsWritten(rows, cols);
      if check.Fail? {
        return Failure(check.error);
      }
      if Wrap32(rows as int + 2) < 0 {
        return Failure(NegativeArraySize);
      }
      var g := new BitVectorInMemoryGrid(rows, cols);
      return Success(g);
    }

    /** checkIndex(row, col) */
    function CheckCell(row: int32, col: int32): (r: Outcome)
      reads this
      ensures r.Pass? <==> InBounds(rows as int, cols as int, row as int, col as int)
      ensures r.Fail? ==> r.error == IndexOutOfBounds
    {
      var rowCheck := CheckIndex(row, rows);
      if rowCheck.Fail? then rowCheck else CheckIndex(col, cols)
    }

    /** get: range-checked; a row never written reads all dead. */
    function Get(row: int32, col: int32): (r: Result<bool>)
      requires Valid()
      reads this, grid
      ensures r.Success? <==> InBounds(rows as int, cols as int, row as int, col as int)
      ensures r.Success? ==> (r.value <==> (row as int, col as int) in Live())
      ensures r.Failure? ==> r.error == IndexOutOfBounds
    {
      var check := CheckCell(row, col);
      if check.Fail? then Failure(check.error)
      else Success(grid[row + 1].Some? && BitGet(grid[row + 1].value, col as int + 1))
    }

    /** The first half of set: the BitSet of padded row a, created empty on first use; creating
        it throws when `bits` wrapped negative. */
    method RowBits(a: int) returns (res: Result<seq<bool>>)
      requires Valid() && 1 <= a <= rows as int
      modifies grid
      ensures Valid() && Live() == old(Live())
      ensures res.Success? <==> cols <= INT_MAX - 2
      ensures res.Success? ==> grid[a] == Some(res.value) && (old(grid[a]).Some? ==> res.value == old(grid[a]).value)
      ensures res.Failure? ==> res.error == NegativeArraySize && old(grid[a]).None? && unchanged(grid)
    {
      PaddedGrids.PaddedLengthWraps(cols);
      if grid[a].Some? {
        return Success(grid[a].value);
      }
      if bits < 0 {
        return Failure(NegativeArraySize);
      }
      var cells := seq(bits, _ => false);
      AllocateRow(grid[..], rows as int, cols as int, a, bits as nat);
      ShapeWrite(grid[..], rows as int, cols as int, bits as int, a, cells);
      grid[a] := Some(cells);
      return Success(cells);
    }

    /** set: range-checked; takes the row's BitSet (allocating it on first use) and moves
        liveCells by one exactly when the bit flips. */
    method Set(row: int32, col: int32, state: bool) returns (res: Outcome)
      requires Valid()
      modifies this, grid
      ensures Valid()
      ensures res.Pass? <==> InBounds(rows as int, cols as int, row as int, col as int) && cols <= INT_MAX - 2
      ensures res.Fail? ==> Live() == old(Live())
      ensures res.Fail? ==> res.error == if InBounds(rows as int, cols as int, row as int, col as int)
                                         then NegativeArraySize else IndexOutOfBounds
      ensures res.Pass? ==> Live() == if state then old(Live()) + {(row as int, col as int)}
                                      else old(Live()) - {(row as int, col as int)}
    {
      res := CheckCell(row, col);
      if res.Fail? {
        return;
      }
      var a := row as int + 1;
      var b := col as int + 1;
      var bitsOfRow := RowBits(a);
      if bitsOfRow.Failure? {
        return Fail(bitsOfRow.error);
      }
      var cells := bitsOfRow.value;
      ghost var g := grid[..];
      assert old(Live()) == RowsLive(g, rows as int, cols as int);
      if cells[b] != state {
        ghost var g' := g[a := Some(cells[b := state])];
        WriteBit(g, g', rows as int, cols as int, bits as int, a, b, state);
        LiveBound(g', rows as int, cols as int);
        grid[a] := Some(cells[b := state]);
        assert grid[..] == g';
        liveCells := liveCells + if state then 1 else -1;
        assert Live() == RowsLive(g', rows as int, cols as int);
      } else {
        KeepBit(g, rows as int, cols as int, a, b, state);
        assert Live() == RowsLive(g, rows as int, cols as int);
      }
    }

    /** value(a, b) on shifted coordinates. */
    function Value(a: int, b: int): (v: int)
      requires Valid() && 0 <= a < grid.Length
      reads this, grid
      ensures v == LifeRules.Value(Live(), rows as int, cols as int, a - 1, b - 1)
    {
      if grid[a].Some? && BitGet(grid[a].value, b) then 1 else 0
    }

    /** The eight shifted reads around a grid cell count its live neighbours. */
    lemma ShiftedNeighbors(row: int, col: int)
      requires Valid() && InBounds(rows as int, cols as int, row, col)
      ensures Value(row, col + 2) + Value(row, col + 1) + Value(row, col) +
              Value(row + 1, col + 2) + Value(row + 1, col) +
              Value(row + 2, col + 2) + Value(row + 2, col + 1) + Value(row + 2, col)
              == Neighbors(Live(), rows as int, cols as int, row, col)
    {
      var live := Live();
      var r, c := rows as int, cols as int;
      assert Value(row, col + 2) == LifeRules.Value(live, r, c, row - 1, col + 1);
      assert Value(row, col + 1) == LifeRules.Value(live, r, c, row - 1, col);
      assert Value(row, col) == LifeRules.Value(live, r, c, row - 1, col - 1);
      assert Value(row + 1, col + 2) == LifeRules.Value(live, r, c, row, col + 1);
      assert Value(row + 1, col) == LifeRules.Value(live, r, c, row, col - 1);
      assert Value(row + 2, col + 2) == LifeRules.Value(live, r, c, row + 1, col + 1);
      assert Value(row + 2, col + 1) == LifeRules.Value(live, r, c, row + 1, col);
      assert Value(row + 2, col) == LifeRules.Value(live, r, c, row + 1, col - 1);
    }

    /** neighbors: range-checked, then the eight shifted reads; the never-set ring counts dead. */
    function GetNeighbors(row: int32, col: int32): (r: Result<int32>)
      requires Valid()
      reads this, grid
      ensures r.Success? <==> InBounds(rows as int, cols as int, row as int, col as int)
      ensures r.Success? ==> r.value as int == Neighbors(Live(), rows as int, cols as int, row as int, col as int)
      ensures r.Failure? ==> r.error == IndexOutOfBounds
    {
      var check := CheckCell(row, col);
      if check.Fail? then Failure(check.error)
      else
        // after row++ and col++: up = row - 1, down = row + 1, left = col - 1, right = col + 1
        ShiftedNeighbors(row as int, col as int);
        Success((Value(row as int, col as int + 2) + Value(row as int, col as int + 1) + Value(row as int, col as int) +
                 Value(row as int + 1, col as int + 2) + Value(row as int + 1, col as int) +
                 Value(row as int + 2, col as int + 2) + Value(row as int + 2, col as int + 1) + Value(row as int + 2, col as int)) as int32)
    }

    /** liveCells(): the counter, which always equals the population. */
    function LiveCells(): (n: int64)
      requires Valid()
      reads this, grid
      ensures n as int == |Live()|
    {
      liveCells
    }

    /** forEachAlive: walks the allocated, non-empty rows with nextSetBit from bit 1 while the bit
        is a grid column, and stops after liveCells cells. The cells passed are exactly the live
        cells in row-major order. */
    method ForEachAlive() returns (visits: seq<Cell>)
      requires Valid()
      ensures visits == RowMajorLive(Live(), rows as int, cols as int)
    {
      ghost var g := grid[..];
      ghost var live := Live();
      var remaining := liveCells;
      visits := [];
      if remaining == 0 {
        RowMajorLiveIsLive(live, rows as int, cols as int);
        return;
      }
      var row := 1;
      while row <= rows
        invariant 1 <= row <= rows as int + 1
        invariant visits == Scan(live, cols as int, row - 1, 0)
        invariant 0 < remaining as int == |live| - |visits|
      {
        RowOf(g, rows as int, cols as int, live, row);
        var left; ghost var stop;
        visits, left, stop := VisitRow(grid[row], cols, row - 1, remaining, visits, live);
        remaining := left;
        if remaining == 0 {
          ScanComplete(live, rows as int, cols as int, row - 1, stop);
          return;
        }
        ScanNextRow(live, cols as int, row - 1);
        row := row + 1;
      }
      assert row - 1 == rows as int;
    }

    /** snapshotWithoutBoundChecking: for each window row, a fresh row of `false` in which the set
        bits between the window's first and last column are turned on. Entry (i, j) is the state
        of cell (fromRow + i, fromCol + j). */
    method SnapshotWithoutBoundChecking(fromRow: int32, fromCol: int32, h: int32, w: int32)
      returns (snap: array2<bool>)
      requires Valid()
      requires CheckFromIndexSize(fromRow, h, rows).Pass? && CheckFromIndexSize(fromCol, w, cols).Pass?
      ensures fresh(snap) && snap.Length0 == h as int && snap.Length1 == w as int
      ensures forall i, j | 0 <= i < h as int && 0 <= j < w as int ::
                snap[i, j] == Region(Live(), fromRow as int, fromCol as int, h as int, w as int)[i][j]
    {
      ghost var g := grid[..];
      ghost var live := Live();
      var firstRow := fromRow as int + 1;
      var firstCol := fromCol as int + 1;
      var toRow := firstRow + h as int;
      var toCol := firstCol + w as int;
      snap := new bool[h, w]((_, _) => false);
      var ri := firstRow;
      while ri < toRow
        invariant firstRow <= ri <= toRow
        invariant forall i, j | 0 <= i < h as int && 0 <= j < w as int ::
                    snap[i, j] == (firstRow + i < ri && (fromRow as int + i, fromCol as int + j) in live)
      {
        RowOf(g, rows as int, cols as int, live, ri);
        CopyRow(snap, ri - firstRow, grid[ri], cols as int, ri - 1, firstCol, live);
        ri := ri + 1;
      }
    }

    /** snapshot(fromRow, fromColumn, rows, columns): the range checks, then the copy. */
    method Snapshot(fromRow: int32, fromCol: int32, h: int32, w: int32) returns (res: Result<array2<bool>>)
      requires Valid()
      ensures res.Success? <==> CheckFromIndexSize(fromRow, h, rows).Pass? && CheckFromIndexSize(fromCol, w, cols).Pass?
      ensures res.Failure? ==> res.error == IndexOutOfBounds
      ensures res.Success? ==> fresh(res.value) && res.value.Length0 == h as int && res.value.Length1 == w as int
      ensures res.Success? ==> forall i, j | 0 <= i < h as int && 0 <= j < w as int ::
                                 res.value[i, j] == ((fromRow as int + i, fromCol as int + j) in Live())
    {
      var rowCheck := CheckFromIndexSize(fromRow, h, rows);
      if rowCheck.Fail? {
        return Failure(rowCheck.error);
      }
      var colCheck := CheckFromIndexSize(fromCol, w, cols);
      if colCheck.Fail? {
        return Failure(colCheck.error);
      }
      var snap := SnapshotWithoutBoundChecking(fromRow, fromCol, h, w);
      return Success(snap);
    }

    /** clear: empties every allocated row and zeroes the counter. */
    method Clear()
      requires Valid()
      modifies this, grid
      ensures Valid() && Live() == {}
    {
      var r := 1;
      while r <= rows
        invariant 1 <= r <= rows as int + 1
        invariant RowsShape(grid[..], rows as int, cols as int, bits as int)
        invariant forall a | 0 <= a < r && grid[a].Some? :: IsEmpty(grid[a].value)
      {
        if grid[r].Some? {
          var empty := seq(|grid[r].value|, _ => false);
          ShapeWrite(grid[..], rows as int, cols as int, bits as int, r, empty);
          grid[r] := Some(empty);
        }
        r := r + 1;
      }
      EmptyRows(grid[..], rows as int, cols as int);
      liveCells := 0;
    }
  }
}

=== FILE: src/cell_bag.dfy ===
/** CellBag: a growable structure of arrays holding cell coordinates, row indices in `r` and
    column indices in `c`. The source has five copies that differ only in their growth policy:
    grid/cell/CellBag.java and the bags nested in AbstractProgressStrategy and
    AllAtOnceProgressStrategy start at 64 slots and grow by half; the bags nested in
    game/NextGen.java and GameOfLife.java start at 16 slots, double while the capacity is at most
    64 and grow by half above that. */
module CellBags {
  import opened JavaInt
  import opened Errors

  /** `Integer.MAX_VALUE - 8` */
  const MAX_ARRAY_LENGTH: int32 := 0x7fff_ffff - 8

  datatype Growth =
    | ThreeHalves             // INITIAL_CAPACITY = 64, capacity + (capacity >> 1)
    | DoubleThenThreeHalves   // INITIAL_CAPACITY = 16, capacity > 64 ? capacity + (capacity >> 1) : capacity << 1

  function InitialCapacity(g: Growth): int32 {
    match g
    case ThreeHalves => 64
    case DoubleThenThreeHalves => 16
  }

  /** The `needed` capacity as the source computes it in 32-bit arithmetic, before the clamp. */
  function Needed(g: Growth, capacity: int32): int32
    requires capacity >= 0
  {
    match g
    case ThreeHalves => Wrap32(capacity + capacity / 2)
    case DoubleThenThreeHalves =>
      if capacity > 64 then Wrap32(capacity + capacity / 2) else Wrap32(capacity * 2)
  }

  /** The capacity a full bag grows to: `needed`, or MAX_ARRAY_LENGTH when `needed` overflowed
      or is too large. */
  function NextCapacity(g: Growth, capacity: int32): int32
    requires capacity >= 0
  {
    var needed := Needed(g, capacity);
    if needed < 0 || needed > MAX_ARRAY_LENGTH then MAX_ARRAY_LENGTH else needed
  }

  /** A full bag below the maximum always gains room, and never beyond MAX_ARRAY_LENGTH. */
  lemma NextCapacityGrows(g: Growth, capacity: int32)
    requires InitialCapacity(g) <= capacity < MAX_ARRAY_LENGTH
    ensures capacity < NextCapacity(g, capacity) <= MAX_ARRAY_LENGTH
  {
  }

  /** grid/cell/CellBag.java: a full bag grows by half, clamped to MAX_ARRAY_LENGTH. */
  lemma ThreeHalvesGrowth(capacity: int32)
    requires 64 <= capacity < MAX_ARRAY_LENGTH
    ensures NextCapacity(ThreeHalves, capacity) ==
            if capacity + capacity / 2 <= MAX_ARRAY_LENGTH then capacity + capacity / 2 else MAX_ARRAY_LENGTH
  {
  }

  /** game/NextGen.java: a full bag doubles while its capacity is at most 64 (the source's comment
      says "less than 64", the test is `capacity > 64`), and grows by half above 64. */
  lemma DoublingGrowth(capacity: int32)
    requires 16 <= capacity < MAX_ARRAY_LENGTH
    ensures capacity <= 64 ==> NextCapacity(DoubleThenThreeHalves, capacity) == 2 * capacity
    ensures capacity > 64 ==>
              NextCapacity(DoubleThenThreeHalves, capacity) ==
              if capacity + capacity / 2 <= MAX_ARRAY_LENGTH then capacity + capacity / 2 else MAX_ARRAY_LENGTH
    ensures NextCapacity(DoubleThenThreeHalves, 64) == 128
  {
  }

  /** Arrays.copyOf(a, n) for n >= a.Length: a fresh array holding a's elements followed by zeros. */
  method CopyOf(a: array<int32>, n: int32) returns (b: array<int32>)
    requires a.Length <= n
    ensures fresh(b) && b.Length == n
    ensures forall i | 0 <= i < a.Length :: b[i] == a[i]
    ensures forall i | a.Length <= i < n :: b[i] == 0
  {
    b := new int32[n](_ => 0);
    var i := 0;
    while i < a.Length
      invariant 0 <= i <= a.Length
      invariant forall k | 0 <= k < i :: b[k] == a[k]
      invariant forall k | a.Length <= k < n :: b[k] == 0
    {
      b[i] := a[i];
      i := i + 1;
    }
  }

  class CellBag {
    const growth: Growth
    var r: array<int32>
    var c: array<int32>
    var size: int32
    var capacity: int32

    /** the cells added so far, in insertion order */
    ghost var Contents: seq<(int, int)>
    ghost var Repr: set<object>

    ghost predicate Valid()
      reads this, Repr
    {
      && Repr == {this, r, c}
      && r != c
      && r.Length == capacity && c.Length == capacity
      && 0 <= size <= capacity <= MAX_ARRAY_LENGTH
      && (capacity == 0 || InitialCapacity(growth) <= capacity)
      && |Contents| == size
      && (forall i | 0 <= i < size :: Contents[i] == (r[i] as int, c[i] as int))
    }

    /** A new bag is empty and has no arrays yet (the source's arrays start out null). */
    constructor (growth: Growth)
      ensures Valid() && fresh(Repr)
      ensures this.growth == growth && Contents == [] && capacity == 0
    {
      this.growth := growth;
      r := new int32[0];
      c := new int32[0];
      size := 0;
      capacity := 0;
      Contents := [];
      new;
      Repr := {this, r, c};
    }

    /** Appends (row, col). The first add allocates InitialCapacity slots; an add to a full bag
        grows it to NextCapacity, keeping the earlier entries; a full bag of MAX_ARRAY_LENGTH
        entries throws "cell bag too big" and is left as it was. */
    method Add(row: int32, col: int32) returns (res: Outcome)
      requires Valid()
      modifies Repr
      ensures Valid() && fresh(Repr - old(Repr))
      ensures res.Pass? <==> old(size) < MAX_ARRAY_LENGTH
      ensures res.Fail? ==> res.error == CellBagTooBig && Contents == old(Contents) && capacity == old(capacity)
      ensures res.Pass? ==> Contents == old(Contents) + [(row as int, col as int)]
      ensures res.Pass? ==> capacity == (if old(size) == 0 then InitialCapacity(growth)
                                         else if old(size) == old(capacity) then NextCapacity(growth, old(capacity))
                                         else old(capacity))
    {
      res := Reserve();
      if res.Fail? {
        return;
      }
      var index := size;
      size := size + 1;
      r[index] := row;
      c[index] := col;
      Contents := Contents + [(row as int, col as int)];
    }

    /** The allocation half of add: makes room for one more entry, or fails on a full bag of
        MAX_ARRAY_LENGTH entries; the entries themselves are kept. */
    method Reserve() returns (res: Outcome)
      requires Valid()
      modifies Repr
      ensures Valid() && fresh(Repr - old(Repr))
      ensures size == old(size) && Contents == old(Contents)
      ensures res.Pass? <==> old(size) < MAX_ARRAY_LENGTH
      ensures res.Pass? ==> size < capacity
      ensures res.Fail? ==> res.error == CellBagTooBig && capacity == old(capacity)
      ensures res.Pass? ==> capacity == (if old(size) == 0 then InitialCapacity(growth)
                                         else if old(size) == old(capacity) then NextCapacity(growth, old(capacity))
                                         else old(capacity))
    {
      if size == 0 {
        capacity := InitialCapacity(growth);
        r := new int32[capacity](_ => 0);
        c := new int32[capacity](_ => 0);
      } else if size == capacity {
        if size == MAX_ARRAY_LENGTH {
          return Fail(CellBagTooBig);
        }
        NextCapacityGrows(growth, capacity);
        capacity := NextCapacity(growth, capacity);
        r := CopyOf(r, capacity);
        c := CopyOf(c, capacity);
      }
      Repr := {this, r, c};
      res := Pass;
    }

    /** forEach: the (row, col) pairs passed to the action, entries 0 .. size-1 in insertion order. */
    method ForEach() returns (visits: seq<(int, int)>)
      requires Valid()
      ensures visits == Contents
    {
      visits := [];
      var i := 0;
      while i < size
        invariant 0 <= i <= size
        invariant visits == Contents[..i]
      {
        visits := visits + [(r[i] as int, c[i] as int)];
        i := i + 1;
      }
    }

    function Size(): (n: int32)
      requires Valid()
      reads Repr
      ensures n == |Contents|
    {
      size
    }
  }
}

=== FILE: src/cell_set.dfy ===
/** AbstractCellSet.java: a set of cells kept as packed `long`s in a backing LongSet.
    The backing set is a mathematical set here; its iteration order is left open. */
module CellSets {
  import opened JavaInt
  import opened Cells

  class CellSet {
    /** the backing LongSet */
    var cells: set<int>
    /** the (row, col) pairs the packed values stand for */
    ghost var Elements: set<(int, int)>

    ghost predicate Valid()
      reads this
    {
      && (forall p | p in Elements :: IsInt32Pair(p))
      && cells == PackSet(Elements)
    }

    constructor ()
      ensures Valid() && Elements == {}
    {
      cells := {};
      Elements := {};
    }

    /** Returns true exactly when (row, col) was not yet in the set. */
    method Add(row: int32, col: int32) returns (added: bool)
      requires Valid()
      modifies this
      ensures Valid()
      ensures added <==> (row, col) !in old(Elements)
      ensures Elements == old(Elements) + {(row, col)}
    {
      PackSetMember(Elements, row, col);
      added := Pack(row, col) !in cells;
      cells := cells + {Pack(row, col)};
      Elements := Elements + {(row, col)};
    }

    /** Returns true exactly when (row, col) was in the set. */
    method Remove(row: int32, col: int32) returns (removed: bool)
      requires Valid()
      modifies this
      ensures Valid()
      ensures removed <==> (row, col) in old(Elements)
      ensures Elements == old(Elements) - {(row, col)}
    {
      PackSetMember(Elements, row, col);
      removed := Pack(row, col) in cells;
      cells := cells - {Pack(row, col)};
      Elements := Elements - {(row, col)};
      forall x | x in PackSet(Elements) ensures x in cells {
        var p :| p in Elements && IsInt32Pair(p) && Pack(p.0, p.1) == x;
        PackInjective(p.0, p.1, row, col);
      }
    }

    function Contains(row: int32, col: int32): (b: bool)
      requires Valid()
      reads this
      ensures b <==> (row, col) in Elements
    {
      PackSetMember(Elements, row, col);
      Pack(row, col) in cells
    }

    /** The number of distinct (row, col) pairs stored. */
    function Size(): (n: int)
      requires Valid()
      reads this
      ensures n == |Elements|
    {
      PackSetCard(Elements);
      |cells|
    }

    /** forEach: the sequence of (row, col) pairs passed to the operation, each unpacked from a
        stored value; every stored cell is visited exactly once, in an unspecified order. */
    method ForEach() returns (visits: seq<(int, int)>)
      requires Valid()
      ensures |visits| == |Elements|
      ensures forall i | 0 <= i < |visits| :: visits[i] in Elements
      ensures forall p | p in Elements :: p in visits
      ensures forall i, j | 0 <= i < j < |visits| :: visits[i] != visits[j]
    {
      var rest := cells;
      visits := [];
      while rest != {}
        invariant rest <= cells
        invariant Walked(Elements, rest, visits)
        invariant |visits| + |rest| == |cells|
        decreases rest
      {
        var x :| x in rest;
        ghost var p :| p in Elements && IsInt32Pair(p) && Pack(p.0, p.1) == x;
        WalkStep(Elements, rest, visits, x, p);
        visits := visits + [(UnpackRow(x), UnpackCol(x))];
        rest := rest - {x};
      }
      PackSetCard(Elements);
    }

    method Clear()
      requires Valid()
      modifies this
      ensures Valid() && Elements == {}
    {
      cells := {};
      Elements := {};
    }
  }

  /** Where forEach stands with `rest` still to visit: every visit so far is a distinct element whose
      packed value has left `rest`, and every element whose packed value has left it was visited. */
  ghost predicate Walked(elems: set<(int, int)>, rest: set<int>, visits: seq<(int, int)>)
  {
    && (forall i | 0 <= i < |visits| :: visits[i] in elems && IsInt32Pair(visits[i]) && Pack(visits[i].0, visits[i].1) !in rest)
    && (forall p | p in elems && IsInt32Pair(p) && Pack(p.0, p.1) !in rest :: p in visits)
    && (forall i, j | 0 <= i < j < |visits| :: visits[i] != visits[j])
  }

  /** Taking the packed value x of element p out of `rest` and visiting its unpacked pair keeps
      the walk where it should be. */
  lemma WalkStep(elems: set<(int, int)>, rest: set<int>, visits: seq<(int, int)>, x: int, p: (int, int))
    requires forall q | q in elems :: IsInt32Pair(q)
    requires Walked(elems, rest, visits)
    requires x in rest && p in elems && Pack(p.0, p.1) == x
    ensures (UnpackRow(x), UnpackCol(x)) == p
    ensures Walked(elems, rest - {x}, visits + [p])
  {
    UnpackRowPack(p.0, p.1);
    UnpackColPack(p.0, p.1);
    assert p !in visits;
    forall q | q in elems && IsInt32Pair(q) && Pack(q.0, q.1) !in rest - {x} ensures q in visits + [p] {
      PackInjective(p.0, p.1, q.0, q.1);
    }
  }
}

=== FILE: src/cells.dfy ===
/** Cells.java: a cell's (row, col) pair packed into one `long`, row in the high 32 bits and
    col in the low 32 bits. */
module Cells {
  import opened JavaInt

  /** `(long) row << 32`: the row is sign-extended to 64 bits, then shifted. */
  function ShiftLeft32(row: int32): (r: int64)
    ensures r % TWO_32 == 0
  {
    Wrap64(row * TWO_32)
  }

  /** `col & 0xffffffffL`: the int is sign-extended to 64 bits and its low 32 bits kept. */
  function Low32(col: int32): (r: int64)
    ensures 0 <= r < TWO_32
  {
    col % TWO_32
  }

  /** `high | low` where high has no bit set below bit 32 and low none at or above it:
      the two bit ranges are disjoint, so the OR is the sum. */
  function OrDisjoint(high: int64, low: int64): (r: int64)
    requires high % TWO_32 == 0 && 0 <= low < TWO_32
  {
    high + low
  }

  /** Cells.pack */
  function Pack(row: int32, col: int32): int64 {
    OrDisjoint(ShiftLeft32(row), Low32(col))
  }

  /** Cells.unpackRow: `(int) (cell >> 32)`; `>>` on a long is an arithmetic shift,
      i.e. floor division by 2^32. */
  function UnpackRow(cell: int64): int32 {
    Wrap32(cell / TWO_32)
  }

  /** Cells.unpackCol: `(int) cell`, the low 32 bits read as a signed int. */
  function UnpackCol(cell: int64): int32 {
    Wrap32(cell)
  }

  /** The high 32 bits of pack(row, col) are row, the low 32 bits are col. */
  lemma PackHighLow(row: int32, col: int32)
    ensures Pack(row, col) / TWO_32 == row
    ensures Pack(row, col) % TWO_32 == col % TWO_32
  {
    assert ShiftLeft32(row) == row * TWO_32;
  }

  lemma UnpackRowPack(row: int32, col: int32)
    ensures UnpackRow(Pack(row, col)) == row
  {
    PackHighLow(row, col);
  }

  /** The mask keeps a negative column from reaching the row bits, so the column comes back. */
  lemma UnpackColPack(row: int32, col: int32)
    ensures UnpackCol(Pack(row, col)) == col
  {
    PackHighLow(row, col);
  }

  lemma PackInjective(r1: int32, c1: int32, r2: int32, c2: int32)
    ensures Pack(r1, c1) == Pack(r2, c2) <==> r1 == r2 && c1 == c2
  {
    if Pack(r1, c1) == Pack(r2, c2) {
      UnpackRowPack(r1, c1);
      UnpackRowPack(r2, c2);
      UnpackColPack(r1, c1);
      UnpackColPack(r2, c2);
    }
  }

  /** A pair both of whose coordinates fit a Java int. */
  ghost predicate IsInt32Pair(p: (int, int)) {
    -0x8000_0000 <= p.0 < 0x8000_0000 && -0x8000_0000 <= p.1 < 0x8000_0000
  }

  /** The packed form of a set of pairs. */
  ghost function PackSet(s: set<(int, int)>): set<int>
    requires forall p | p in s :: IsInt32Pair(p)
  {
    set p | p in s && IsInt32Pair(p) :: Pack(p.0, p.1)
  }

  lemma PackSetMember(s: set<(int, int)>, row: int32, col: int32)
    requires forall p | p in s :: IsInt32Pair(p)
    ensures Pack(row, col) in PackSet(s) <==> (row, col) in s
  {
    if Pack(row, col) in PackSet(s) {
      var p :| p in s && Pack(p.0, p.1) == Pack(row, col);
      PackInjective(p.0, p.1, row, col);
    }
  }

  /** Packing loses no pair: the packed set has as many elements as the pair set. */
  lemma {:induction false} PackSetCard(s: set<(int, int)>)
    requires forall p | p in s :: IsInt32Pair(p)
    ensures |PackSet(s)| == |s|
  {
    if s != {} {
      var p :| p in s;
      var rest := s - {p};
      PackSetCard(rest);
      assert PackSet(s) == PackSet(rest) + {Pack(p.0, p.1)};
      PackSetMember(rest, p.0, p.1);
    }
  }
}

=== FILE: src/chunked_progress.dfy ===
/** ChunkedProgressStrategy.java: `progressChunk` scans a rectangle of the grid row by row,
    reading each cell's neighbour count and state, and records into a fresh NextGen which cells
    die and which are born; the grid itself is not touched. */
module ChunkedProgress {
  import opened JavaInt
  import opened Errors
  import opened LifeRules
  import opened RowMajor
  import opened CellBags
  import opened FiniteGrids
  import opened NextGens

  /** p lies in the rectangle [fromRow, toRow) x [fromCol, toCol). */
  predicate InRect(p: Cell, fromRow: int, fromCol: int, toRow: int, toCol: int) {
    fromRow <= p.0 < toRow && fromCol <= p.1 < toCol
  }

  /** The rectangle has no cells, or lies inside the rows x cols grid. */
  predicate RectInGrid(rows: int, cols: int, fromRow: int, fromCol: int, toRow: int, toCol: int) {
    fromRow >= toRow || fromCol >= toCol || (0 <= fromRow && toRow <= rows && 0 <= fromCol && toCol <= cols)
  }

  /** The cells of the rectangle a row-major scan has passed on reaching (row, col). */
  predicate Done(p: Cell, fromRow: int, fromCol: int, toCol: int, row: int, col: int) {
    fromRow <= p.0 && fromCol <= p.1 < toCol && (p.0 < row || (p.0 == row && p.1 < col))
  }

  function Min(a: int32, b: int32): int32 {
    if a <= b then a else b
  }

  /** The end of the scan as progressChunk computes it: toRow clamped by the number of columns
      and toCol by the number of rows. */
  function ClampAsWritten(rows: int32, cols: int32, toRow: int32, toCol: int32): (r: (int32, int32))
    ensures rows == cols && rows >= 0 ==> r == Clamp(rows, cols, toRow, toCol)
  {
    (Min(cols, toRow), Min(rows, toCol))
  }

  /** The end of the scan clamped to the grid: toRow by the rows, toCol by the columns. */
  function Clamp(rows: int32, cols: int32, toRow: int32, toCol: int32): (r: (int32, int32))
    requires rows >= 0 && cols >= 0
    ensures r.0 <= rows && r.1 <= cols
  {
    (Min(rows, toRow), Min(cols, toCol))
  }

  /** progressChunk as written: clamps with the dimensions swapped, then scans. */
  method ProgressChunkAsWritten(grid: FiniteGrid, fromRow: int32, fromCol: int32, toRow: int32, toCol: int32)
    returns (res: Result<NextGen>)
    requires grid.Valid()
    ensures var (r, c) := ClampAsWritten(grid.rows, grid.cols, toRow, toCol);
            ScanResult(grid, res, fromRow as int, fromCol as int, r as int, c as int)
  {
    var (r, c) := ClampAsWritten(grid.rows, grid.cols, toRow, toCol);
    res := ScanChunk(grid, fromRow, fromCol, r, c);
  }

  /** progressChunk with the clamps the other way round: the scan stays in the grid, so it fails
      only when a bag overflows. */
  method ProgressChunk(grid: FiniteGrid, fromRow: int32, fromCol: int32, toRow: int32, toCol: int32)
    returns (res: Result<NextGen>)
    requires grid.Valid()
    requires 0 <= fromRow && 0 <= fromCol
    ensures var (r, c) := Clamp(grid.rows, grid.cols, toRow, toCol);
            ScanResult(grid, res, fromRow as int, fromCol as int, r as int, c as int)
    ensures res.Failure? ==> res.error == CellBagTooBig
  {
    var (r, c) := Clamp(grid.rows, grid.cols, toRow, toCol);
    res := ScanChunk(grid, fromRow, fromCol, r, c);
  }

  /** What a scan of [fromRow, toRow) x [fromCol, toCol) yields: a fresh NextGen over the grid
      whose `died` holds exactly the rectangle's cells that die in the next generation and whose
      `spawned` holds exactly those that are born, each in row-major order without repeats; or
      the exception the grid throws for a rectangle leaving the grid, or a bag's overflow. */
  ghost predicate ScanResult(grid: FiniteGrid, res: Result<NextGen>, fromRow: int, fromCol: int, toRow: int, toCol: int)
    reads grid
    reads if res.Success? then {res.value} + res.value.Repr else {}
  {
    && (res.Success? ==>
          && res.value.Valid() && res.value.grid == grid
          && res.value.spawned.growth == DoubleThenThreeHalves
          && RectInGrid(grid.rows as int, grid.cols as int, fromRow, fromCol, toRow, toCol)
          && (forall p :: p in res.value.died.Contents <==>
                p in Deaths(grid.live, grid.rows as int, grid.cols as int) && InRect(p, fromRow, fromCol, toRow, toCol))
          && (forall p :: p in res.value.spawned.Contents <==>
                p in Births(grid.live, grid.rows as int, grid.cols as int) && InRect(p, fromRow, fromCol, toRow, toCol))
          && Increasing(res.value.died.Contents) && Increasing(res.value.spawned.Contents))
    && (res.Failure? ==> res.error == CellBagTooBig || res.error == IndexOutOfBounds)
    && (res.Failure? && RectInGrid(grid.rows as int, grid.cols as int, fromRow, fromCol, toRow, toCol) ==>
          res.error == CellBagTooBig)
  }

  /** The two nested loops of progressChunk over [fromRow, toRow) x [fromCol, toCol). */
  method ScanChunk(grid: FiniteGrid, fromRow: int32, fromCol: int32, toRow: int32, toCol: int32)
    returns (res: Result<NextGen>)
    requires grid.Valid()
    ensures ScanResult(grid, res, fromRow as int, fromCol as int, toRow as int, toCol as int)
    ensures res.Success? ==> fresh(res.value.Repr)
  {
    var ng := new NextGen(grid, DoubleThenThreeHalves);
    ghost var live, rows, cols := grid.live, grid.rows as int, grid.cols as int;
    var row := fromRow;
    while row < toRow
      invariant fromRow <= row && (row <= toRow || row == fromRow)
      invariant ng.Valid() && fresh(ng.Repr) && ng.grid == grid
      invariant Scanned(live, rows, cols, ng.died.Contents, ng.spawned.Contents, fromRow as int, fromCol as int, toCol as int, row as int, fromCol as int)
    {
      var o := ScanRow(grid, ng, fromRow, fromCol, toCol, row);
      if o.Fail? {
        return Failure(o.error);
      }
      row := row + 1;
    }
    res := Success(ng);
    ScanEnd(live, rows, cols, ng.died.Contents, ng.spawned.Contents, fromRow as int, fromCol as int, toRow as int, toCol as int, row as int);
  }

  /** The inner loop of progressChunk: one row of the rectangle, cell by cell. */
  method ScanRow(grid: FiniteGrid, ng: NextGen, fromRow: int32, fromCol: int32, toCol: int32, row: int32)
    returns (res: Outcome)
    requires grid.Valid() && ng.Valid() && ng.grid == grid && fromRow <= row
    requires Scanned(grid.live, grid.rows as int, grid.cols as int, ng.died.Contents, ng.spawned.Contents,
                     fromRow as int, fromCol as int, toCol as int, row as int, fromCol as int)
    modifies ng.Repr
    ensures ng.Valid() && fresh(ng.Repr - old(ng.Repr))
    ensures res.Fail? ==> fromCol < toCol && (res.error == CellBagTooBig || res.error == IndexOutOfBounds)
    ensures res.Fail? && 0 <= row < grid.rows && 0 <= fromCol && toCol <= grid.cols ==> res.error == CellBagTooBig
    ensures res.Pass? ==> Scanned(grid.live, grid.rows as int, grid.cols as int, ng.died.Contents, ng.spawned.Contents,
                                  fromRow as int, fromCol as int, toCol as int, row as int + 1, fromCol as int)
  {
    var col := fromCol;
    while col < toCol
      invariant fromCol <= col && (col <= toCol || col == fromCol)
      invariant ng.Valid() && fresh(ng.Repr - old(ng.Repr))
      invariant Scanned(grid.live, grid.rows as int, grid.cols as int, ng.died.Contents, ng.spawned.Contents,
                        fromRow as int, fromCol as int, toCol as int, row as int, col as int)
    {
      res := Examine(grid, ng, fromRow, fromCol, toCol, row, col);
      if res.Fail? {
        return;
      }
      col := col + 1;
    }
    res := Pass;
    NextRow(grid.live, grid.rows as int, grid.cols as int, ng.died.Contents, ng.spawned.Contents,
            fromRow as int, fromCol as int, toCol as int, row as int, col as int);
  }

  /** The scan so far: every cell passed is a grid cell, and the bags hold exactly the passed
      cells that die and that are born, in the order they were passed. */
  ghost predicate Scanned(live: set<Cell>, rows: int, cols: int, died: seq<Cell>, spawned: seq<Cell>,
                          fromRow: int, fromCol: int, toCol: int, row: int, col: int)
  {
    && (forall p | Done(p, fromRow, fromCol, toCol, row, col) :: InBounds(rows, cols, p.0, p.1))
    && (forall p :: p in died <==> Dies(live, rows, cols, p) && Done(p, fromRow, fromCol, toCol, row, col))
    && (forall p :: p in spawned <==> Spawns(live, rows, cols, p) && Done(p, fromRow, fromCol, toCol, row, col))
    && Increasing(died) && Increasing(spawned)
  }

  /** One cell of the scan: its neighbour count and state are read (either read throws off the
      grid), and it is recorded in `died` or `spawned` as the rule says. */
  method Examine(grid: FiniteGrid, ng: NextGen, fromRow: int32, fromCol: int32, toCol: int32, row: int32, col: int32)
    returns (res: Outcome)
    requires grid.Valid() && ng.Valid() && ng.grid == grid
    requires fromRow <= row && fromCol <= col < toCol
    requires Scanned(grid.live, grid.rows as int, grid.cols as int, ng.died.Contents, ng.spawned.Contents,
                     fromRow as int, fromCol as int, toCol as int, row as int, col as int)
    modifies ng.Repr
    ensures ng.Valid() && fresh(ng.Repr - old(ng.Repr))
    ensures res.Fail? ==> res.error == CellBagTooBig || res.error == IndexOutOfBounds
    ensures res.Fail? && InBounds(grid.rows as int, grid.cols as int, row as int, col as int) ==> res.error == CellBagTooBig
    ensures res.Pass? ==> Scanned(grid.live, grid.rows as int, grid.cols as int, ng.died.Contents, ng.spawned.Contents,
                                  fromRow as int, fromCol as int, toCol as int, row as int, col as int + 1)
  {
    var neighbors := grid.GetNeighbors(row, col);
    if neighbors.Failure? {
      return Fail(neighbors.error);
    }
    res := Pass;
    if grid.Get(row, col).value {
      if neighbors.value < 2 || neighbors.value > 3 {
        res := ng.WillDie(row, col);
      }
    } else if neighbors.value == 3 {
      res := ng.WillSpawn(row, col);
    }
    if res.Pass? {
      ScanStep(grid.live, grid.rows as int, grid.cols as int, old(ng.died.Contents), old(ng.spawned.Contents),
               ng.died.Contents, ng.spawned.Contents, fromRow as int, fromCol as int, toCol as int, row as int, col as int,
               Dies(grid.live, grid.rows as int, grid.cols as int, (row as int, col as int)),
               Spawns(grid.live, grid.rows as int, grid.cols as int, (row as int, col as int)));
    }
  }

  /** Passing a grid cell appends it to `died` when it dies and to `spawned` when it is born, which
      keeps the scan's account. */
  lemma ScanStep(live: set<Cell>, rows: int, cols: int, died: seq<Cell>, spawned: seq<Cell>,
                 died': seq<Cell>, spawned': seq<Cell>, fromRow: int, fromCol: int, toCol: int, row: int, col: int,
                 dies: bool, spawns: bool)
    requires InBounds(rows, cols, row, col) && fromRow <= row && fromCol <= col < toCol
    requires Scanned(live, rows, cols, died, spawned, fromRow, fromCol, toCol, row, col)
    requires dies == Dies(live, rows, cols, (row, col)) && spawns == Spawns(live, rows, cols, (row, col))
    requires died' == if dies then died + [(row, col)] else died
    requires spawned' == if spawns then spawned + [(row, col)] else spawned
    ensures Scanned(live, rows, cols, died', spawned', fromRow, fromCol, toCol, row, col + 1)
  {
    var p := (row, col);
    forall q
      ensures Done(q, fromRow, fromCol, toCol, row, col + 1) <==> Done(q, fromRow, fromCol, toCol, row, col) || q == p
    {
      if q.0 == row && q.1 == col {
        assert q == p;
      }
    }
    if dies {
      IncreasingSnoc(died, p);
    }
    if spawns {
      IncreasingSnoc(spawned, p);
    }
  }

  /** Passing the end of a row is reaching the start of the next one. */
  lemma NextRow(live: set<Cell>, rows: int, cols: int, died: seq<Cell>, spawned: seq<Cell>,
                fromRow: int, fromCol: int, toCol: int, row: int, col: int)
    requires fromCol < toCol ==> col == toCol
    requires col >= fromCol
    requires Scanned(live, rows, cols, died, spawned, fromRow, fromCol, toCol, row, col)
    ensures Scanned(live, rows, cols, died, spawned, fromRow, fromCol, toCol, row + 1, fromCol)
  {
    assert forall p :: Done(p, fromRow, fromCol, toCol, row, col) <==> Done(p, fromRow, fromCol, toCol, row + 1, fromCol);
  }

  /** At the end of the scan every cell of the rectangle has been passed, so the rectangle lies in
      the grid and the bags hold all its deaths and births. */
  lemma ScanEnd(live: set<Cell>, rows: int, cols: int, died: seq<Cell>, spawned: seq<Cell>,
                fromRow: int, fromCol: int, toRow: int, toCol: int, row: int)
    requires WithinGrid(live, rows, cols)
    requires row == toRow || (row == fromRow && fromRow >= toRow)
    requires Scanned(live, rows, cols, died, spawned, fromRow, fromCol, toCol, row, fromCol)
    ensures RectInGrid(rows, cols, fromRow, fromCol, toRow, toCol)
    ensures forall p :: p in died <==> p in Deaths(live, rows, cols) && InRect(p, fromRow, fromCol, toRow, toCol)
    ensures forall p :: p in spawned <==> p in Births(live, rows, cols) && InRect(p, fromRow, fromCol, toRow, toCol)
  {
    assert forall p :: Done(p, fromRow, fromCol, toCol, row, fromCol) <==> InRect(p, fromRow, fromCol, toRow, toCol);
    if fromRow < toRow && fromCol < toCol {
      assert Done((fromRow, fromCol), fromRow, fromCol, toCol, row, fromCol);
      assert Done((toRow - 1, toCol - 1), fromRow, fromCol, toCol, row, fromCol);
    }
    forall p
      ensures (p in Deaths(live, rows, cols) <==> InBounds(rows, cols, p.0, p.1) && Dies(live, rows, cols, p))
           && (p in Births(live, rows, cols) <==> InBounds(rows, cols, p.0, p.1) && Spawns(live, rows, cols, p))
    {
      DeltaCells(live, rows, cols, p);
    }
  }

  /** A scan of the whole grid records every death and every birth, so applying its bags to the
      grid yields the next generation. */
  lemma WholeGridScan(live: set<Cell>, rows: int, cols: int, died: seq<Cell>, spawned: seq<Cell>)
    requires WithinGrid(live, rows, cols)
    requires forall p :: p in died <==> p in Deaths(live, rows, cols) && InRect(p, 0, 0, rows, cols)
    requires forall p :: p in spawned <==> p in Births(live, rows, cols) && InRect(p, 0, 0, rows, cols)
    ensures ApplyBags(live, spawned, died) == Step(live, rows, cols)
  {
    assert Members(died) == Deaths(live, rows, cols);
    assert Members(spawned) == Births(live, rows, cols);
    ApplyStep(live, rows, cols, spawned, died);
  }

  /** On a 2 x 1 grid whose lower cell is alive, progressChunk as written, asked for the whole
      grid, clamps the rectangle to 1 x 1 and so never sees the lower cell die; the corrected
      clamp keeps the whole grid. */
  lemma ClampAsWrittenMissesRow()
    ensures ClampAsWritten(2, 1, 2, 1) == (1, 1)
    ensures (1, 0) in Deaths({(1, 0)}, 2, 1) && !InRect((1, 0), 0, 0, 1, 1)
    ensures Clamp(2, 1, 2, 1) == (2, 1) && InRect((1, 0), 0, 0, 2, 1)
  {
    assert Neighbors({(1, 0)}, 2, 1, 1, 0) == 0;
  }
}

=== FILE: src/config.dfy ===
/** config/GameOfLifeConfig.java: the settings a GameOfLife is built from, each with a setter that
    returns the configuration itself, and the two derived quantities: the number of cells and
    the number of chunks the parallel strategy splits the grid into. */
module Configs {
  import opened JavaInt
  import opened Errors
  import opened RowMajor

  /** GameOfLifeConfig.DEFAULT_PARALLEL_PROGRESSION_THRESHOLD */
  const DEFAULT_PARALLEL_PROGRESSION_THRESHOLD: int32 := 1_000_000

  /** GameOfLifeConfig.DEFAULT_CHUNK_SIDE */
  const DEFAULT_CHUNK_SIDE: int32 := 1_000

  /** An ExecutorService supplied by the caller: only whether there is one matters here. */
  datatype Executor = Executor(id: nat)

  /** The fields of a configuration, as one value. A null reference is None. */
  datatype Settings = Settings(
    rows: int32,
    columns: int32,
    initialState: Matrix,
    parallel: bool,
    threadSafe: bool,
    progressExecutor: Option<Executor>,
    parallelizationThreshold: int32,
    chunkWidth: int32,
    chunkHeight: int32)

  /** The field initialisers: no grid yet, parallel progression on, thread safety off,
      a threshold of a million cells and 1000 x 1000 chunks. */
  const DEFAULTS := Settings(0, 0, None, true, false, None,
                             DEFAULT_PARALLEL_PROGRESSION_THRESHOLD, DEFAULT_CHUNK_SIDE, DEFAULT_CHUNK_SIDE)

  /** |a * b| for two ints is at most 2^62, so a long holds the product exactly. */
  lemma IntProductFitsLong(a: int32, b: int32)
    ensures -0x4000_0000_0000_0000 <= a as int * b as int <= 0x4000_0000_0000_0000
  {
    var x := if a < 0 then -(a as int) else a as int;
    var y := if b < 0 then -(b as int) else b as int;
    assert x * y <= 0x8000_0000 * 0x8000_0000 by {
      if y > 0 {
        MulMonotone(x, 0x8000_0000, y);
        MulMonotone(y, 0x8000_0000, 0x8000_0000);
      }
    }
    assert a as int * b as int == x * y || a as int * b as int == -(x * y);
  }

  /** getSize(): (long) rows * columns, which never wraps. */
  function Size(rows: int32, columns: int32): (size: int64)
    ensures size as int == rows as int * columns as int
  {
    IntProductFitsLong(rows, columns);
    rows as int * columns as int
  }

  /** getChunks() as written: the chunk size is an int product; the long quotient is cast to
      int; and one more chunk is counted when the int product chunks * chunkSize falls short of
      the size. A chunk size that wraps to zero divides by zero. */
  function ChunksAsWritten(size: int64, chunkWidth: int32, chunkHeight: int32): (r: Result<int32>)
    ensures r.Failure? <==> Wrap32(chunkWidth as int * chunkHeight as int) == 0
    ensures r.Failure? ==> r.error == Arithmetic
  {
    var chunkSize := Wrap32(chunkWidth as int * chunkHeight as int);
    if chunkSize == 0 then Failure(Arithmetic)
    else
      var chunks := Wrap32(TruncDiv(size as int, chunkSize as int));
      if (Wrap32(chunks as int * chunkSize as int) as int) < size as int then Success(Wrap32(chunks as int + 1))
      else Success(chunks)
  }

  /** getChunks() with the comparison done in long arithmetic, `(long) chunks * chunkSize < size`,
      so that the product cannot wrap. */
  function Chunks(size: int64, chunkWidth: int32, chunkHeight: int32): (r: Result<int32>)
    ensures r.Failure? <==> Wrap32(chunkWidth as int * chunkHeight as int) == 0
    ensures r.Failure? ==> r.error == Arithmetic
  {
    var chunkSize := Wrap32(chunkWidth as int * chunkHeight as int);
    if chunkSize == 0 then Failure(Arithmetic)
    else Success(ChunkCount(size, chunkSize))
  }

  /** The count part of Chunks, for a chunk size already computed. */
  function ChunkCount(size: int64, chunkSize: int32): int32
    requires chunkSize != 0
  {
    var chunks := Wrap32(TruncDiv(size as int, chunkSize as int));
    if chunks as int * chunkSize as int < size as int then Wrap32(chunks as int + 1) else chunks
  }

  /** The count is the ceiling of size / chunkSize: enough chunks to cover every cell, and one
      fewer would not, whenever the chunk size is positive and the count fits in an int. */
  lemma ChunkCountCeiling(size: int64, k: int32)
    requires size >= 0 && k > 0 && size as int / k as int < INT_MAX as int
    ensures ChunkCount(size, k) as int * k as int >= size as int
    ensures (ChunkCount(size, k) as int - 1) * k as int < size as int
  {
    var s, kk := size as int, k as int;
    var q, r := s / kk, s % kk;
    assert s == q * kk + r && 0 <= r < kk;
    DivMonotone(0, s, kk);
    assert Wrap32(TruncDiv(s, kk)) as int == q;
    Brackets(s, kk, q, r);
  }

  /** Around s = q * k + r: the multiples of k next to s. */
  lemma Brackets(s: int, k: int, q: int, r: int)
    requires s == q * k + r && 0 <= r < k
    ensures r > 0 ==> q * k < s && (q + 1) * k >= s
    ensures r == 0 ==> q * k >= s && (q - 1) * k < s
  {
    assert (q + 1) * k == q * k + k;
    assert (q - 1) * k == q * k - k;
  }

  /** With a chunk size that is a positive int, getChunks (in long arithmetic) succeeds with the
      ceiling of size / chunkSize. */
  lemma ChunksCeiling(size: int64, chunkWidth: int32, chunkHeight: int32)
    requires size >= 0
    requires 0 < chunkWidth as int * chunkHeight as int <= INT_MAX as int
    requires size as int / (chunkWidth as int * chunkHeight as int) < INT_MAX as int
    ensures var r := Chunks(size, chunkWidth, chunkHeight);
            var k := chunkWidth as int * chunkHeight as int;
            r.Success? && r.value as int * k >= size as int && (r.value as int - 1) * k < size as int
  {
    var k := chunkWidth as int * chunkHeight as int;
    assert Wrap32(k) as int == k;
    ChunkCountCeiling(size, k as int32);
  }

  /** Integer division by a positive divisor is monotone. */
  lemma DivMonotone(a: int, b: int, k: int)
    requires a <= b && k > 0
    ensures a / k <= b / k
  {
    if a / k > b / k {
      MulMonotone(b / k + 1, a / k, k);
    }
  }

  /** The two agree when the size fits in an int: then chunks * chunkSize is at most the size and
      cannot wrap. */
  lemma ChunksAgreeOnIntSizes(size: int64, chunkWidth: int32, chunkHeight: int32)
    requires 0 <= size <= INT_MAX
    requires 0 < chunkWidth as int * chunkHeight as int <= INT_MAX as int
    ensures ChunksAsWritten(size, chunkWidth, chunkHeight) == Chunks(size, chunkWidth, chunkHeight)
  {
    var k := chunkWidth as int * chunkHeight as int;
    assert Wrap32(k) as int == k;
    var s := size as int;
    DivBelow(s, k);
    var q := s / k;
    assert Wrap32(TruncDiv(s, k)) as int == q;
    assert Wrap32(q * k) as int == q * k;
  }

  /** The quotient of a non-negative by a positive int is non-negative, and its multiple does
      not pass the dividend. */
  lemma DivBelow(s: int, k: int)
    requires 0 <= s && 0 < k
    ensures 0 <= s / k && (s / k) * k <= s
  {
    DivMonotone(0, s, k);
    assert s == (s / k) * k + s % k;
  }

  /** c is the ceiling of n / k: c chunks of k cells cover n cells, and c - 1 do not. */
  predicate IsCeiling(c: int, n: int, k: int) {
    c * k >= n && (c - 1) * k < n
  }

  /** For a grid of fewer than Integer.MAX_VALUE cells and a positive int chunk size, getChunks
      as written is the ceiling of size / chunkSize. */
  lemma SmallGridChunks(rows: int32, columns: int32, chunkWidth: int32, chunkHeight: int32)
    ensures var k := chunkWidth as int * chunkHeight as int;
            var n := rows as int * columns as int;
            var r := ChunksAsWritten(Size(rows, columns), chunkWidth, chunkHeight);
            0 <= n < INT_MAX as int && 0 < k <= INT_MAX as int ==>
              r.Success? && IsCeiling(r.value as int, n, k)
  {
    var k := chunkWidth as int * chunkHeight as int;
    var n := rows as int * columns as int;
    if 0 <= n < INT_MAX as int && 0 < k <= INT_MAX as int {
      DivBelow(n, k);
      ChunksAgreeOnIntSizes(Size(rows, columns), chunkWidth, chunkHeight);
      ChunksCeiling(Size(rows, columns), chunkWidth, chunkHeight);
    }
  }

  /** A 100000 x 100000 grid in the default 1000 x 1000 chunks needs exactly 10000 chunks, but
      chunks * chunkSize = 10^10 wraps to 1410065408 as an int, which is less than the size, so
      getChunks counts 10001. */
  lemma ChunksOverflow()
    ensures ChunksAsWritten(Size(100_000, 100_000), DEFAULT_CHUNK_SIDE, DEFAULT_CHUNK_SIDE) == Success(10_001)
    ensures Chunks(Size(100_000, 100_000), DEFAULT_CHUNK_SIDE, DEFAULT_CHUNK_SIDE) == Success(10_000)
  {
    assert Wrap32(1_000_000) == 1_000_000;
    assert TruncDiv(10_000_000_000, 1_000_000) == 10_000;
    assert Wrap32(10_000) == 10_000;
    assert Wrap32(10_000 * 1_000_000) == 1_410_065_408;
  }

  /** Positive chunk sides whose int product wraps negative: 50000 x 50000 is -1794967296 as an
      int. getChunks then divides by a negative chunk size, truncating toward zero: a 2000 x 2000
      grid counts 1 chunk, and a 63246 x 63246 grid counts -1, a capacity that
      `new ArrayList<>(chunks)` refuses. */
  lemma NegativeChunkSize()
    ensures Wrap32(50_000 * 50_000) == -1_794_967_296
    ensures ChunksAsWritten(Size(2_000, 2_000), 50_000, 50_000) == Success(1)
    ensures ChunksAsWritten(Size(63_246, 63_246), 50_000, 50_000) == Success(-1)
  {
    assert Wrap32(2_500_000_000) == -1_794_967_296;
    assert TruncDiv(4_000_000, -1_794_967_296) == 0;
    assert Wrap32(1) == 1;
    assert TruncDiv(4_000_056_516, -1_794_967_296) == -2;
    assert Wrap32(-2) == -2;
    assert Wrap32(3_589_934_592) == -705_032_704;
    assert Wrap32(-1) == -1;
  }

  class GameOfLifeConfig {
    var rows: int32
    var columns: int32
    var initialState: Matrix
    var parallel: bool
    var threadSafe: bool
    var progressExecutor: Option<Executor>
    var parallelizationThreshold: int32
    var chunkWidth: int32
    var chunkHeight: int32

    /** All fields at once. getInitialState() and getProgressExecutor() wrap a field in an
        Optional that is empty exactly when the field is null, which is the field itself here. */
    function Current(): Settings
      reads this
    {
      Settings(rows, columns, initialState, parallel, threadSafe, progressExecutor,
               parallelizationThreshold, chunkWidth, chunkHeight)
    }

    constructor ()
      ensures Current() == DEFAULTS
    {
      rows, columns, initialState := 0, 0, None;
      parallel, threadSafe, progressExecutor := true, false, None;
      parallelizationThreshold := DEFAULT_PARALLEL_PROGRESSION_THRESHOLD;
      chunkWidth, chunkHeight := DEFAULT_CHUNK_SIDE, DEFAULT_CHUNK_SIDE;
    }

    method SetRows(rows: int32) returns (self: GameOfLifeConfig)
      modifies this
      ensures self == this && Current() == old(Current()).(rows := rows)
    {
      this.rows := rows;
      return this;
    }

    method SetColumns(columns: int32) returns (self: GameOfLifeConfig)
      modifies this
      ensures self == this && Current() == old(Current()).(columns := columns)
    {
      this.columns := columns;
      return this;
    }

    method SetInitialState(initialState: Matrix) returns (self: GameOfLifeConfig)
      modifies this
      ensures self == this && Current() == old(Current()).(initialState := initialState)
    {
      this.initialState := initialState;
      return this;
    }

    method SetProgressExecutor(progressExecutor: Option<Executor>) returns (self: GameOfLifeConfig)
      modifies this
      ensures self == this && Current() == old(Current()).(progressExecutor := progressExecutor)
    {
      this.progressExecutor := progressExecutor;
      return this;
    }

    method SetParallelizationThreshold(parallelizationThreshold: int32) returns (self: GameOfLifeConfig)
      modifies this
      ensures self == this && Current() == old(Current()).(parallelizationThreshold := parallelizationThreshold)
    {
      this.parallelizationThreshold := parallelizationThreshold;
      return this;
    }

    method SetParallel(parallel: bool) returns (self: GameOfLifeConfig)
      modifies this
      ensures self == this && Current() == old(Current()).(parallel := parallel)
    {
      this.parallel := parallel;
      return this;
    }

    method SetChunkHeight(chunkHeight: int32) returns (self: GameOfLifeConfig)
      modifies this
      ensures self == this && Current() == old(Current()).(chunkHeight := chunkHeight)
    {
      this.chunkHeight := chunkHeight;
      return this;
    }

    method SetChunkWidth(chunkWidth: int32) returns (self: GameOfLifeConfig)
      modifies this
      ensures self == this && Current() == old(Current()).(chunkWidth := chunkWidth)
    {
      this.chunkWidth := chunkWidth;
      return this;
    }

    method SetThreadSafe(threadSafe: bool) returns (self: GameOfLifeConfig)
      modifies this
      ensures self == this && Current() == old(Current()).(threadSafe := threadSafe)
    {
      this.threadSafe := threadSafe;
      return this;
    }

    /** getSize(): (long) rows * columns, exact for any two ints. */
    function GetSize(): (n: int64)
      reads this
      ensures n as int == rows as int * columns as int
    {
      Size(rows, columns)
    }

    /** getChunks() as written: it throws exactly when the int chunk size wraps to zero, and for
        a grid of fewer than Integer.MAX_VALUE cells in chunks of a positive int size it is the
        ceiling of size / chunkSize (ChunksOverflow shows a larger grid where it is not). */
    function GetChunks(): (r: Result<int32>)
      reads this
      ensures r.Failure? <==> Wrap32(chunkWidth as int * chunkHeight as int) == 0
      ensures r.Failure? ==> r.error == Arithmetic
      ensures var k := chunkWidth as int * chunkHeight as int;
              0 <= rows as int * columns as int < INT_MAX as int && 0 < k <= INT_MAX as int ==>
                r.Success? && IsCeiling(r.value as int, rows as int * columns as int, k)
    {
      SmallGridChunks(rows, columns, chunkWidth, chunkHeight);
      ChunksAsWritten(GetSize(), chunkWidth, chunkHeight)
    }
  }
}

=== FILE: src/errors.dfy ===
/** The exceptions the engine throws, as values, and Java's nullable references. */
module Errors {

  /** Which constructor argument a dimension check complains about. */
  datatype Dimension = Rows | Columns

  datatype Error =
    | IllegalArgument(dimension: Dimension, got: int)  // IllegalArgumentException("Number of ... expected >= 1, got " + got)
    | IndexOutOfBounds                                   // from Objects.checkIndex / checkFromIndexSize
    | ArrayIndexOutOfBounds                              // an unchecked array access
    | NegativeArraySize                                  // `new T[n]` with n < 0
    | CellBagTooBig                                      // IllegalStateException("cell bag too big")
    | Arithmetic                                         // ArithmeticException: division by zero
    | IllegalCapacity(got: int)                          // IllegalArgumentException from `new ArrayList<>(n)` with n < 0

  /** A value, or the exception thrown instead. */
  datatype Result<+T> = Success(value: T) | Failure(error: Error)

  /** Completion of a void method, or the exception thrown instead. */
  datatype Outcome = Pass | Fail(error: Error)

  /** A Java reference that may be null. */
  datatype Option<+T> = None | Some(value: T)

  /** A `boolean[][]` initial state: the matrix and each of its rows may be null, rows may have
      different lengths. */
  type Matrix = Option<seq<Option<seq<bool>>>>

  /** The entry initial[r][c] when the matrix, its row r and that row's column c all exist. */
  function Entry(m: Matrix, r: int, c: int): Option<bool> {
    if m.Some? && 0 <= r < |m.value| && m.value[r].Some? && 0 <= c < |m.value[r].value|
    then Some(m.value[r].value[c])
    else None
  }
}

=== FILE: src/events.dfy ===
/** listener/CellListener and listener/ProgressListener: the callbacks a game fires while it
    progresses. A listener is modelled by the sequence of calls it receives. */
module Listeners {
  import opened LifeRules

  datatype Event =
    | ProgressStart
    | CellSpawned(row: int, col: int)
    | CellDied(row: int, col: int)
    | ProgressFinish

  /** The listener a game talks to: the caller's, or the do-nothing NOOP. */
  datatype Listener = Noop | Caller

  /** The cells reported through onCellDied, in order, at most one per event. */
  function DiedCells(events: seq<Event>): (cells: seq<Cell>)
    ensures |cells| <= |events|
  {
    if events == [] then []
    else
      var last := events[|events| - 1];
      DiedCells(events[..|events| - 1]) + (if last.CellDied? then [(last.row, last.col)] else [])
  }

  /** The cells reported through onCellSpawned, in order, at most one per event. */
  function SpawnedCells(events: seq<Event>): (cells: seq<Cell>)
    ensures |cells| <= |events|
  {
    if events == [] then []
    else
      var last := events[|events| - 1];
      SpawnedCells(events[..|events| - 1]) + (if last.CellSpawned? then [(last.row, last.col)] else [])
  }

  /** Reporting one more event extends the reported deaths and births by that event only. */
  lemma ReportedSnoc(events: seq<Event>, e: Event)
    ensures DiedCells(events + [e]) == DiedCells(events) + (if e.CellDied? then [(e.row, e.col)] else [])
    ensures SpawnedCells(events + [e]) == SpawnedCells(events) + (if e.CellSpawned? then [(e.row, e.col)] else [])
  {
    assert (events + [e])[..|events|] == events;
  }

  /** The cells reported over two stretches of events are those of each stretch, in order. */
  lemma {:induction false} ReportedAppend(a: seq<Event>, b: seq<Event>)
    ensures DiedCells(a + b) == DiedCells(a) + DiedCells(b)
    ensures SpawnedCells(a + b) == SpawnedCells(a) + SpawnedCells(b)
    decreases |b|
  {
    if b == [] {
      assert a + b == a;
    } else {
      var init := b[..|b| - 1];
      assert a + b == (a + init) + [b[|b| - 1]];
      assert b == init + [b[|b| - 1]];
      ReportedSnoc(a + init, b[|b| - 1]);
      ReportedSnoc(init, b[|b| - 1]);
      ReportedAppend(a, init);
    }
  }

  /** A cell is among the reported deaths exactly when its onCellDied event was fired, and among
      the reported births exactly when its onCellSpawned event was. */
  lemma {:induction false} ReportedMembers(events: seq<Event>)
    ensures forall c: Cell :: c in DiedCells(events) <==> CellDied(c.0, c.1) in events
    ensures forall c: Cell :: c in SpawnedCells(events) <==> CellSpawned(c.0, c.1) in events
    decreases |events|
  {
    if events != [] {
      var init, last := events[..|events| - 1], events[|events| - 1];
      assert events == init + [last];
      ReportedMembers(init);
    }
  }
}

=== FILE: src/finite_grid.dfy ===
/** The grid contract every strategy programs against (Grid.java and FiniteGrid.java), with the
    shared code of AbstractGrid.java and AbstractFiniteGrid.java: the constructor checks, the
    range checks, and the default loops written in terms of get and set.

    `FiniteGrid` keeps the abstract state, the set of live cells inside rows x cols; the storage
    classes of the other modules refine it, each proving the same contracts of its own `Live()`. */
module FiniteGrids {
  import opened JavaInt
  import opened Errors
  import opened LifeRules
  import opened RowMajor

  /** AbstractGrid.MIN_SIZE and AbstractFiniteGrid.MIN_SIZE */
  const MIN_SIZE: int32 := 1

  /** The constructor's dimension checks as the source writes them: the message for a bad
      column count reports the row count. */
  function DimensionCheckAsWritten(rows: int32, cols: int32): (r: Outcome)
    ensures r.Pass? <==> rows >= MIN_SIZE && cols >= MIN_SIZE
    ensures r.Fail? ==> r.error.IllegalArgument? && (r.error.dimension == Rows <==> rows < MIN_SIZE)
    ensures r.Fail? && r.error.dimension == Columns ==> r.error.got == rows
  {
    if rows < MIN_SIZE then Fail(IllegalArgument(Rows, rows))
    else if cols < MIN_SIZE then Fail(IllegalArgument(Columns, rows))
    else Pass
  }

  /** With 5 rows and 0 columns the exception names the columns but reports 5, a valid count. */
  lemma DimensionCheckReportsRowsForColumns()
    ensures DimensionCheckAsWritten(5, 0) == Fail(IllegalArgument(Columns, 5))
    ensures DimensionCheckAsWritten(5, 0).error.got >= MIN_SIZE
  {
  }

  /** The dimension checks with the offending value reported: the grid exists exactly when both
      dimensions are at least MIN_SIZE, and a failure names the first bad dimension and its value. */
  function DimensionCheck(rows: int32, cols: int32): (r: Outcome)
    ensures r.Pass? <==> rows >= MIN_SIZE && cols >= MIN_SIZE
    ensures r.Fail? ==> r.error.IllegalArgument? && r.error.got < MIN_SIZE
    ensures r.Fail? ==> (r.error.dimension == Rows <==> rows < MIN_SIZE)
    ensures r.Fail? && r.error.dimension == Columns ==> r.error.got == cols
  {
    if rows < MIN_SIZE then Fail(IllegalArgument(Rows, rows))
    else if cols < MIN_SIZE then Fail(IllegalArgument(Columns, cols))
    else Pass
  }

  /** The two checks agree on which inputs are rejected and differ only in the reported value. */
  lemma DimensionChecksAgree(rows: int32, cols: int32)
    ensures DimensionCheckAsWritten(rows, cols).Pass? <==> DimensionCheck(rows, cols).Pass?
    ensures rows < MIN_SIZE ==> DimensionCheckAsWritten(rows, cols) == DimensionCheck(rows, cols)
  {
  }

  /** size = (long) rows * cols: the product of two positive ints always fits in a long. */
  function GridSize(rows: int32, cols: int32): (size: int64)
    requires rows >= MIN_SIZE && cols >= MIN_SIZE
    ensures size == Wrap64(rows as int * cols as int) == rows as int * cols as int
    ensures size >= rows as int && size >= cols as int
  {
    assert rows as int * cols as int <= 0x7fff_ffff * 0x7fff_ffff by {
      MulMonotone(rows as int, 0x7fff_ffff, cols as int);
      MulMonotone(cols as int, 0x7fff_ffff, 0x7fff_ffff);
    }
    MulMonotone(1, rows as int, cols as int);
    MulMonotone(1, cols as int, rows as int);
    rows as int * cols as int
  }

  /** Objects.checkIndex(index, length): the index must lie in [0, length). */
  function CheckIndex(index: int32, length: int32): (r: Outcome)
    ensures r.Pass? <==> 0 <= index < length
    ensures r.Fail? ==> r.error == IndexOutOfBounds
  {
    if index < 0 || index >= length then Fail(IndexOutOfBounds) else Pass
  }

  /** Objects.checkFromIndexSize(from, size, length): [from, from + size) must lie in [0, length). */
  function CheckFromIndexSize(from: int32, size: int32, length: int32): (r: Outcome)
    ensures r.Pass? <==> 0 <= from && 0 <= size && from as int + size as int <= length as int
    ensures r.Fail? ==> r.error == IndexOutOfBounds
  {
    if length < 0 || from < 0 || size < 0 || size > length - from then Fail(IndexOutOfBounds) else Pass
  }

  /** p comes before (row, col) in row-major order. */
  predicate Before(p: Cell, row: int, col: int) {
    p.0 < row || (p.0 == row && p.1 < col)
  }

  /** The default snapshot loop has copied grid cell (r, c) once it has finished the rows above
      `row` (columns below the width `w`) and the columns of `row` below `col`. */
  predicate Copied(r: int, c: int, row: int, col: int, w: int) {
    (r < row && c < w) || (r == row && c < col)
  }

  /** The cells fillGrid writes: the existing entries of the initial matrix inside the grid. */
  function Covered(m: Matrix, rows: int, cols: int): (s: set<Cell>)
    ensures forall p :: p in s <==> InBounds(rows, cols, p.0, p.1) && Entry(m, p.0, p.1).Some?
  {
    set p | p in AllCells(rows, cols) && Entry(m, p.0, p.1).Some?
  }

  /** The cells the initial matrix marks alive inside the grid. */
  function TrueEntries(m: Matrix, rows: int, cols: int): (s: set<Cell>)
    ensures forall p :: p in s <==> InBounds(rows, cols, p.0, p.1) && Entry(m, p.0, p.1) == Some(true)
  {
    set p | p in AllCells(rows, cols) && Entry(m, p.0, p.1) == Some(true)
  }

  /** The rows x cols window at (fromRow, fromCol), as a matrix of states. */
  function Region(live: set<Cell>, fromRow: int, fromCol: int, h: nat, w: nat): seq<seq<bool>> {
    seq(h, i => seq(w, j => (fromRow + i, fromCol + j) in live))
  }

  /** What AbstractFiniteGrid's default snapshotWithoutBoundChecking fills: its loops run
      `row < rows` and `col < columns` with `rows` and `columns` the window's height and width,
      so only window cells whose grid row is below the height and grid column below the width
      are copied and every other entry keeps the default `false`. */
  function DefaultRegion(live: set<Cell>, fromRow: int, fromCol: int, h: nat, w: nat): seq<seq<bool>> {
    seq(h, i => seq(w, j => fromRow + i < h && fromCol + j < w && (fromRow + i, fromCol + j) in live))
  }

  /** At origin (0, 0) the default copy is the window; snapshot() only ever uses it there. */
  lemma DefaultRegionAtOrigin(live: set<Cell>, h: nat, w: nat)
    ensures DefaultRegion(live, 0, 0, h, w) == Region(live, 0, 0, h, w)
  {
    assert forall i | 0 <= i < h :: DefaultRegion(live, 0, 0, h, w)[i] == Region(live, 0, 0, h, w)[i];
  }

  /** Away from the origin the default copy loses cells: on a 2 x 1 grid whose only live cell is
      (1, 0), the one-cell window at (1, 0) comes back dead. */
  lemma DefaultRegionMissesOffset(live: set<Cell>)
    requires live == {(1, 0)}
    ensures DefaultRegion(live, 1, 0, 1, 1) == [[false]]
    ensures Region(live, 1, 0, 1, 1) == [[true]]
  {
    assert DefaultRegion(live, 1, 0, 1, 1)[0] == [false];
    assert Region(live, 1, 0, 1, 1)[0] == [true];
  }

  /** More generally, a window whose origin row is at least its height comes back all dead. */
  lemma DefaultRegionBlankPastHeight(live: set<Cell>, fromRow: int, fromCol: int, h: nat, w: nat)
    requires fromRow >= h
    ensures forall i, j | 0 <= i < h && 0 <= j < w :: !DefaultRegion(live, fromRow, fromCol, h, w)[i][j]
  {
  }

  /** The grid contract with its abstract state, and the default method bodies of
      AbstractFiniteGrid (and AbstractGrid's fillGrid) written against it. */
  class FiniteGrid {
    const rows: int32
    const cols: int32
    const size: int64
    /** the live cells */
    var live: set<Cell>

    ghost predicate Valid()
      reads this
    {
      && rows >= MIN_SIZE && cols >= MIN_SIZE
      && size == rows as int * cols as int
      && WithinGrid(live, rows as int, cols as int)
    }

    constructor (rows: int32, cols: int32)
      requires DimensionCheck(rows, cols).Pass?
      ensures Valid() && this.rows == rows && this.cols == cols && live == {}
    {
      this.rows := rows;
      this.cols := cols;
      this.size := GridSize(rows, cols);
      live := {};
    }

    /** new ...Grid(rows, cols): an empty grid, or the exception the dimension check throws. */
    static method Create(rows: int32, cols: int32) returns (res: Result<FiniteGrid>)
      ensures res.Success? <==> rows >= MIN_SIZE && cols >= MIN_SIZE
      ensures res.Failure? ==> res == Failure(DimensionCheckAsWritten(rows, cols).error)
      ensures res.Success? ==> fresh(res.value) && res.value.Valid() && res.value.live == {}
      ensures res.Success? ==> res.value.rows == rows && res.value.cols == cols
    {
      var check := DimensionCheckAsWritten(rows, cols);
      if check.Fail? {
        return Failure(check.error);
      }
      var grid := new FiniteGrid(rows, cols);
      return Success(grid);
    }

    /** hasCell / exists */
    function HasCell(row: int32, col: int32): (b: bool)
      reads this
      ensures b <==> InBounds(rows as int, cols as int, row as int, col as int)
    {
      row >= 0 && row < rows && col >= 0 && col < cols
    }

    /** checkIndex(row, col): both indices in range, or IndexOutOfBounds. */
    function CheckCell(row: int32, col: int32): (r: Outcome)
      reads this
      ensures r.Pass? <==> HasCell(row, col)
      ensures r.Fail? ==> r.error == IndexOutOfBounds
    {
      var rowCheck := CheckIndex(row, rows);
      if rowCheck.Fail? then rowCheck else CheckIndex(col, cols)
    }

    /** get: the state of an in-range cell; out-of-range indices throw. */
    function Get(row: int32, col: int32): (r: Result<bool>)
      requires Valid()
      reads this
      ensures r.Success? <==> HasCell(row, col)
      ensures r.Failure? ==> r.error == IndexOutOfBounds
    {
      var check := CheckCell(row, col);
      if check.Fail? then Failure(check.error) else Success((row as int, col as int) in live)
    }

    /** neighbors: the number of live Moore neighbours of an in-range cell. */
    function GetNeighbors(row: int32, col: int32): (r: Result<int32>)
      requires Valid()
      reads this
      ensures r.Success? <==> HasCell(row, col)
      ensures r.Success? ==> 0 <= r.value <= 8
      ensures r.Failure? ==> r.error == IndexOutOfBounds
    {
      var check := CheckCell(row, col);
      if check.Fail? then Failure(check.error)
      else Success(Neighbors(live, rows as int, cols as int, row as int, col as int) as int32)
    }

    /** liveCells: the population, which never exceeds the size, so the long never wraps. */
    function LiveCells(): (n: int64)
      requires Valid()
      reads this
      ensures n as int == |live| <= size as int
    {
      PopulationBound(live, rows as int, cols as int);
      |live| as int64
    }

    /** set: makes an in-range cell alive or dead; out-of-range indices throw and change nothing. */
    method Set(row: int32, col: int32, state: bool) returns (res: Outcome)
      requires Valid()
      modifies this
      ensures Valid()
      ensures res.Pass? <==> HasCell(row, col)
      ensures res.Fail? ==> res.error == IndexOutOfBounds && live == old(live)
      ensures res.Pass? ==> live == if state then old(live) + {(row as int, col as int)}
                                   else old(live) - {(row as int, col as int)}
    {
      res := CheckCell(row, col);
      if res.Pass? {
        if state {
          live := live + {(row as int, col as int)};
        } else {
          live := live - {(row as int, col as int)};
        }
      }
    }

    /** AbstractFiniteGrid.clear: sets every cell dead, row by row. */
    method Clear()
      requires Valid()
      modifies this
      ensures Valid() && live == {}
    {
      var row: int32 := 0;
      while row < rows
        invariant 0 <= row <= rows
        invariant Valid()
        invariant forall p :: p in live <==> p in old(live) && !Before(p, row as int, 0)
      {
        var col: int32 := 0;
        while col < cols
          invariant 0 <= col <= cols
          invariant Valid()
          invariant forall p :: p in live <==> p in old(live) && !Before(p, row as int, col as int)
        {
          var _ := Set(row, col, false);
          col := col + 1;
        }
        row := row + 1;
      }
    }

    /** AbstractFiniteGrid.forEachAlive: the cells passed to the operation. The loop visits the
        grid in row-major order and stops once it has passed liveCells() cells, or at once when
        there are none; the cells passed are exactly the live cells in row-major order. */
    method ForEachAlive() returns (visits: seq<Cell>)
      requires Valid()
      ensures visits == RowMajorLive(live, rows as int, cols as int)
    {
      RowMajorLiveIsLive(live, rows as int, cols as int);
      var remaining := LiveCells();
      visits := [];
      if remaining == 0 {
        return;
      }
      var row: int32 := 0;
      while row < rows
        invariant 0 <= row <= rows
        invariant visits == Scan(live, cols as int, row as int, 0)
        invariant 0 < remaining as int == |live| - |visits|
      {
        var col: int32 := 0;
        while col < cols
          invariant 0 <= col <= cols
          invariant visits == Scan(live, cols as int, row as int, col as int)
          invariant 0 < remaining as int == |live| - |visits|
        {
          ScanStep(live, cols as int, row as int, col as int);
          if Get(row, col).value {
            visits := visits + [(row as int, col as int)];
            remaining := remaining - 1;
            if remaining == 0 {
              ScanComplete(live, rows as int, cols as int, row as int, col as int + 1);
              return;
            }
          }
          col := col + 1;
        }
        ScanNextRow(live, cols as int, row as int);
        row := row + 1;
      }
    }

    /** AbstractFiniteGrid.fillGrid: makes alive every in-grid cell the initial matrix marks true,
        skipping a null matrix and null rows and ignoring entries beyond the grid; `false`
        entries and all other cells keep their state. */
    method FillGrid(initial: Matrix)
      requires Valid()
      modifies this
      ensures Valid()
      ensures live == old(live) + TrueEntries(initial, rows as int, cols as int)
    {
      if initial.None? {
        return;
      }
      var m := initial.value;
      var rowsLength := if rows as int < |m| then rows as int else |m|;
      var r := 0;
      while r < rowsLength
        invariant 0 <= r <= rowsLength
        invariant Valid()
        invariant forall p :: p in live <==>
                    p in old(live) || (p in TrueEntries(initial, rows as int, cols as int) && Before(p, r, 0))
      {
        if m[r].Some? {
          var row := m[r].value;
          var columnLength := if cols as int < |row| then cols as int else |row|;
          var c := 0;
          while c < columnLength
            invariant 0 <= c <= columnLength
            invariant Valid()
            invariant forall p :: p in live <==>
                        p in old(live) || (p in TrueEntries(initial, rows as int, cols as int) && Before(p, r, c))
          {
            if row[c] {
              var _ := Set(r as int32, c as int32, true);
            }
            c := c + 1;
          }
        }
        r := r + 1;
      }
    }

    /** AbstractGrid.fillGrid: like FillGrid, but writes `false` entries too, so every covered
        cell takes the matrix's value and every other cell keeps its state. */
    method FillGridAll(initial: Matrix)
      requires Valid()
      modifies this
      ensures Valid()
      ensures live == (old(live) - Covered(initial, rows as int, cols as int))
                      + TrueEntries(initial, rows as int, cols as int)
    {
      if initial.None? {
        return;
      }
      var m := initial.value;
      var rowsLength := if rows as int < |m| then rows as int else |m|;
      var r := 0;
      while r < rowsLength
        invariant 0 <= r <= rowsLength
        invariant Valid()
        invariant forall p :: p in live <==>
                    if p in Covered(initial, rows as int, cols as int) && Before(p, r, 0)
                    then Entry(initial, p.0, p.1) == Some(true)
                    else p in old(live)
      {
        if m[r].Some? {
          var row := m[r].value;
          var columnLength := if cols as int < |row| then cols as int else |row|;
          var c := 0;
          while c < columnLength
            invariant 0 <= c <= columnLength
            invariant Valid()
            invariant forall p :: p in live <==>
                        if p in Covered(initial, rows as int, cols as int) && Before(p, r, c)
                        then Entry(initial, p.0, p.1) == Some(true)
                        else p in old(live)
          {
            var _ := Set(r as int32, c as int32, row[c]);
            c := c + 1;
          }
        }
        r := r + 1;
      }
    }

    /** AbstractFiniteGrid.snapshotWithoutBoundChecking as written; callers have already checked
        the window against the grid. See DefaultRegion. */
    method SnapshotWithoutBoundChecking(fromRow: int32, fromCol: int32, h: int32, w: int32)
      returns (snap: array2<bool>)
      requires Valid()
      requires CheckFromIndexSize(fromRow, h, rows).Pass? && CheckFromIndexSize(fromCol, w, cols).Pass?
      ensures fresh(snap) && snap.Length0 == h as int && snap.Length1 == w as int
      ensures forall i, j | 0 <= i < h as int && 0 <= j < w as int ::
                snap[i, j] == DefaultRegion(live, fromRow as int, fromCol as int, h as int, w as int)[i][j]
    {
      snap := new bool[h, w]((_, _) => false);
      var row := fromRow;
      while row < h
        invariant fromRow <= row && (row <= h || row == fromRow)
        invariant forall i, j | 0 <= i < h as int && 0 <= j < w as int ::
                    snap[i, j] == (Copied(fromRow as int + i, fromCol as int + j, row as int, fromCol as int, w as int)
                                   && (fromRow as int + i, fromCol as int + j) in live)
      {
        var col := fromCol;
        while col < w
          invariant fromCol <= col && (col <= w || col == fromCol)
          invariant forall i, j | 0 <= i < h as int && 0 <= j < w as int ::
                      snap[i, j] == (Copied(fromRow as int + i, fromCol as int + j, row as int, col as int, w as int)
                                     && (fromRow as int + i, fromCol as int + j) in live)
        {
          snap[row - fromRow, col - fromCol] := Get(row, col).value;
          col := col + 1;
        }
        row := row + 1;
      }
    }

    /** The window copy with the loops running from the origin to origin + size: entry (i, j) is
        the state of cell (fromRow + i, fromCol + j). */
    method SnapshotRegion(fromRow: int32, fromCol: int32, h: int32, w: int32) returns (snap: array2<bool>)
      requires Valid()
      requires CheckFromIndexSize(fromRow, h, rows).Pass? && CheckFromIndexSize(fromCol, w, cols).Pass?
      ensures fresh(snap) && snap.Length0 == h as int && snap.Length1 == w as int
      ensures forall i, j | 0 <= i < h as int && 0 <= j < w as int ::
                snap[i, j] == Region(live, fromRow as int, fromCol as int, h as int, w as int)[i][j]
    {
      snap := new bool[h, w]((_, _) => false);
      var i: int32 := 0;
      while i < h
        invariant 0 <= i <= h
        invariant forall a, b | 0 <= a < h as int && 0 <= b < w as int ::
                    snap[a, b] == (a < i as int && (fromRow as int + a, fromCol as int + b) in live)
      {
        var j: int32 := 0;
        while j < w
          invariant 0 <= j <= w
          invariant forall a, b | 0 <= a < h as int && 0 <= b < w as int ::
                      snap[a, b] == ((a < i as int || (a == i as int && b < j as int))
                                     && (fromRow as int + a, fromCol as int + b) in live)
        {
          snap[i, j] := Get(fromRow + i, fromCol + j).value;
          j := j + 1;
        }
        i := i + 1;
      }
    }

    /** snapshot(fromRow, fromColumn, rows, columns): checks the window against the grid, then
        runs the default copy; a window that does not fit throws before anything is copied. The
        copy is the window itself at the origin only (see DefaultRegion; the storage grids that
        override the copy have their own Snapshot). */
    method Snapshot(fromRow: int32, fromCol: int32, h: int32, w: int32) returns (res: Result<array2<bool>>)
      requires Valid()
      ensures res.Success? <==> 0 <= fromRow && 0 <= h && fromRow as int + h as int <= rows as int
                                && 0 <= fromCol && 0 <= w && fromCol as int + w as int <= cols as int
      ensures res.Failure? ==> res.error == IndexOutOfBounds
      ensures res.Success? ==> fresh(res.value) && res.value.Length0 == h as int && res.value.Length1 == w as int
      ensures res.Success? ==> forall i, j | 0 <= i < h as int && 0 <= j < w as int ::
                                 res.value[i, j] == DefaultRegion(live, fromRow as int, fromCol as int, h as int, w as int)[i][j]
      ensures res.Success? && fromRow == 0 && fromCol == 0 ==>
                forall i, j | 0 <= i < h as int && 0 <= j < w as int :: res.value[i, j] == ((i, j) in live)
    {
      var rowCheck := CheckFromIndexSize(fromRow, h, rows);
      if rowCheck.Fail? {
        return Failure(rowCheck.error);
      }
      var colCheck := CheckFromIndexSize(fromCol, w, cols);
      if colCheck.Fail? {
        return Failure(colCheck.error);
      }
      var snap := SnapshotWithoutBoundChecking(fromRow, fromCol, h, w);
      if fromRow == 0 && fromCol == 0 {
        DefaultRegionAtOrigin(live, h as int, w as int);
      }
      return Success(snap);
    }

    /** snapshot(): the whole grid, through the default copy at origin (0, 0). */
    method SnapshotAll() returns (snap: array2<bool>)
      requires Valid()
      ensures fresh(snap) && snap.Length0 == rows as int && snap.Length1 == cols as int
      ensures forall i, j | 0 <= i < rows as int && 0 <= j < cols as int :: snap[i, j] == ((i, j) in live)
    {
      snap := SnapshotWithoutBoundChecking(0, 0, rows, cols);
      DefaultRegionAtOrigin(live, rows as int, cols as int);
    }
  }
}

=== FILE: src/game_of_life.dfy ===
/** GameOfLife.java: the engine's self-contained facade. It owns a padded boolean matrix (cell
    (r, c) lives at grid[r + 1][c + 1], the outer ring stays dead), a progress strategy chosen at
    construction (all at once, or chunk by chunk when the grid is larger than the configured
    threshold), and nested NextGen and CellBag classes that hold the delta of one generation in
    padded coordinates. */
module GameOfLifeFacade {
  import opened JavaInt
  import opened Errors
  import opened LifeRules
  import opened RowMajor
  import opened CellBags
  import opened FiniteGrids
  import NextGens
  import opened PaddedGrids
  import opened Configs
  import ChunkedProgress
  import opened ParallelTiling

  /** GameOfLife.LOWER_BOUND: the first padded row and column of the grid proper. */
  const LOWER_BOUND: int32 := 1

  /** Padded matrix coordinates, as the bags hold them, turned into grid coordinates. */
  function Unpad(s: seq<Cell>): (u: seq<Cell>)
    ensures |u| == |s| && forall i | 0 <= i < |s| :: u[i] == (s[i].0 - 1, s[i].1 - 1)
  {
    seq(|s|, i requires 0 <= i < |s| => (s[i].0 - 1, s[i].1 - 1))
  }

  lemma UnpadSnoc(s: seq<Cell>, p: Cell)
    ensures Unpad(s + [p]) == Unpad(s) + [(p.0 - 1, p.1 - 1)]
  {
  }

  /** The executor a parallel game runs its chunks on: the configured one, or a fixed pool of
      one thread per processor when none is configured. A sequential game has none. */
  datatype Pool = NoPool | Supplied(executor: Executor) | FixedThreadPool

  /** The constructor's choice: chunked progress for a grid with more cells than the threshold,
      when the configuration allows it. */
  function ParallelChosen(s: Settings): bool {
    s.parallel && Size(s.rows, s.columns) as int > s.parallelizationThreshold as int
  }

  /** What the constructor stores from the configuration it was given. */
  predicate Configured(g: GameOfLife, s: Settings) {
    && g.rows == s.rows && g.columns == s.columns
    && g.size == Size(s.rows, s.columns)
    && g.parallel == ParallelChosen(s)
    && g.threadSafe == s.threadSafe
    && (g.parallel ==>
          && g.chunkWidth == s.chunkWidth && g.chunkHeight == s.chunkHeight
          && ChunksAsWritten(g.size, s.chunkWidth, s.chunkHeight) == Success(g.chunks)
          && g.progressPool == if s.progressExecutor.Some? then Supplied(s.progressExecutor.value) else FixedThreadPool)
  }

  /** The delta of the padded rectangle [fromRow, toRow) x [fromCol, toCol), in grid coordinates:
      exactly the rectangle's cells that die and those that are born, each in row-major order. */
  ghost predicate ChunkDelta(live: set<Cell>, rows: int, cols: int, died: seq<Cell>, spawned: seq<Cell>,
                             fromRow: int, fromCol: int, toRow: int, toCol: int)
  {
    && TileRecorded(Births(live, rows, cols), Deaths(live, rows, cols), spawned, died,
                    fromRow - 1, fromCol - 1, toRow - 1, toCol - 1)
    && Increasing(died) && Increasing(spawned)
  }

  /** Examining padded cell (row, col) appends it to `died` when it dies and to `spawned` when
      it is born, which keeps the account of the scan (in grid coordinates) one cell further. */
  lemma ScanCell(live: set<Cell>, rows: int, cols: int, died: seq<Cell>, spawned: seq<Cell>,
                 died': seq<Cell>, spawned': seq<Cell>, fromRow: int, fromCol: int, toCol: int, row: int, col: int,
                 dies: bool, spawns: bool)
    requires InBounds(rows, cols, row - 1, col - 1) && fromRow <= row && fromCol <= col < toCol
    requires ChunkedProgress.Scanned(live, rows, cols, Unpad(died), Unpad(spawned), fromRow - 1, fromCol - 1, toCol - 1, row - 1, col - 1)
    requires dies == Dies(live, rows, cols, (row - 1, col - 1)) && spawns == Spawns(live, rows, cols, (row - 1, col - 1))
    requires died' == if dies then died + [(row, col)] else died
    requires spawned' == if spawns then spawned + [(row, col)] else spawned
    ensures ChunkedProgress.Scanned(live, rows, cols, Unpad(died'), Unpad(spawned'), fromRow - 1, fromCol - 1, toCol - 1, row - 1, col)
  {
    UnpadSnoc(died, (row, col));
    UnpadSnoc(spawned, (row, col));
    var c := col - 1;
    ChunkedProgress.ScanStep(live, rows, cols, Unpad(died), Unpad(spawned), Unpad(died'), Unpad(spawned'),
                             fromRow - 1, fromCol - 1, toCol - 1, row - 1, c, dies, spawns);
    assert c + 1 == col;
  }

  /** A finished scan of a padded rectangle inside the grid has recorded the rectangle's delta. */
  lemma ScanChunkEnd(live: set<Cell>, rows: int, cols: int, died: seq<Cell>, spawned: seq<Cell>,
                     fromRow: int, fromCol: int, toRow: int, toCol: int, row: int)
    requires WithinGrid(live, rows, cols)
    requires row == toRow || (row == fromRow && fromRow >= toRow)
    requires ChunkedProgress.Scanned(live, rows, cols, Unpad(died), Unpad(spawned), fromRow - 1, fromCol - 1, toCol - 1, row - 1, fromCol - 1)
    ensures ChunkDelta(live, rows, cols, Unpad(died), Unpad(spawned), fromRow, fromCol, toRow, toCol)
  {
    ChunkedProgress.ScanEnd(live, rows, cols, Unpad(died), Unpad(spawned), fromRow - 1, fromCol - 1, toRow - 1, toCol - 1, row - 1);
  }

  /** The eight reads of neighbors(row, col) around padded entry (row, col), with up, down,
      left and right the rows and columns next to it, add up to the live neighbours of the grid
      cell one up and one left. */
  lemma PaddedCount(live: set<Cell>, rows: int, cols: int, row: int, col: int, up: int, down: int, left: int, right: int,
                    a: int, b: int, c: int, d: int, e: int, f: int, g: int, h: int)
    requires up == row - 1 && down == row + 1 && left == col - 1 && right == col + 1
    requires a == Value(live, rows, cols, up - 1, right - 1) && b == Value(live, rows, cols, up - 1, col - 1)
    requires c == Value(live, rows, cols, up - 1, left - 1) && d == Value(live, rows, cols, row - 1, right - 1)
    requires e == Value(live, rows, cols, row - 1, left - 1) && f == Value(live, rows, cols, down - 1, right - 1)
    requires g == Value(live, rows, cols, down - 1, col - 1) && h == Value(live, rows, cols, down - 1, left - 1)
    ensures a + b + c + d + e + f + g + h == Neighbors(live, rows, cols, row - 1, col - 1)
    ensures 0 <= a + b + c + d + e + f + g + h <= 8
  {
  }

  /** A chunk of the band [row, bandEnd) at padded column col, whose delta is the one of its
      rectangle as progressChunk clamps it, carries the account of the band on to padded column
      col + side. */
  lemma ChunkAccount(live: set<Cell>, rows: int, cols: int, sp: seq<seq<Cell>>, dp: seq<seq<Cell>>,
                     died: seq<Cell>, spawned: seq<Cell>, row: int, bandEnd: int, col: int32, upperCol: int32, side: int32)
    requires WithinGrid(live, rows, cols)
    requires upperCol as int == cols + 1 && 1 <= col < upperCol <= INT_MAX - 1 && side >= 1
    requires Inside(Births(live, rows, cols), rows, cols) && Inside(Deaths(live, rows, cols), rows, cols)
    requires Accounted(Births(live, rows, cols), Deaths(live, rows, cols), Cells(sp), Cells(dp), row - 1, bandEnd - 1, col as int - 1)
    requires ChunkDelta(live, rows, cols, died, spawned, row, col as int, bandEnd,
                        ChunkedProgress.Min(upperCol, TileEnd(col, side)) as int)
    ensures Accounted(Births(live, rows, cols), Deaths(live, rows, cols), Cells(sp + [spawned]), Cells(dp + [died]),
                      row - 1, bandEnd - 1, col as int + side as int - 1)
  {
    TileDelta(Births(live, rows, cols), Deaths(live, rows, cols), rows, cols, sp, dp, spawned, died, row, bandEnd, col, upperCol, side);
  }

  /** Task k's delta, applied after those of the chunk tasks before it, when all the deltas together
      are the generation's births and deaths: its cells lie in the grid, and the grid then holds
      the deltas of the chunk tasks up to k. */
  lemma ApplyNext(live: set<Cell>, rows: int, cols: int, sp: seq<seq<Cell>>, dp: seq<seq<Cell>>, k: int)
    requires WithinGrid(live, rows, cols) && 0 <= k < |sp| && |dp| == |sp|
    requires Cells(sp) == Births(live, rows, cols) && Cells(dp) == Deaths(live, rows, cols)
    ensures forall q | q in sp[k] || q in dp[k] :: InBounds(rows, cols, q.0, q.1)
    ensures NextGens.ApplyBags((live + Cells(sp[..k])) - Cells(dp[..k]), sp[k], dp[k])
            == (live + Cells(sp[..k + 1])) - Cells(dp[..k + 1])
  {
    CellsPart(sp, k);
    CellsPart(dp, k);
    var births, deaths := Births(live, rows, cols), Deaths(live, rows, cols);
    forall q | q in sp[k] || q in dp[k]
      ensures InBounds(rows, cols, q.0, q.1)
    {
      assert q in births || q in deaths;
      DeltaCells(live, rows, cols, q);
    }
    assert NextGens.Members(sp[k]) !! Cells(dp[..k]) by {
      ApplyDelta(live, rows, cols);
      assert NextGens.Members(sp[k]) <= births && Cells(dp[..k]) <= deaths && births !! deaths;
    }
    ApplyInTurn(live, Cells(sp[..k]), Cells(dp[..k]), sp[k], dp[k]);
    CellsTake(sp, k);
    CellsTake(dp, k);
  }

  /** The cells of a bag lie in the interior of the padded matrix: padded rows 1 .. rows and
      padded columns 1 .. cols. */
  predicate Interior(cells: seq<Cell>, rows: int, cols: int) {
    forall p | p in cells :: 1 <= p.0 <= rows && 1 <= p.1 <= cols
  }

  /** The i-th padded cell of an interior bag: inside the ring, and one down and one right of
      the i-th grid cell. */
  lemma CellAt(cells: seq<Cell>, rows: int, cols: int, i: int)
    requires Interior(cells, rows, cols) && 0 <= i < |cells|
    ensures 1 <= cells[i].0 <= rows && 1 <= cells[i].1 <= cols
    ensures Unpad(cells)[i] == (cells[i].0 - 1, cells[i].1 - 1)
  {
    assert cells[i] in cells;
  }

  /** Padded cells that stand for grid cells lie in the interior. */
  lemma InteriorOf(cells: seq<Cell>, rows: int, cols: int)
    requires forall q | q in Unpad(cells) :: InBounds(rows, cols, q.0, q.1)
    ensures Interior(cells, rows, cols)
  {
    forall p | p in cells
      ensures 1 <= p.0 <= rows && 1 <= p.1 <= cols
    {
      var i :| 0 <= i < |cells| && cells[i] == p;
      assert Unpad(cells)[i] in Unpad(cells);
    }
  }

  /** The rule of progressChunk, read off the padded entry (row, col) and its neighbour count
      n: a live cell with fewer than 2 or more than 3 live neighbours dies, a dead cell with
      exactly 3 is born. */
  lemma CellVerdict(grid: array2<bool>, rows: int, cols: int, row: int, col: int, n: int)
    requires PaddedShape(grid, rows, cols) && 1 <= row <= rows && 1 <= col <= cols
    requires n == Neighbors(LiveOf(grid, rows, cols), rows, cols, row - 1, col - 1)
    ensures Dies(LiveOf(grid, rows, cols), rows, cols, (row - 1, col - 1)) <==> grid[row, col] && (n < 2 || n > 3)
    ensures Spawns(LiveOf(grid, rows, cols), rows, cols, (row - 1, col - 1)) <==> !grid[row, col] && n == 3
  {
    EntryAt(grid, rows, cols, row, col);
    Verdict(LiveOf(grid, rows, cols), rows, cols, (row - 1, col - 1), grid[row, col], n);
  }

  /** The same on values: the cell's state and its neighbour count decide its fate. */
  lemma Verdict(live: set<Cell>, rows: int, cols: int, p: Cell, alive: bool, n: int)
    requires alive <==> p in live
    requires n == Neighbors(live, rows, cols, p.0, p.1)
    ensures Dies(live, rows, cols, p) <==> alive && (n < 2 || n > 3)
    ensures Spawns(live, rows, cols, p) <==> !alive && n == 3
  {
  }

  /** One more cell of u set alive: the cells set so far are one element longer a prefix. */
  lemma AddedInTurn(live: set<Cell>, before: set<Cell>, after: set<Cell>, u: seq<Cell>, i: int, q: Cell)
    requires 0 <= i < |u| && q == u[i]
    requires before == live + NextGens.Members(u[..i])
    requires after == before + {q}
    ensures after == live + NextGens.Members(u[..i + 1])
  {
    assert u[..i + 1] == u[..i] + [u[i]];
    NextGens.MembersSnoc(u[..i], u[i]);
  }

  /** One more cell of u set dead: the cells killed so far are one element longer a prefix. */
  lemma RemovedInTurn(live: set<Cell>, before: set<Cell>, after: set<Cell>, u: seq<Cell>, i: int, q: Cell)
    requires 0 <= i < |u| && q == u[i]
    requires before == live - NextGens.Members(u[..i])
    requires after == before - {q}
    ensures after == live - NextGens.Members(u[..i + 1])
  {
    assert u[..i + 1] == u[..i] + [u[i]];
    NextGens.MembersSnoc(u[..i], u[i]);
  }

  class GameOfLife {
    const grid: array2<bool>
    const rows: int32
    const columns: int32
    const size: int64
    /** Padded index one past the last row, exclusive. */
    const upperRowBound: int32
    /** Padded index one past the last column, exclusive. */
    const upperColBound: int32
    const chunkWidth: int32
    const chunkHeight: int32
    const chunks: int32
    const progressPool: Pool
    const threadSafe: bool
    const parallel: bool

    ghost predicate Valid()
      reads this, grid
    {
      && PaddedShape(grid, rows as int, columns as int)
      && rows <= INT_MAX - 2 && columns <= INT_MAX - 2
      && upperRowBound as int == rows as int + 1 && upperColBound as int == columns as int + 1
      && chunkWidth >= 1 && chunkHeight >= 1
      && (parallel <==> progressPool != NoPool)
      && (!parallel ==> chunkWidth == rows && chunkHeight == columns && chunks == 1)
    }

    /** The live cells: the interior entries of the matrix that are true. */
    ghost function Live(): (s: set<Cell>)
      requires Valid()
      reads this, grid
      ensures forall p :: p in s <==> InBounds(rows as int, columns as int, p.0, p.1) && grid[p.0 + 1, p.1 + 1]
    {
      LiveOf(grid, rows as int, columns as int)
    }

    constructor (grid: array2<bool>, rows: int32, columns: int32, parallel: bool, chunkWidth: int32,
                 chunkHeight: int32, chunks: int32, progressPool: Pool, threadSafe: bool)
      requires PaddedShape(grid, rows as int, columns as int) && rows <= INT_MAX - 2 && columns <= INT_MAX - 2
      requires chunkWidth >= 1 && chunkHeight >= 1
      requires parallel <==> progressPool != NoPool
      requires !parallel ==> chunkWidth == rows && chunkHeight == columns && chunks == 1
      ensures Valid() && this.grid == grid && this.rows == rows && this.columns == columns
      ensures size == Size(rows, columns) && this.parallel == parallel && this.threadSafe == threadSafe
      ensures this.chunkWidth == chunkWidth && this.chunkHeight == chunkHeight && this.chunks == chunks
      ensures this.progressPool == progressPool
    {
      this.grid := grid;
      this.rows := rows;
      this.columns := columns;
      this.upperRowBound := rows + 1;
      this.upperColBound := columns + 1;
      this.size := Size(rows, columns);
      this.parallel := parallel;
      this.chunkWidth := chunkWidth;
      this.chunkHeight := chunkHeight;
      this.chunks := chunks;
      this.progressPool := progressPool;
      this.threadSafe := threadSafe;
    }

    /** new GameOfLife(config): the grid is buildGrid of the initial state, or initGrid when
        there is none, either of which throws for bad dimensions; then the size and the strategy.
        A parallel game takes its chunk sides from the configuration and its chunk count from
        getChunks, which throws when the chunk size is zero; a sequential game is one chunk the
        size of the grid. */
    static method Create(config: GameOfLifeConfig) returns (res: Result<GameOfLife>)
      requires ParallelChosen(config.Current()) ==> config.chunkWidth >= 0 && config.chunkHeight >= 0
      ensures res.Success? <==>
                && MIN_SIZE <= config.rows <= INT_MAX - 2 && MIN_SIZE <= config.columns <= INT_MAX - 2
                && (ParallelChosen(config.Current()) ==> Wrap32(config.chunkWidth as int * config.chunkHeight as int) != 0)
      ensures DimensionCheckAsWritten(config.rows, config.columns).Fail? ==>
                res == Failure(DimensionCheckAsWritten(config.rows, config.columns).error)
      ensures DimensionCheckAsWritten(config.rows, config.columns).Pass? && res.Failure? ==>
                res.error == NegativeArraySize || res.error == Arithmetic
      ensures res.Success? ==> fresh(res.value) && fresh(res.value.grid) && res.value.Valid()
      ensures res.Success? ==> Configured(res.value, config.Current())
      ensures res.Success? ==> res.value.Live() == TrueEntries(config.initialState, config.rows as int, config.columns as int)
    {
      var s := config.Current();
      var built := BuildGrid(s.initialState, s.rows, s.columns);
      if built.Failure? {
        return Failure(built.error);
      }
      var size := config.GetSize();
      var parallel := s.parallel && size as int > s.parallelizationThreshold as int;
      var chunkWidth, chunkHeight, chunks, pool := s.rows, s.columns, 1, NoPool;
      if parallel {
        var counted := config.GetChunks();
        assert counted == ChunksAsWritten(size, s.chunkWidth, s.chunkHeight);
        if counted.Failure? {
          return Failure(counted.error);
        }
        chunkWidth, chunkHeight, chunks := s.chunkWidth, s.chunkHeight, counted.value;
        pool := if s.progressExecutor.Some? then Supplied(s.progressExecutor.value) else FixedThreadPool;
      }
      var g := new GameOfLife(built.value, s.rows, s.columns, parallel, chunkWidth, chunkHeight, chunks, pool, s.threadSafe);
      return Success(g);
    }

    /** set(row, col, state): both indices are range-checked, then the interior entry is written. */
    method Set(row: int32, col: int32, state: bool) returns (res: Outcome)
      requires Valid()
      modifies grid
      ensures Valid()
      ensures res.Pass? <==> InBounds(rows as int, columns as int, row as int, col as int)
      ensures res.Fail? ==> res.error == IndexOutOfBounds && Live() == old(Live())
      ensures res.Pass? ==> Live() == if state then old(Live()) + {(row as int, col as int)}
                                      else old(Live()) - {(row as int, col as int)}
    {
      res := CheckIndex(row, rows);
      if res.Fail? {
        return;
      }
      res := CheckIndex(col, columns);
      if res.Fail? {
        return;
      }
      grid[row + 1, col + 1] := state;
    }

    /** isAlive(row, col): both indices are range-checked, then the interior entry is read. */
    function IsAlive(row: int32, col: int32): (r: Result<bool>)
      requires Valid()
      reads this, grid
      ensures r.Success? <==> InBounds(rows as int, columns as int, row as int, col as int)
      ensures r.Success? ==> (r.value <==> (row as int, col as int) in Live())
      ensures r.Failure? ==> r.error == IndexOutOfBounds
    {
      var check := CheckIndex(row, rows);
      if check.Fail? then Failure(check.error)
      else
        var check := CheckIndex(col, columns);
        if check.Fail? then Failure(check.error)
        else Success(grid[row + 1, col + 1])
    }

    /** Arrays.copyOfRange(grid[row], LOWER_BOUND, upperColBound): a fresh copy of one padded
        row's interior. */
    method CopyRow(row: int32) returns (copy: array<bool>)
      requires Valid() && LOWER_BOUND <= row < upperRowBound
      ensures fresh(copy) && copy.Length == columns as int
      ensures forall j | 0 <= j < columns as int :: copy[j] == grid[row, j + 1]
    {
      copy := new bool[columns];
      var j := 0;
      while j < columns
        invariant 0 <= j <= columns
        invariant forall k | 0 <= k < j :: copy[k] == grid[row, k + 1]
      {
        copy[j] := grid[row, j + LOWER_BOUND];
        j := j + 1;
      }
    }

    /** snapshot() and copyTo(): a fresh array of `rows` fresh rows, each a copy of one interior
        row, so later changes to the game and to the snapshot do not reach each other. */
    method Snapshot() returns (snapshot: array<array?<bool>>)
      requires Valid()
      ensures fresh(snapshot) && snapshot.Length == rows as int
      ensures forall i | 0 <= i < rows as int :: snapshot[i] != null && fresh(snapshot[i])
      ensures forall i, k | 0 <= i < k < rows as int :: snapshot[i] != snapshot[k]
      ensures forall i | 0 <= i < rows as int :: snapshot[i].Length == columns as int
      ensures forall i, j | 0 <= i < rows as int && 0 <= j < columns as int :: snapshot[i][j] == ((i, j) in Live())
    {
      snapshot := new array?<bool>[rows];
      var i, row := 0, LOWER_BOUND;
      while row < upperRowBound
        invariant LOWER_BOUND <= row <= upperRowBound && i == row - LOWER_BOUND
        invariant forall a | 0 <= a < i :: snapshot[a] != null && fresh(snapshot[a])
        invariant forall a, k | 0 <= a < k < i :: snapshot[a] != snapshot[k]
        invariant forall a | 0 <= a < i :: snapshot[a].Length == columns as int
        invariant forall a, j | 0 <= a < i && 0 <= j < columns as int :: snapshot[a][j] == grid[a + 1, j + 1]
      {
        var copy := CopyRow(row);
        snapshot[i] := copy;
        i, row := i + 1, row + 1;
      }
    }

    /** clear() and cleanInner(): every interior row is overwritten with `columns` entries of the
        all-false padding row 0, which kills every cell and leaves the ring dead. */
    method Clear()
      requires Valid()
      modifies grid
      ensures Valid() && Live() == {}
    {
      var i := LOWER_BOUND;
      while i < upperRowBound
        invariant LOWER_BOUND <= i <= upperRowBound
        invariant Valid()
        invariant forall p | p in Live() :: p.0 + 1 >= i as int
      {
        // System.arraycopy(grid[0], LOWER_BOUND, grid[i], LOWER_BOUND, columns)
        var k := 0;
        while k < columns
          invariant 0 <= k <= columns
          invariant Valid()
          invariant forall p | p in Live() :: p.0 + 1 > i as int || (p.0 + 1 == i as int && p.1 >= k as int)
        {
          grid[i, LOWER_BOUND + k] := grid[0, LOWER_BOUND + k];
          k := k + 1;
        }
        i := i + 1;
      }
    }

    /** spawn(row, col) on padded coordinates: the cell one up and one left becomes alive. */
    method Spawn(row: int32, col: int32)
      requires Valid() && LOWER_BOUND <= row < upperRowBound && LOWER_BOUND <= col < upperColBound
      modifies grid
      ensures Valid() && Live() == old(Live()) + {(row as int - 1, col as int - 1)}
    {
      grid[row, col] := true;
    }

    /** kill(row, col) on padded coordinates: the cell one up and one left becomes dead. */
    method Kill(row: int32, col: int32)
      requires Valid() && LOWER_BOUND <= row < upperRowBound && LOWER_BOUND <= col < upperColBound
      modifies grid
      ensures Valid() && Live() == old(Live()) - {(row as int - 1, col as int - 1)}
    {
      grid[row, col] := false;
    }

    /** `forEach(spawn)` over a bag's padded cells, in order: each becomes alive. */
    method SpawnAll(cells: seq<Cell>)
      requires Valid() && Interior(cells, rows as int, columns as int)
      modifies grid
      ensures Valid() && Live() == old(Live()) + NextGens.Members(Unpad(cells))
    {
      ghost var live := Live();
      var i := 0;
      while i < |cells|
        invariant 0 <= i <= |cells|
        invariant Valid() && Live() == live + NextGens.Members(Unpad(cells)[..i])
      {
        SpawnNext(cells, i, live);
        i := i + 1;
      }
      assert Unpad(cells)[..i] == Unpad(cells);
    }

    /** One turn of SpawnAll. */
    method SpawnNext(cells: seq<Cell>, i: int, ghost live: set<Cell>)
      requires Valid() && Interior(cells, rows as int, columns as int) && 0 <= i < |cells|
      requires Live() == live + NextGens.Members(Unpad(cells)[..i])
      modifies grid
      ensures Valid() && Live() == live + NextGens.Members(Unpad(cells)[..i + 1])
    {
      var p := cells[i];
      CellAt(cells, rows as int, columns as int, i);
      ghost var before := Live();
      Spawn(p.0 as int32, p.1 as int32);
      AddedInTurn(live, before, Live(), Unpad(cells), i, (p.0 as int32 as int - 1, p.1 as int32 as int - 1));
    }

    /** `forEach(kill)` over a bag's padded cells, in order: each becomes dead. */
    method KillAll(cells: seq<Cell>)
      requires Valid() && Interior(cells, rows as int, columns as int)
      modifies grid
      ensures Valid() && Live() == old(Live()) - NextGens.Members(Unpad(cells))
    {
      ghost var u, live := Unpad(cells), Live();
      var i := 0;
      while i < |cells|
        invariant 0 <= i <= |cells|
        invariant Valid() && Live() == live - NextGens.Members(u[..i])
      {
        var p := cells[i];
        CellAt(cells, rows as int, columns as int, i);
        ghost var before := Live();
        Kill(p.0 as int32, p.1 as int32);
        RemovedInTurn(live, before, Live(), u, i, (p.0 as int32 as int - 1, p.1 as int32 as int - 1));
        i := i + 1;
      }
      assert u[..i] == u;
    }

    /** value(row, col) on padded coordinates: 1 for a live entry. The ring reads dead. */
    function Value(a: int32, b: int32): (v: int)
      requires Valid() && 0 <= a as int < grid.Length0 && 0 <= b as int < grid.Length1
      reads this, grid
      ensures v == LifeRules.Value(Live(), rows as int, columns as int, a as int - 1, b as int - 1)
      ensures v == 0 || v == 1
    {
      ValueAtCell(grid, rows as int, columns as int, a as int, b as int);
      ValueAt(grid, a as int, b as int)
    }

    /** neighbors(row, col) on padded coordinates: the eight reads around the entry, which count
        the live neighbours of the grid cell without any range check. */
    function Neighbors(row: int32, col: int32): (n: int32)
      requires Valid() && LOWER_BOUND <= row < upperRowBound && LOWER_BOUND <= col < upperColBound
      reads this, grid
      ensures n as int == LifeRules.Neighbors(Live(), rows as int, columns as int, row as int - 1, col as int - 1)
    {
      var up, down, left, right := row - 1, row + 1, col - 1, col + 1;
      var a, b, c, d := Value(up, right), Value(up, col), Value(up, left), Value(row, right);
      var e, f, g, h := Value(row, left), Value(down, right), Value(down, col), Value(down, left);
      PaddedCount(Live(), rows as int, columns as int, row as int, col as int, up as int, down as int, left as int, right as int,
                  a, b, c, d, e, f, g, h);
      (a + b + c + d + e + f + g + h) as int32
    }

    /** progressChunk(fromRow, fromCol, toRow, toCol) on padded coordinates: the end of the
        rectangle is clamped to the grid, then every cell of it is examined once, row by row.
        The grid is not written; only a bag that overflows can make it fail. */
    method ProgressChunk(fromRow: int32, fromCol: int32, toRow: int32, toCol: int32) returns (res: Result<NextGen>)
      requires Valid() && LOWER_BOUND <= fromRow && LOWER_BOUND <= fromCol
      ensures res.Failure? ==> res.error == CellBagTooBig
      ensures res.Success? ==> fresh(res.value.Repr) && res.value.Valid() && res.value.game == this
      ensures res.Success? ==>
                ChunkDelta(Live(), rows as int, columns as int, Unpad(res.value.died.Contents), Unpad(res.value.spawned.Contents),
                           fromRow as int, fromCol as int,
                           ChunkedProgress.Min(upperRowBound, toRow) as int, ChunkedProgress.Min(upperColBound, toCol) as int)
    {
      var endRow := ChunkedProgress.Min(upperRowBound, toRow);
      var endCol := ChunkedProgress.Min(upperColBound, toCol);
      ghost var live, r, c := Live(), rows as int, columns as int;
      var ng := new NextGen(this);
      var row := fromRow;
      while row < endRow
        invariant fromRow <= row && (row <= endRow || row == fromRow)
        invariant ng.Valid() && fresh(ng.Repr) && ng.game == this
        invariant ChunkedProgress.Scanned(live, r, c, Unpad(ng.died.Contents), Unpad(ng.spawned.Contents),
                                          fromRow as int - 1, fromCol as int - 1, endCol as int - 1, row as int - 1, fromCol as int - 1)
      {
        var o := ScanRow(ng, live, fromRow, fromCol, endCol, row);
        if o.Fail? {
          return Failure(o.error);
        }
        ghost var scanned := row as int;
        row := row + 1;
        assert row as int - 1 == scanned;
      }
      ScanChunkEnd(live, r, c, ng.died.Contents, ng.spawned.Contents,
                   fromRow as int, fromCol as int, endRow as int, endCol as int, row as int);
      res := Success(ng);
    }

    /** The inner loop of progressChunk: one padded row of the rectangle, cell by cell. */
    method ScanRow(ng: NextGen, ghost live: set<Cell>, fromRow: int32, fromCol: int32, toCol: int32, row: int32)
      returns (res: Outcome)
      requires Valid() && live == Live() && ng.Valid() && ng.game == this
      requires LOWER_BOUND <= fromRow <= row < upperRowBound && LOWER_BOUND <= fromCol && toCol <= upperColBound
      requires ChunkedProgress.Scanned(live, rows as int, columns as int, Unpad(ng.died.Contents), Unpad(ng.spawned.Contents),
                                       fromRow as int - 1, fromCol as int - 1, toCol as int - 1, row as int - 1, fromCol as int - 1)
      modifies ng.Repr
      ensures ng.Valid() && fresh(ng.Repr - old(ng.Repr))
      ensures res.Fail? ==> res.error == CellBagTooBig
      ensures res.Pass? ==>
                ChunkedProgress.Scanned(live, rows as int, columns as int, Unpad(ng.died.Contents), Unpad(ng.spawned.Contents),
                                        fromRow as int - 1, fromCol as int - 1, toCol as int - 1, row as int, fromCol as int - 1)
    {
      var col := fromCol;
      while col < toCol
        invariant fromCol <= col && (col <= toCol || col == fromCol)
        invariant ng.Valid() && fresh(ng.Repr - old(ng.Repr))
        invariant ChunkedProgress.Scanned(live, rows as int, columns as int, Unpad(ng.died.Contents), Unpad(ng.spawned.Contents),
                                          fromRow as int - 1, fromCol as int - 1, toCol as int - 1, row as int - 1, col as int - 1)
      {
        res := Examine(ng, live, fromRow, fromCol, toCol, row, col);
        if res.Fail? {
          return;
        }
        ghost var examined := col as int;
        col := col + 1;
        assert col as int - 1 == examined;
      }
      res := Pass;
      ghost var r := row as int - 1;
      ChunkedProgress.NextRow(live, rows as int, columns as int, Unpad(ng.died.Contents), Unpad(ng.spawned.Contents),
                              fromRow as int - 1, fromCol as int - 1, toCol as int - 1, r, col as int - 1);
      assert r + 1 == row as int;
    }

    /** One cell of progressChunk: a live cell with fewer than 2 or more than 3 live neighbours
        goes to `died`, a dead cell with exactly 3 goes to `spawned`, any other goes nowhere. */
    method Examine(ng: NextGen, ghost live: set<Cell>, fromRow: int32, fromCol: int32, toCol: int32, row: int32, col: int32)
      returns (res: Outcome)
      requires Valid() && live == Live() && ng.Valid() && ng.game == this
      requires LOWER_BOUND <= fromRow <= row < upperRowBound
      requires LOWER_BOUND <= fromCol <= col < toCol <= upperColBound
      requires ChunkedProgress.Scanned(live, rows as int, columns as int, Unpad(ng.died.Contents), Unpad(ng.spawned.Contents),
                                       fromRow as int - 1, fromCol as int - 1, toCol as int - 1, row as int - 1, col as int - 1)
      modifies ng.Repr
      ensures ng.Valid() && fresh(ng.Repr - old(ng.Repr))
      ensures res.Fail? ==> res.error == CellBagTooBig
      ensures res.Pass? ==>
                ChunkedProgress.Scanned(live, rows as int, columns as int, Unpad(ng.died.Contents), Unpad(ng.spawned.Contents),
                                        fromRow as int - 1, fromCol as int - 1, toCol as int - 1, row as int - 1, col as int)
    {
      var neighbors := Neighbors(row, col);
      var alive := grid[row, col];
      ghost var died, spawned := ng.died.Contents, ng.spawned.Contents;
      CellVerdict(grid, rows as int, columns as int, row as int, col as int, neighbors as int);
      res := Pass;
      if alive {
        if neighbors < 2 || neighbors > 3 {
          res := ng.AddDied(row, col);
        }
      } else if neighbors == 3 {
        res := ng.AddSpawned(row, col);
      }
      if res.Pass? {
        ScanCell(live, rows as int, columns as int, died, spawned, ng.died.Contents, ng.spawned.Contents,
                 fromRow as int, fromCol as int, toCol as int, row as int, col as int,
                 alive && (neighbors < 2 || neighbors > 3), !alive && neighbors == 3);
      }
    }

    /** AllAtOnceProgressStrategy.progress(): one chunk covering the whole grid, then its
        updateGrid. The grid becomes the next generation, or stays as it was when a bag
        overflows. */
    method ProgressAllAtOnce() returns (res: Outcome)
      requires Valid()
      modifies grid
      ensures Valid()
      ensures res.Pass? ==> Live() == Step(old(Live()), rows as int, columns as int)
      ensures res.Fail? ==> res.error == CellBagTooBig && Live() == old(Live())
    {
      ghost var live := Live();
      var nextGen := ProgressChunk(LOWER_BOUND, LOWER_BOUND, upperRowBound, upperColBound);
      if nextGen.Failure? {
        return Fail(nextGen.error);
      }
      var ng := nextGen.value;
      ghost var spawned, died := Unpad(ng.spawned.Contents), Unpad(ng.died.Contents);
      assert ChunkDelta(live, rows as int, columns as int, died, spawned, 1, 1, upperRowBound as int, upperColBound as int);
      InteriorOf(ng.spawned.Contents, rows as int, columns as int);
      InteriorOf(ng.died.Contents, rows as int, columns as int);
      ng.UpdateGrid();
      ChunkedProgress.WholeGridScan(live, rows as int, columns as int, died, spawned);
      res := Pass;
    }

    /** Task t of this game holds the delta s, d, in grid coordinates. */
    ghost predicate Holds(t: NextGen, s: seq<Cell>, d: seq<Cell>)
      reads t, t.Repr
    {
      t.Valid() && t.game == this && Unpad(t.spawned.Contents) == s && Unpad(t.died.Contents) == d
    }

    /** Every task of the list holds its delta: sp[j] and dp[j] for task j. */
    ghost predicate Prepared(tasks: seq<NextGen>, sp: seq<seq<Cell>>, dp: seq<seq<Cell>>)
      reads tasks, set t, o | t in tasks && o in t.Repr :: o
    {
      |sp| == |tasks| && |dp| == |tasks| && forall j | 0 <= j < |tasks| :: Holds(tasks[j], sp[j], dp[j])
    }

    /** ParallelProgressStrategy.progress(): every chunk of the tiling is computed on the
        current generation first (invokeAll of the progress tasks), and only then are their
        deltas applied (invokeAll of the grid updates). The chunk task list is created with capacity
        `chunks`, which throws for a negative count; a bag that overflows in any chunk fails the
        step before any update. Either failure leaves the grid as it was. */
    method ProgressParallel() returns (res: Outcome)
      requires Valid() && parallel
      modifies grid
      ensures Valid()
      ensures res.Pass? ==> Live() == Step(old(Live()), rows as int, columns as int)
      ensures res.Fail? ==> Live() == old(Live())
      ensures res.Fail? ==> res.error == CellBagTooBig || (chunks < 0 && res.error == IllegalCapacity(chunks as int))
    {
      if chunks < 0 {
        return Fail(IllegalCapacity(chunks as int));
      }
      ghost var live := Live();
      var computed, tasks, sp, dp := ComputeTasks(live);
      if computed.Fail? {
        return computed;
      }
      ApplyTasks(live, tasks, sp, dp);
      res := Pass;
    }

    /** The first half of ParallelProgressStrategy.progress(): the bands of chunkWidth rows,
        from LOWER_BOUND on while below upperRowBound, each cut into chunks (TileBand). The
        grid is only read. On success the chunks' deltas, together, are the generation's births
        and deaths. */
    method ComputeTasks(ghost live: set<Cell>)
      returns (res: Outcome, tasks: seq<NextGen>, ghost sp: seq<seq<Cell>>, ghost dp: seq<seq<Cell>>)
      requires Valid() && live == Live()
      ensures Prepared(tasks, sp, dp)
      ensures res.Fail? ==> res.error == CellBagTooBig
      ensures res.Pass? ==> Cells(sp) == Births(live, rows as int, columns as int)
      ensures res.Pass? ==> Cells(dp) == Deaths(live, rows as int, columns as int)
    {
      tasks, sp, dp := [], [], [];
      ghost var births, deaths := Births(live, rows as int, columns as int), Deaths(live, rows as int, columns as int);
      DeltaInside(live, rows as int, columns as int);
      NothingSwept(births, deaths, rows as int, columns as int);
      var row: int := LOWER_BOUND as int;
      while row < upperRowBound as int
        invariant LOWER_BOUND as int <= row
        invariant Prepared(tasks, sp, dp)
        invariant Accounted(births, deaths, Cells(sp), Cells(dp), row - 1, row - 1, 0)
      {
        res, tasks, sp, dp := TileBand(row as int32, births, deaths, tasks, sp, dp);
        if res.Fail? {
          return;
        }
        row := row + chunkWidth as int;
      }
      AllSwept(births, deaths, rows as int, columns as int, Cells(sp), Cells(dp), row - 1);
      res := Pass;
    }

    /** One band: the chunks [row, row + chunkWidth) x [col, col + chunkHeight) for col from
        LOWER_BOUND on while below upperColBound, appended to the chunk tasks in that order. The tile
        ends are summed without wrap-around (TileEnd). */
    method TileBand(row: int32, ghost births: set<Cell>, ghost deaths: set<Cell>,
                    tasks: seq<NextGen>, ghost sp: seq<seq<Cell>>, ghost dp: seq<seq<Cell>>)
      returns (res: Outcome, tasks': seq<NextGen>, ghost sp': seq<seq<Cell>>, ghost dp': seq<seq<Cell>>)
      requires Valid() && LOWER_BOUND <= row < upperRowBound
      requires births == Births(Live(), rows as int, columns as int) && deaths == Deaths(Live(), rows as int, columns as int)
      requires Inside(births, rows as int, columns as int) && Inside(deaths, rows as int, columns as int)
      requires Prepared(tasks, sp, dp)
      requires Accounted(births, deaths, Cells(sp), Cells(dp), row as int - 1, row as int - 1, 0)
      ensures Prepared(tasks', sp', dp')
      ensures res.Fail? ==> res.error == CellBagTooBig
      ensures res.Pass? ==>
                Accounted(births, deaths, Cells(sp'), Cells(dp'),
                          row as int + chunkWidth as int - 1, row as int + chunkWidth as int - 1, 0)
    {
      var toRow := TileEnd(row, chunkWidth);
      ghost var bandEnd := ChunkedProgress.Min(upperRowBound, toRow) as int;
      BandOpen(births, deaths, rows as int, columns as int, Cells(sp), Cells(dp), row, upperRowBound, chunkWidth);
      tasks', sp', dp' := tasks, sp, dp;
      var col: int := LOWER_BOUND as int;
      while col < upperColBound as int
        invariant LOWER_BOUND as int <= col
        invariant Prepared(tasks', sp', dp')
        invariant Accounted(births, deaths, Cells(sp'), Cells(dp'), row as int - 1, bandEnd - 1, col - 1)
      {
        res, tasks', sp', dp' := AddTile(row, toRow, col as int32, bandEnd, births, deaths, tasks', sp', dp');
        if res.Fail? {
          return;
        }
        col := col + chunkHeight as int;
      }
      BandClose(births, deaths, rows as int, columns as int, Cells(sp'), Cells(dp'), row, upperRowBound, chunkWidth, col);
      res := Pass;
    }

    /** One chunk of a band: the chunk task for the padded rectangle [row, toRow) x [col, col +
        chunkHeight), appended to the chunk tasks. Its delta covers the band's next columns. */
    method AddTile(row: int32, toRow: int32, col: int32, ghost bandEnd: int, ghost births: set<Cell>, ghost deaths: set<Cell>,
                   tasks: seq<NextGen>, ghost sp: seq<seq<Cell>>, ghost dp: seq<seq<Cell>>)
      returns (res: Outcome, tasks': seq<NextGen>, ghost sp': seq<seq<Cell>>, ghost dp': seq<seq<Cell>>)
      requires Valid() && LOWER_BOUND <= row < upperRowBound && LOWER_BOUND <= col < upperColBound
      requires births == Births(Live(), rows as int, columns as int) && deaths == Deaths(Live(), rows as int, columns as int)
      requires Inside(births, rows as int, columns as int) && Inside(deaths, rows as int, columns as int)
      requires bandEnd == ChunkedProgress.Min(upperRowBound, toRow) as int
      requires Prepared(tasks, sp, dp)
      requires Accounted(births, deaths, Cells(sp), Cells(dp), row as int - 1, bandEnd - 1, col as int - 1)
      ensures Prepared(tasks', sp', dp')
      ensures res.Fail? ==> res.error == CellBagTooBig
      ensures res.Pass? ==>
                Accounted(births, deaths, Cells(sp'), Cells(dp'), row as int - 1, bandEnd - 1,
                          col as int + chunkHeight as int - 1)
    {
      ghost var live := Live();
      var toCol := TileEnd(col, chunkHeight);
      var chunk := ProgressChunk(row, col, toRow, toCol);
      if chunk.Failure? {
        return Fail(chunk.error), tasks, sp, dp;
      }
      var ng := chunk.value;
      ChunkAccount(live, rows as int, columns as int, sp, dp, Unpad(ng.died.Contents), Unpad(ng.spawned.Contents),
                   row as int, bandEnd, col, upperColBound, chunkHeight);
      HoldsSnoc(tasks, sp, dp, ng);
      res, tasks', sp', dp' := Pass, tasks + [ng], sp + [Unpad(ng.spawned.Contents)], dp + [Unpad(ng.died.Contents)];
    }

    /** A task appended to tasks that hold their deltas. */
    lemma HoldsSnoc(tasks: seq<NextGen>, sp: seq<seq<Cell>>, dp: seq<seq<Cell>>, ng: NextGen)
      requires Prepared(tasks, sp, dp)
      requires ng.Valid() && ng.game == this
      ensures var tasks', sp', dp' := tasks + [ng], sp + [Unpad(ng.spawned.Contents)], dp + [Unpad(ng.died.Contents)];
              forall j | 0 <= j < |tasks'| :: Holds(tasks'[j], sp'[j], dp'[j])
    {
    }

    /** The second half of ParallelProgressStrategy.progress(): every task's updateGrid, in task
        order. The chunks are disjoint, so no birth of one is a death of another, and the grid
        ends as the next generation. */
    method ApplyTasks(ghost live: set<Cell>, tasks: seq<NextGen>, ghost sp: seq<seq<Cell>>, ghost dp: seq<seq<Cell>>)
      requires Valid() && live == Live()
      requires Prepared(tasks, sp, dp)
      requires Cells(sp) == Births(live, rows as int, columns as int)
      requires Cells(dp) == Deaths(live, rows as int, columns as int)
      modifies grid
      ensures Valid() && Live() == Step(live, rows as int, columns as int)
    {
      CellsEnds(sp);
      CellsEnds(dp);
      var k := 0;
      while k < |tasks|
        invariant 0 <= k <= |tasks|
        invariant Valid() && Live() == (live + Cells(sp[..k])) - Cells(dp[..k])
        invariant forall j | k <= j < |tasks| :: Holds(tasks[j], sp[j], dp[j])
      {
        ApplyTask(live, tasks, sp, dp, k);
        k := k + 1;
      }
      ApplyDelta(live, rows as int, columns as int);
    }

    /** One turn of ApplyTasks: task k's updateGrid adds its delta to those applied before, and
        leaves the later tasks as they were. */
    method ApplyTask(ghost live: set<Cell>, tasks: seq<NextGen>, ghost sp: seq<seq<Cell>>, ghost dp: seq<seq<Cell>>, k: int)
      requires Valid() && 0 <= k < |tasks| && |sp| == |tasks| && |dp| == |tasks|
      requires forall j | k <= j < |tasks| :: Holds(tasks[j], sp[j], dp[j])
      requires Cells(sp) == Births(live, rows as int, columns as int)
      requires Cells(dp) == Deaths(live, rows as int, columns as int)
      requires WithinGrid(live, rows as int, columns as int)
      requires Live() == (live + Cells(sp[..k])) - Cells(dp[..k])
      modifies grid
      ensures Valid() && Live() == (live + Cells(sp[..k + 1])) - Cells(dp[..k + 1])
      ensures forall j | k + 1 <= j < |tasks| :: Holds(tasks[j], sp[j], dp[j])
    {
      var t := tasks[k];
      ApplyNext(live, rows as int, columns as int, sp, dp, k);
      InteriorOf(t.spawned.Contents, rows as int, columns as int);
      InteriorOf(t.died.Contents, rows as int, columns as int);
      t.UpdateGrid();
    }

    /** progress(): the strategy chosen at construction, parallel or all at once. The
        thread-safe wrapper only holds the write lock around it. */
    method Progress() returns (res: Outcome)
      requires Valid()
      modifies grid
      ensures Valid()
      ensures res.Pass? ==> Live() == Step(old(Live()), rows as int, columns as int)
      ensures res.Fail? ==> Live() == old(Live())
      ensures res.Fail? ==> res.error == CellBagTooBig || (parallel && chunks < 0 && res.error == IllegalCapacity(chunks as int))
    {
      if parallel {
        res := ProgressParallel();
      } else {
        res := ProgressAllAtOnce();
      }
    }
  }

  /** GameOfLife.NextGen: the delta of one chunk, in two bags of padded coordinates. */
  class NextGen {
    const game: GameOfLife
    const spawned: CellBag
    const died: CellBag
    ghost var Repr: set<object>

    ghost predicate Valid()
      reads this, Repr
    {
      && this in Repr && spawned in Repr && died in Repr
      && spawned.Repr <= Repr && died.Repr <= Repr
      && Repr == {this} + spawned.Repr + died.Repr
      && this !in spawned.Repr && this !in died.Repr && spawned.Repr !! died.Repr
      && game.grid !in Repr
      && spawned.Valid() && died.Valid()
      && spawned.growth == DoubleThenThreeHalves && died.growth == DoubleThenThreeHalves
    }

    /** Two empty bags of GameOfLife.CellBag: 16 slots first, doubling up to 64, then by half. */
    constructor (game: GameOfLife)
      ensures Valid() && fresh(Repr) && this.game == game
      ensures spawned.Contents == [] && died.Contents == []
    {
      this.game := game;
      spawned := new CellBag(DoubleThenThreeHalves);
      died := new CellBag(DoubleThenThreeHalves);
      new;
      Repr := {this} + spawned.Repr + died.Repr;
    }

    /** died.add(row, col) */
    method AddDied(row: int32, col: int32) returns (res: Outcome)
      requires Valid()
      modifies Repr
      ensures Valid() && fresh(Repr - old(Repr))
      ensures res.Pass? <==> |old(died.Contents)| < MAX_ARRAY_LENGTH as int
      ensures res.Pass? ==> died.Contents == old(died.Contents) + [(row as int, col as int)]
      ensures res.Fail? ==> res.error == CellBagTooBig && died.Contents == old(died.Contents)
      ensures spawned.Contents == old(spawned.Contents)
    {
      res := died.Add(row, col);
      Repr := {this} + spawned.Repr + died.Repr;
    }

    /** spawned.add(row, col) */
    method AddSpawned(row: int32, col: int32) returns (res: Outcome)
      requires Valid()
      modifies Repr
      ensures Valid() && fresh(Repr - old(Repr))
      ensures res.Pass? <==> |old(spawned.Contents)| < MAX_ARRAY_LENGTH as int
      ensures res.Pass? ==> spawned.Contents == old(spawned.Contents) + [(row as int, col as int)]
      ensures res.Fail? ==> res.error == CellBagTooBig && spawned.Contents == old(spawned.Contents)
      ensures died.Contents == old(died.Contents)
    {
      res := spawned.Add(row, col);
      Repr := {this} + spawned.Repr + died.Repr;
    }

    /** updateGrid(): spawn every cell of `spawned` in insertion order, then kill every cell of
        `died`. The chunks record grid cells only, so every write lands in the interior. */
    method UpdateGrid()
      requires Valid() && game.Valid()
      requires Interior(spawned.Contents, game.rows as int, game.columns as int)
      requires Interior(died.Contents, game.rows as int, game.columns as int)
      modifies game.grid
      ensures game.Valid()
      ensures game.Live() == NextGens.ApplyBags(old(game.Live()), Unpad(spawned.Contents), Unpad(died.Contents))
    {
      var born := spawned.ForEach();
      game.SpawnAll(born);
      var dead := died.ForEach();
      game.KillAll(dead);
    }
  }
}

=== FILE: src/hash_grid.dfy ===
/** HashGrid.java: the live cells of a range-checked grid kept in a cell set (a LinkedCellSet,
    whose iteration order is left open here). */
module HashGrids {
  import opened JavaInt
  import opened Errors
  import opened LifeRules
  import opened Cells
  import opened CellSets
  import opened RowMajor
  import opened FiniteGrids

  class HashGrid {
    const rows: int32
    const cols: int32
    const size: int64
    const cells: CellSet

    ghost predicate Valid()
      reads this, cells
    {
      && rows >= MIN_SIZE && cols >= MIN_SIZE
      && size == rows as int * cols as int
      && cells.Valid()
      && WithinGrid(cells.Elements, rows as int, cols as int)
    }

    /** The live cells: the elements of the cell set. */
    ghost function Live(): set<Cell>
      reads this, cells
    {
      cells.Elements
    }

    constructor (rows: int32, cols: int32)
      requires DimensionCheck(rows, cols).Pass?
      ensures Valid() && fresh(cells) && this.rows == rows && this.cols == cols && Live() == {}
    {
      this.rows := rows;
      this.cols := cols;
      this.size := GridSize(rows, cols);
      this.cells := new CellSet();
    }

    /** new HashGrid(rows, cols): an empty grid, or the exception the dimension check throws. */
    static method Create(rows: int32, cols: int32) returns (res: Result<HashGrid>)
      ensures res.Success? <==> rows >= MIN_SIZE && cols >= MIN_SIZE
      ensures res.Failure? ==> res == Failure(DimensionCheckAsWritten(rows, cols).error)
      ensures res.Success? ==> fresh(res.value) && fresh(res.value.cells) && res.value.Valid()
      ensures res.Success? ==> res.value.rows == rows && res.value.cols == cols && res.value.Live() == {}
    {
      var check := DimensionCheckAsWritten(rows, cols);
      if check.Fail? {
        return Failure(check.error);
      }
      var g := new HashGrid(rows, cols);
      return Success(g);
    }

    /** checkIndex(row, col) */
    function CheckCell(row: int32, col: int32): (r: Outcome)
      reads this
      ensures r.Pass? <==> InBounds(rows as int, cols as int, row as int, col as int)
      ensures r.Fail? ==> r.error == IndexOutOfBounds
    {
      var rowCheck := CheckIndex(row, rows);
      if rowCheck.Fail? then rowCheck else CheckIndex(col, cols)
    }

    /** get: range-checked membership in the cell set. */
    function Get(row: int32, col: int32): (r: Result<bool>)
      requires Valid()
      reads this, cells
      ensures r.Success? <==> InBounds(rows as int, cols as int, row as int, col as int)
      ensures r.Success? ==> (r.value <==> (row as int, col as int) in Live())
      ensures r.Failure? ==> r.error == IndexOutOfBounds
    {
      var check := CheckCell(row, col);
      if check.Fail? then Failure(check.error) else Success(cells.Contains(row, col))
    }

    /** set: range-checked; adds the cell to the set or removes it. Out-of-range indices throw
        before the set is touched. */
    method Set(row: int32, col: int32, state: bool) returns (res: Outcome)
      requires Valid()
      modifies cells
      ensures Valid()
      ensures res.Pass? <==> InBounds(rows as int, cols as int, row as int, col as int)
      ensures res.Fail? ==> res.error == IndexOutOfBounds && Live() == old(Live())
      ensures res.Pass? ==> Live() == if state then old(Live()) + {(row as int, col as int)}
                                      else old(Live()) - {(row as int, col as int)}
    {
      res := CheckCell(row, col);
      if res.Fail? {
        return;
      }
      if state {
        var _ := cells.Add(row, col);
      } else {
        var _ := cells.Remove(row, col);
      }
    }

    /** value(row, col): 1 for a grid cell in the set; hasCell keeps off-grid positions dead. */
    function Value(row: int, col: int): (v: int)
      requires Valid()
      reads this, cells
      ensures v == LifeRules.Value(Live(), rows as int, cols as int, row, col)
    {
      if 0 <= row < rows as int && 0 <= col < cols as int && cells.Contains(row as int32, col as int32) then 1 else 0
    }

    /** neighbors: range-checked, then value() of the eight positions around the cell. */
    function GetNeighbors(row: int32, col: int32): (r: Result<int32>)
      requires Valid()
      reads this, cells
      ensures r.Success? <==> InBounds(rows as int, cols as int, row as int, col as int)
      ensures r.Success? ==> r.value as int == Neighbors(Live(), rows as int, cols as int, row as int, col as int)
      ensures r.Failure? ==> r.error == IndexOutOfBounds
    {
      var check := CheckCell(row, col);
      if check.Fail? then Failure(check.error)
      else
        var up, down, left, right := row as int - 1, row as int + 1, col as int - 1, col as int + 1;
        Success((Value(up, right) + Value(up, col as int) + Value(up, left) +
                 Value(row as int, right) + Value(row as int, left) +
                 Value(down, right) + Value(down, col as int) + Value(down, left)) as int32)
    }

    /** clear: empties the cell set. */
    method Clear()
      requires Valid()
      modifies cells
      ensures Valid() && Live() == {}
    {
      cells.Clear();
    }

    /** liveCells: the size of the cell set, the population. */
    function LiveCells(): (n: int64)
      requires Valid()
      reads this, cells
      ensures n as int == |Live()|
    {
      PopulationBound(Live(), rows as int, cols as int);
      cells.Size() as int64
    }

    /** forEachAlive: the set's own forEach, so every live cell is passed exactly once, in the
        set's iteration order. */
    method ForEachAlive() returns (visits: seq<Cell>)
      requires Valid()
      ensures |visits| == |Live()|
      ensures forall p :: p in visits <==> p in Live()
      ensures forall i, j | 0 <= i < j < |visits| :: visits[i] != visits[j]
    {
      visits := cells.ForEach();
    }
  }
}

=== FILE: src/java_int.dfy ===
/** Java's fixed-width integers, modelled on unbounded `int`.
    Where the source can wrap around, the wrap is written out with Wrap32/Wrap64. */
module JavaInt {

  const TWO_31: int := 0x8000_0000
  const TWO_32: int := 0x1_0000_0000
  const TWO_63: int := 0x8000_0000_0000_0000
  const TWO_64: int := 0x1_0000_0000_0000_0000

  /** Java `int` */
  type int32 = x: int | -0x8000_0000 <= x < 0x8000_0000

  /** Java `long` */
  type int64 = x: int | -0x8000_0000_0000_0000 <= x < 0x8000_0000_0000_0000

  /** `Integer.MAX_VALUE` */
  const INT_MAX: int32 := 0x7fff_ffff

  /** Narrowing to 32 bits: the result of `(int) x`, or of an `int` operation whose exact value is x. */
  function Wrap32(x: int): (r: int32)
    ensures (r - x) % 0x1_0000_0000 == 0
    ensures -0x8000_0000 <= x < 0x8000_0000 ==> r == x
  {
    var m := x % 0x1_0000_0000;
    if m < 0x8000_0000 then m else m - 0x1_0000_0000
  }

  /** Narrowing to 64 bits: the result of a `long` operation whose exact value is x. */
  function Wrap64(x: int): (r: int64)
    ensures (r - x) % 0x1_0000_0000_0000_0000 == 0
    ensures -0x8000_0000_0000_0000 <= x < 0x8000_0000_0000_0000 ==> r == x
  {
    var m := x % 0x1_0000_0000_0000_0000;
    if m < 0x8000_0000_0000_0000 then m else m - 0x1_0000_0000_0000_0000
  }

  /** Narrowing to 8 bits: `(byte) x`, also what `b += k` stores into a `byte`. */
  function ToByte(x: int): (r: int)
    ensures -128 <= r < 128
    ensures (r - x) % 256 == 0
    ensures -128 <= x < 128 ==> r == x
  {
    var m := x % 256;
    if m < 128 then m else m - 256
  }

  /** |b| */
  function Abs(b: int): (m: int)
    ensures m >= 0 && (m == b || m == -b)
  {
    if b < 0 then -b else b
  }

  /** Java's `/` on integers truncates toward zero. Dafny's `/` is Euclidean: it agrees for a
      non-negative dividend or an exact division, and is otherwise one below the truncated
      quotient for a positive divisor and one above it for a negative one. The ensures is the
      remainder rule of section 15.17.2 of the Java Language Specification: `a - q * b` takes the
      sign of the dividend and is smaller than the divisor in magnitude. */
  function TruncDiv(a: int, b: int): (q: int)
    requires b != 0
    ensures a >= 0 ==> 0 <= a - q * b < Abs(b)
    ensures a < 0 ==> -Abs(b) < a - q * b <= 0
    ensures a >= 0 && b > 0 ==> q == a / b
  {
    EuclideanDivision(a, b);
    if a >= 0 || a % b == 0 then a / b
    else if b > 0 then QuotientStep(a / b, b); a / b + 1
    else QuotientStep(a / b, b); a / b - 1
  }

  /** Dafny's quotient and remainder: a == q * b + r with 0 <= r < |b|. */
  lemma EuclideanDivision(a: int, b: int)
    requires b != 0
    ensures a == (a / b) * b + a % b && 0 <= a % b < Abs(b)
  {
  }

  lemma QuotientStep(q: int, b: int)
    ensures (q + 1) * b == q * b + b && (q - 1) * b == q * b - b
  {
  }

  /** The remainder rule pins the quotient down: any q' that meets it is TruncDiv(a, b). */
  lemma TruncDivUnique(a: int, b: int, q': int)
    requires b != 0
    requires a >= 0 ==> 0 <= a - q' * b < Abs(b)
    requires a < 0 ==> -Abs(b) < a - q' * b <= 0
    ensures q' == TruncDiv(a, b)
  {
    var q := TruncDiv(a, b);
    var d := q' - q;
    ProductDifference(q', q, b);
    if d != 0 {
      MagnitudeGrows(d, b);
    }
  }

  lemma ProductDifference(x: int, y: int, b: int)
    ensures x * b - y * b == (x - y) * b
  {
  }

  /** A non-zero multiple of b is at least |b| in magnitude. */
  lemma MagnitudeGrows(d: int, b: int)
    requires d != 0
    ensures d * b >= Abs(b) || d * b <= -Abs(b)
  {
    var m := Abs(d) - 1;
    assert m >= 0;
    NonNegativeProduct(m, Abs(b));
    assert Abs(d) * Abs(b) == m * Abs(b) + Abs(b) by { QuotientStep(m, Abs(b)); }
    SignedProduct(d, b);
  }

  lemma NonNegativeProduct(x: int, y: int)
    requires x >= 0 && y >= 0
    ensures x * y >= 0
  {
  }

  lemma SignedProduct(d: int, b: int)
    ensures d * b == Abs(d) * Abs(b) || d * b == -(Abs(d) * Abs(b))
  {
    if d < 0 && b < 0 {
      assert d * b == (-d) * (-b);
    } else if d < 0 {
      assert d * b == -((-d) * b);
    } else if b < 0 {
      assert d * b == -(d * (-b));
    }
  }

  /** The two wrong-signed cases the Euclidean quotient gets wrong for a negative divisor. */
  lemma TruncDivNegativeDivisor()
    ensures TruncDiv(7, -2) == -3 && TruncDiv(-7, -2) == 3 && TruncDiv(-7, 2) == -3
  {
  }
}

=== FILE: src/life.dfy ===
/** game/AbstractLife.java, game/Life.java and game/GoL.java: a game owns a grid and a progress
    strategy and hands each generation on to the strategy. AbstractLife brackets a generation
    with the progress listener's start and finish calls; Life and GoL swap the strategy for the
    do-nothing NOOP strategy when the game is finished. */
module Games {
  import opened Errors
  import opened LifeRules
  import opened FiniteGrids
  import opened Listeners
  import opened SparseProgress

  /** The `ps` field of a game: a strategy of its own, or ProgressStrategy.NOOP. */
  datatype StrategyRef = NoopStrategy | Active(strategy: AllAtOnceStrategy)

  /** A `Runnable` handed to GoL: only its identity matters, its runs are recorded. */
  datatype Callback = Callback(id: nat)

  /** What one call of a strategy's progress did to the grid: nothing when the strategy was
      finished or frozen (`idle`), otherwise the next generation, or nothing when a bag overflowed. */
  ghost predicate Progressed(before: set<Cell>, after: set<Cell>, rows: int, cols: int, idle: bool, res: Outcome) {
    && (idle ==> res.Pass? && after == before)
    && (!idle && res.Pass? ==> after == Step(before, rows, cols))
    && (res.Fail? ==> res.error == CellBagTooBig && after == before)
  }

  /** AbstractLife: `progress()` and `progress(listener)` around `nextGen`, which is one step of
      the game's strategy. */
  class AbstractLife {
    const grid: FiniteGrid
    const strategy: AllAtOnceStrategy

    constructor (grid: FiniteGrid, strategy: AllAtOnceStrategy)
      ensures this.grid == grid && this.strategy == strategy
    {
      this.grid := grid;
      this.strategy := strategy;
    }

    /** progress(): nextGen with the NOOP listener, so nobody hears a start, a cell or a finish. */
    method Progress() returns (res: Outcome)
      requires grid.Valid()
      modifies strategy, grid
      ensures grid.Valid()
      ensures Progressed(old(grid.live), grid.live, grid.rows as int, grid.cols as int,
                         old(strategy.finished || strategy.frozen), res)
    {
      var events;
      res, events := strategy.Progress(grid);
    }

    /** progress(listener): a null listener is replaced by NOOP; the listener hears
        onProgressStart, then the cell events of nextGen, then onProgressFinish. An exception
        from nextGen skips the finish call. NOOP hears nothing. */
    method ProgressWith(listener: Option<Listener>) returns (res: Outcome, heard: seq<Event>)
      requires grid.Valid()
      modifies strategy, grid
      ensures grid.Valid()
      ensures Progressed(old(grid.live), grid.live, grid.rows as int, grid.cols as int,
                         old(strategy.finished || strategy.frozen), res)
      ensures listener != Some(Caller) ==> heard == []
      ensures listener == Some(Caller) ==> |heard| >= 1 && heard[0] == ProgressStart
      ensures listener == Some(Caller) && res.Pass? ==>
                |heard| >= 2 && heard[|heard| - 1] == ProgressFinish &&
                (old(strategy.finished || strategy.frozen) ==> |heard| == 2) &&
                (!old(strategy.finished || strategy.frozen) ==>
                   Reported(old(grid.live), grid.rows as int, grid.cols as int, heard[1..|heard| - 1]))
    {
      var l := if listener.None? then Listener.Noop else listener.value;
      heard := if l == Caller then [ProgressStart] else [];
      var events;
      res, events := strategy.Progress(grid);
      if l == Caller {
        heard := heard + events;
      }
      if res.Fail? {
        return;
      }
      if l == Caller {
        heard := heard + [ProgressFinish];
        assert heard[1..|heard| - 1] == events;
      }
    }
  }

  /** Life: a grid and a strategy; finishing terminates the strategy, then drops it for NOOP. */
  class Life {
    const grid: FiniteGrid
    var ps: StrategyRef

    constructor (grid: FiniteGrid, ps: StrategyRef)
      ensures this.grid == grid && this.ps == ps
    {
      this.grid := grid;
      this.ps := ps;
    }

    /** finish(): terminates the current strategy, then swaps in NOOP. A second call finds NOOP
        and leaves the original strategy alone. */
    method Finish()
      modifies this, if ps.Active? then {ps.strategy} else {}
      ensures ps == NoopStrategy
      ensures old(ps).Active? ==>
                old(ps).strategy.finished && old(ps).strategy.frozen == old(ps.strategy.frozen)
    {
      if ps.Active? {
        ps.strategy.Finish();
      }
      ps := NoopStrategy;
    }

    /** progress(): the current strategy's progress on the game's grid, once; NOOP does nothing. */
    method Progress() returns (res: Outcome)
      requires grid.Valid()
      modifies grid, if ps.Active? then {ps.strategy} else {}
      ensures grid.Valid()
      ensures ps.NoopStrategy? ==> res.Pass? && grid.live == old(grid.live)
      ensures ps.Active? ==>
                Progressed(old(grid.live), grid.live, grid.rows as int, grid.cols as int,
                           old(ps.strategy.finished || ps.strategy.frozen), res)
    {
      res := Pass;
      if ps.Active? {
        var events;
        res, events := ps.strategy.Progress(grid);
      }
    }
  }

  /** GoL: a grid, a strategy and an optional callback; finishing drops the strategy for NOOP
      without terminating it, then runs the callback. */
  class GoL {
    const grid: FiniteGrid
    const onFinish: Option<Callback>
    var ps: StrategyRef
    /** The runs of `onFinish` so far, in order. */
    var ran: seq<Callback>

    constructor (grid: FiniteGrid, ps: StrategyRef, onFinish: Option<Callback>)
      ensures this.grid == grid && this.ps == ps && this.onFinish == onFinish && ran == []
    {
      this.grid := grid;
      this.ps := ps;
      this.onFinish := onFinish;
      ran := [];
    }

    /** finish(): NOOP from now on, then `onFinish.run()` when there is a callback, on every
        call. */
    method Finish()
      modifies this
      ensures ps == NoopStrategy
      ensures ran == old(ran) + if onFinish.Some? then [onFinish.value] else []
    {
      ps := NoopStrategy;
      if onFinish.Some? {
        ran := ran + [onFinish.value];
      }
    }

    /** progress(): the current strategy's progress on the game's grid; NOOP does nothing. */
    method Progress() returns (res: Outcome)
      requires grid.Valid()
      modifies grid, if ps.Active? then {ps.strategy} else {}
      ensures grid.Valid()
      ensures ps.NoopStrategy? ==> res.Pass? && grid.live == old(grid.live)
      ensures ps.Active? ==>
                Progressed(old(grid.live), grid.live, grid.rows as int, grid.cols as int,
                           old(ps.strategy.finished || ps.strategy.frozen), res)
    {
      res := Pass;
      if ps.Active? {
        var events;
        res, events := ps.strategy.Progress(grid);
      }
    }
  }
}

=== FILE: src/life_rules.dfy ===
/** The transition rule every grid and strategy implements: a live cell with 2 or 3 live Moore
    neighbours survives, a dead cell with exactly 3 is born, every other cell is dead in the next
    generation. Cells outside rows x cols count as dead; there is no wrap-around. */
module LifeRules {

  type Cell = (int, int)

  predicate InBounds(rows: int, cols: int, row: int, col: int) {
    0 <= row < rows && 0 <= col < cols
  }

  ghost predicate WithinGrid(live: set<Cell>, rows: int, cols: int) {
    forall p | p in live :: InBounds(rows, cols, p.0, p.1)
  }

  /** 1 for a live cell inside the grid, 0 otherwise (off-grid cells are dead). */
  function Value(live: set<Cell>, rows: int, cols: int, row: int, col: int): int {
    if InBounds(rows, cols, row, col) && (row, col) in live then 1 else 0
  }

  /** The number of live cells among the eight Moore neighbours of (row, col). */
  function Neighbors(live: set<Cell>, rows: int, cols: int, row: int, col: int): (n: int)
    ensures 0 <= n <= 8
  {
    Value(live, rows, cols, row - 1, col - 1) + Value(live, rows, cols, row - 1, col) +
    Value(live, rows, cols, row - 1, col + 1) + Value(live, rows, cols, row, col - 1) +
    Value(live, rows, cols, row, col + 1) + Value(live, rows, cols, row + 1, col - 1) +
    Value(live, rows, cols, row + 1, col) + Value(live, rows, cols, row + 1, col + 1)
  }

  predicate Adjacent(p: Cell, q: Cell) {
    p != q && -1 <= p.0 - q.0 <= 1 && -1 <= p.1 - q.1 <= 1
  }

  /** The eight neighbour positions of p, in the order the sparse strategy visits them. */
  function Around(p: Cell): (s: seq<Cell>)
    ensures |s| == 8
  {
    [(p.0 - 1, p.1 - 1), (p.0 - 1, p.1), (p.0 - 1, p.1 + 1),
     (p.0, p.1 - 1),                      (p.0, p.1 + 1),
     (p.0 + 1, p.1 - 1), (p.0 + 1, p.1), (p.0 + 1, p.1 + 1)]
  }

  lemma AroundIsAdjacent(p: Cell, q: Cell)
    ensures q in Around(p) <==> Adjacent(p, q)
  {
  }

  /** The rule: the state of a cell in the next generation from its state and neighbour count. */
  predicate NextState(alive: bool, n: int) {
    if alive then n == 2 || n == 3 else n == 3
  }

  /** The next generation of `live` on a rows x cols grid. */
  function Step(live: set<Cell>, rows: int, cols: int): (next: set<Cell>)
    ensures forall p :: p in next <==>
              InBounds(rows, cols, p.0, p.1) && NextState(p in live, Neighbors(live, rows, cols, p.0, p.1))
  {
    set p | p in AllCells(rows, cols) && NextState(p in live, Neighbors(live, rows, cols, p.0, p.1))
  }

  /** The key fact behind the sparse strategy: a cell with a live neighbour lies in the
      neighbourhood of a live cell, so only the dead neighbours of live cells can be born. */
  lemma {:induction false} LiveNeighborWitness(live: set<Cell>, rows: int, cols: int, row: int, col: int)
    requires Neighbors(live, rows, cols, row, col) > 0
    ensures exists p :: p in live && InBounds(rows, cols, p.0, p.1) && (row, col) in Around(p)
  {
    var p: Cell;
    if Value(live, rows, cols, row - 1, col - 1) == 1 { p := (row - 1, col - 1); }
    else if Value(live, rows, cols, row - 1, col) == 1 { p := (row - 1, col); }
    else if Value(live, rows, cols, row - 1, col + 1) == 1 { p := (row - 1, col + 1); }
    else if Value(live, rows, cols, row, col - 1) == 1 { p := (row, col - 1); }
    else if Value(live, rows, cols, row, col + 1) == 1 { p := (row, col + 1); }
    else if Value(live, rows, cols, row + 1, col - 1) == 1 { p := (row + 1, col - 1); }
    else if Value(live, rows, cols, row + 1, col) == 1 { p := (row + 1, col); }
    else { p := (row + 1, col + 1); }
    assert (row, col) in Around(p);
  }

  /** Births happen only next to live cells. */
  lemma BirthNeedsLiveNeighbor(live: set<Cell>, rows: int, cols: int, row: int, col: int)
    requires (row, col) !in live && InBounds(rows, cols, row, col)
    requires (row, col) in Step(live, rows, cols)
    ensures exists p :: p in live && InBounds(rows, cols, p.0, p.1) && (row, col) in Around(p)
  {
    LiveNeighborWitness(live, rows, cols, row, col);
  }

  /** Bringing p to life adds one to the count of exactly its in-grid neighbours. */
  lemma NeighborsAfterBirth(live: set<Cell>, rows: int, cols: int, p: Cell, row: int, col: int)
    requires p !in live && InBounds(rows, cols, p.0, p.1)
    ensures Neighbors(live + {p}, rows, cols, row, col) ==
            Neighbors(live, rows, cols, row, col) + (if Adjacent(p, (row, col)) then 1 else 0)
  {
    var d := if Adjacent(p, (row, col)) then 1 else 0;
    if p == (row - 1, col - 1) || p == (row - 1, col) || p == (row - 1, col + 1) || p == (row, col - 1) {
      assert d == 1;
    } else if p == (row, col + 1) || p == (row + 1, col - 1) || p == (row + 1, col) || p == (row + 1, col + 1) {
      assert d == 1;
    } else {
      assert d == 0;
    }
  }

  /** Killing p subtracts one from the count of exactly its in-grid neighbours. */
  lemma NeighborsAfterDeath(live: set<Cell>, rows: int, cols: int, p: Cell, row: int, col: int)
    requires p in live && InBounds(rows, cols, p.0, p.1)
    ensures Neighbors(live - {p}, rows, cols, row, col) ==
            Neighbors(live, rows, cols, row, col) - (if Adjacent(p, (row, col)) then 1 else 0)
  {
    var d := if Adjacent(p, (row, col)) then 1 else 0;
    if p == (row - 1, col - 1) || p == (row - 1, col) || p == (row - 1, col + 1) || p == (row, col - 1) {
      assert d == 1;
    } else if p == (row, col + 1) || p == (row + 1, col - 1) || p == (row + 1, col) || p == (row + 1, col + 1) {
      assert d == 1;
    } else {
      assert d == 0;
    }
  }

  /** The cells that change: births are dead cells of Step, deaths are live cells not in Step. */
  function Births(live: set<Cell>, rows: int, cols: int): set<Cell> {
    Step(live, rows, cols) - live
  }

  function Deaths(live: set<Cell>, rows: int, cols: int): set<Cell> {
    live - Step(live, rows, cols)
  }

  /** p is a live cell that the rule kills. */
  predicate Dies(live: set<Cell>, rows: int, cols: int, p: Cell) {
    p in live && !NextState(true, Neighbors(live, rows, cols, p.0, p.1))
  }

  /** p is a dead cell that the rule brings to life. */
  predicate Spawns(live: set<Cell>, rows: int, cols: int, p: Cell) {
    p !in live && NextState(false, Neighbors(live, rows, cols, p.0, p.1))
  }

  /** The deaths and births of a generation are the grid cells that die and that are born. */
  lemma DeltaCells(live: set<Cell>, rows: int, cols: int, p: Cell)
    requires WithinGrid(live, rows, cols)
    ensures p in Deaths(live, rows, cols) <==> InBounds(rows, cols, p.0, p.1) && Dies(live, rows, cols, p)
    ensures p in Births(live, rows, cols) <==> InBounds(rows, cols, p.0, p.1) && Spawns(live, rows, cols, p)
  {
  }

  /** Applying the births and then the deaths of a generation (or the other way round) to a grid
      yields the next generation. */
  lemma ApplyDelta(live: set<Cell>, rows: int, cols: int)
    requires WithinGrid(live, rows, cols)
    ensures (live + Births(live, rows, cols)) - Deaths(live, rows, cols) == Step(live, rows, cols)
    ensures (live - Deaths(live, rows, cols)) + Births(live, rows, cols) == Step(live, rows, cols)
    ensures Births(live, rows, cols) !! Deaths(live, rows, cols)
  {
  }

  /** A generation changes nothing exactly when it has neither births nor deaths. */
  lemma FixedPoint(live: set<Cell>, rows: int, cols: int)
    requires WithinGrid(live, rows, cols)
    ensures Step(live, rows, cols) == live <==> |Births(live, rows, cols)| + |Deaths(live, rows, cols)| == 0
  {
    if |Births(live, rows, cols)| + |Deaths(live, rows, cols)| == 0 {
      assert Births(live, rows, cols) == {} && Deaths(live, rows, cols) == {};
      ApplyDelta(live, rows, cols);
    }
  }

  // ---- the scenarios the engine's tests check ----

  /** A lone cell dies, and the empty grid stays empty. */
  lemma LoneCellDies(rows: int, cols: int, row: int, col: int)
    requires InBounds(rows, cols, row, col)
    ensures Step({(row, col)}, rows, cols) == {}
    ensures Step({}, rows, cols) == {}
  {
    forall p: Cell ensures p !in Step({(row, col)}, rows, cols) {
      assert Neighbors({(row, col)}, rows, cols, p.0, p.1) <= 1;
    }
    forall p: Cell ensures p !in Step({}, rows, cols) {
      assert Neighbors({}, rows, cols, p.0, p.1) == 0;
    }
  }

  /** The blinker on a 5 x 5 grid has period 2: horizontal becomes vertical and back. */
  lemma Blinker(h: set<Cell>, v: set<Cell>)
    requires h == {(2, 1), (2, 2), (2, 3)}
    requires v == {(1, 2), (2, 2), (3, 2)}
    ensures Step(h, 5, 5) == v
    ensures Step(v, 5, 5) == h
  {
    HorizontalBlinker(h, v);
    VerticalBlinker(v, h);
  }

  lemma HorizontalBlinker(h: set<Cell>, v: set<Cell>)
    requires h == {(2, 1), (2, 2), (2, 3)}
    requires v == {(1, 2), (2, 2), (3, 2)}
    ensures Step(h, 5, 5) == v
  {
    forall p: Cell | InBounds(5, 5, p.0, p.1) ensures p in v <==> NextState(p in h, Neighbors(h, 5, 5, p.0, p.1)) {
      BlinkerCount(h, p);
    }
    StepIs(h, 5, 5, v);
  }

  lemma VerticalBlinker(v: set<Cell>, h: set<Cell>)
    requires h == {(2, 1), (2, 2), (2, 3)}
    requires v == {(1, 2), (2, 2), (3, 2)}
    ensures Step(v, 5, 5) == h
  {
    forall p: Cell | InBounds(5, 5, p.0, p.1) ensures p in h <==> NextState(p in v, Neighbors(v, 5, 5, p.0, p.1)) {
      VerticalBlinkerCount(v, p);
    }
    StepIs(v, 5, 5, h);
  }

  /** A set is the next generation when it holds exactly the in-grid cells the rule keeps alive. */
  lemma StepIs(live: set<Cell>, rows: int, cols: int, next: set<Cell>)
    requires forall p | p in next :: InBounds(rows, cols, p.0, p.1)
    requires forall p: Cell | InBounds(rows, cols, p.0, p.1) ::
               p in next <==> NextState(p in live, Neighbors(live, rows, cols, p.0, p.1))
    ensures Step(live, rows, cols) == next
  {
  }

  /** Neighbour counts around the horizontal blinker. */
  lemma BlinkerCount(h: set<Cell>, p: Cell)
    requires h == {(2, 1), (2, 2), (2, 3)}
    ensures p in {(1, 2), (3, 2)} ==> Neighbors(h, 5, 5, p.0, p.1) == 3
    ensures p == (2, 2) ==> Neighbors(h, 5, 5, p.0, p.1) == 2
    ensures p !in {(1, 2), (2, 2), (3, 2)} ==> p !in h || Neighbors(h, 5, 5, p.0, p.1) < 2
    ensures p !in {(1, 2), (3, 2)} ==> Neighbors(h, 5, 5, p.0, p.1) != 3
  {
  }

  /** Neighbour counts around the vertical blinker. */
  lemma VerticalBlinkerCount(v: set<Cell>, p: Cell)
    requires v == {(1, 2), (2, 2), (3, 2)}
    ensures p in {(2, 1), (2, 3)} ==> Neighbors(v, 5, 5, p.0, p.1) == 3
    ensures p == (2, 2) ==> Neighbors(v, 5, 5, p.0, p.1) == 2
    ensures p !in {(2, 1), (2, 2), (2, 3)} ==> p !in v || Neighbors(v, 5, 5, p.0, p.1) < 2
    ensures p !in {(2, 1), (2, 3)} ==> Neighbors(v, 5, 5, p.0, p.1) != 3
  {
  }

  /** The 2 x 2 block is a still life wherever it sits inside the grid. */
  lemma Block(block: set<Cell>, rows: int, cols: int, row: int, col: int)
    requires InBounds(rows, cols, row, col) && InBounds(rows, cols, row + 1, col + 1)
    requires block == {(row, col), (row, col + 1), (row + 1, col), (row + 1, col + 1)}
    ensures Step(block, rows, cols) == block
  {
    forall p: Cell | InBounds(rows, cols, p.0, p.1)
      ensures p in block <==> NextState(p in block, Neighbors(block, rows, cols, p.0, p.1))
    {
      BlockCount(block, rows, cols, row, col, p);
    }
    StepIs(block, rows, cols, block);
  }

  /** Each cell of the block has three live neighbours and no dead cell has three. */
  lemma BlockCount(block: set<Cell>, rows: int, cols: int, row: int, col: int, p: Cell)
    requires InBounds(rows, cols, row, col) && InBounds(rows, cols, row + 1, col + 1)
    requires block == {(row, col), (row, col + 1), (row + 1, col), (row + 1, col + 1)}
    ensures p in block ==> Neighbors(block, rows, cols, p.0, p.1) == 3
    ensures p !in block ==> Neighbors(block, rows, cols, p.0, p.1) <= 2
  {
  }

  /** Every cell of a rows x cols grid. */
  function AllCells(rows: int, cols: int): (all: set<Cell>)
    ensures forall p :: p in all <==> InBounds(rows, cols, p.0, p.1)
  {
    set r, c | 0 <= r < rows && 0 <= c < cols :: (r, c)
  }

  function Corners(rows: int, cols: int): set<Cell> {
    {(0, 0), (0, cols - 1), (rows - 1, 0), (rows - 1, cols - 1)}
  }

  /** On a full grid of at least 2 x 2 only the four corners (3 neighbours each) survive; on a grid
      of at least 3 x 3 the isolated corners then die. */
  lemma FullGrid(rows: int, cols: int)
    requires rows >= 2 && cols >= 2
    ensures Step(AllCells(rows, cols), rows, cols) == Corners(rows, cols)
    ensures rows >= 3 && cols >= 3 ==> Step(Corners(rows, cols), rows, cols) == {}
  {
    var all := AllCells(rows, cols);
    var corners := Corners(rows, cols);
    forall p: Cell | InBounds(rows, cols, p.0, p.1)
      ensures p in corners <==> NextState(p in all, Neighbors(all, rows, cols, p.0, p.1))
    {
      FullGridCount(all, rows, cols, p);
    }
    StepIs(all, rows, cols, corners);
    if rows >= 3 && cols >= 3 {
      forall p: Cell | InBounds(rows, cols, p.0, p.1)
        ensures false <==> NextState(p in corners, Neighbors(corners, rows, cols, p.0, p.1))
      {
        CornersCount(corners, rows, cols, p);
      }
      StepIs(corners, rows, cols, {});
    }
  }

  /** On a grid of at least 3 x 3 no two corners are neighbours, and no cell sees exactly three. */
  lemma CornersCount(corners: set<Cell>, rows: int, cols: int, p: Cell)
    requires rows >= 3 && cols >= 3 && corners == Corners(rows, cols)
    ensures p in corners ==> Neighbors(corners, rows, cols, p.0, p.1) == 0
    ensures Neighbors(corners, rows, cols, p.0, p.1) != 3
  {
  }

  /** On a full grid a corner has three neighbours and every other cell at least four. */
  lemma FullGridCount(all: set<Cell>, rows: int, cols: int, p: Cell)
    requires rows >= 2 && cols >= 2 && all == AllCells(rows, cols) && InBounds(rows, cols, p.0, p.1)
    ensures p in Corners(rows, cols) ==> Neighbors(all, rows, cols, p.0, p.1) == 3
    ensures p !in Corners(rows, cols) ==> Neighbors(all, rows, cols, p.0, p.1) >= 4
  {
  }
}

=== FILE: src/neighbor_counting_grid.dfy ===
/** NeighborCountingGrid.java: one byte per cell, whose bit 0 is the cell's state and whose
    higher bits hold the number of its live neighbours. A set that changes a cell's state flips
    its bit 0 and adds or subtracts ALIVE_NEIGHBOR in the bytes of its in-grid neighbours, so
    `neighbors` is a shift. Indices are not range-checked: the array accesses throw. */
module NeighborCountingGrids {
  import opened JavaInt
  import opened Errors
  import opened LifeRules
  import opened FiniteGrids

  /** NeighborCountingGrid.ALIVE_MASK */
  const ALIVE_MASK: int := 1
  /** NeighborCountingGrid.ALIVE_NEIGHBOR: one live neighbour, in the byte's count bits. */
  const ALIVE_NEIGHBOR: int := 2

  /** `(b & ALIVE_MASK) != 0`: bit 0 of the byte in two's complement, which Dafny's Euclidean
      remainder gives for negative bytes too. */
  predicate AliveBit(b: int) {
    b % 2 == ALIVE_MASK
  }

  /** `b ^= ALIVE_MASK`: flips bit 0 and keeps the higher bits. */
  function FlipAlive(b: int): (r: int)
    ensures AliveBit(r) <==> !AliveBit(b)
    ensures r / 2 == b / 2
  {
    if b % 2 == 0 then b + 1 else b - 1
  }

  /** `b >>> 1` on a byte: the byte is widened to an int (sign-extended) and shifted right as an
      unsigned 32-bit value. */
  function UnsignedShift1(b: int): (r: int)
    requires -128 <= b < 128
    ensures 0 <= b ==> r == b / 2
    ensures b < 0 ==> r >= 0x4000_0000
  {
    if b >= 0 then b / 2 else (b + 0x1_0000_0000) / 2
  }

  /** The byte the grid holds for (row, col) of a grid with these live cells. */
  function Encode(live: set<Cell>, rows: int, cols: int, row: int, col: int): (b: int)
    ensures 0 <= b <= 17
  {
    Value(live, rows, cols, row, col) + ALIVE_NEIGHBOR * Neighbors(live, rows, cols, row, col)
  }

  /** The byte decodes back: bit 0 is the state and the shift is the neighbour count; it never
      leaves a byte's range. */
  lemma EncodeDecode(live: set<Cell>, rows: int, cols: int, row: int, col: int)
    requires InBounds(rows, cols, row, col)
    ensures AliveBit(Encode(live, rows, cols, row, col)) <==> (row, col) in live
    ensures UnsignedShift1(Encode(live, rows, cols, row, col)) == Neighbors(live, rows, cols, row, col)
  {
  }

  /** An empty grid is all zero bytes. */
  lemma EncodeEmpty(rows: int, cols: int, row: int, col: int)
    ensures Encode({}, rows, cols, row, col) == 0
  {
  }

  /** What a state-changing set does to the byte of a grid cell q: bit 0 flips at p, and the count
      moves by one neighbour at each in-grid cell adjacent to p. */
  lemma EncodeAfterSet(live: set<Cell>, rows: int, cols: int, p: Cell, state: bool, q: Cell)
    requires InBounds(rows, cols, p.0, p.1) && InBounds(rows, cols, q.0, q.1)
    requires (p in live) != state
    ensures Encode(if state then live + {p} else live - {p}, rows, cols, q.0, q.1) ==
            Encode(live, rows, cols, q.0, q.1)
            + (if q == p then (if state then 1 else -1) else 0)
            + (if Adjacent(p, q) then (if state then ALIVE_NEIGHBOR else -ALIVE_NEIGHBOR) else 0)
  {
    if state {
      NeighborsAfterBirth(live, rows, cols, p, q.0, q.1);
    } else {
      NeighborsAfterDeath(live, rows, cols, p, q.0, q.1);
    }
  }

  class NeighborCountingGrid {
    const rows: int32
    const cols: int32
    const size: int64
    /** byte[rows][cols], one row array per row */
    const grid: array2<int>
    /** the live cells */
    ghost var live: set<Cell>

    /** Every byte encodes its cell's state and live-neighbour count. */
    ghost predicate Valid()
      reads this, grid
    {
      && rows >= MIN_SIZE && cols >= MIN_SIZE
      && size == rows as int * cols as int
      && grid.Length0 == rows as int && grid.Length1 == cols as int
      && WithinGrid(live, rows as int, cols as int)
      && forall r, c | 0 <= r < rows as int && 0 <= c < cols as int ::
           grid[r, c] == Encode(live, rows as int, cols as int, r, c)
    }

    constructor (rows: int32, cols: int32)
      requires DimensionCheck(rows, cols).Pass?
      ensures Valid() && fresh(grid) && this.rows == rows && this.cols == cols && live == {}
    {
      this.rows := rows;
      this.cols := cols;
      this.size := GridSize(rows, cols);
      this.grid := new int[rows, cols]((_, _) => 0);
      live := {};
      new;
      forall r, c | 0 <= r < rows as int && 0 <= c < cols as int
        ensures grid[r, c] == Encode(live, rows as int, cols as int, r, c)
      {
        EncodeEmpty(rows as int, cols as int, r, c);
      }
    }

    /** new NeighborCountingGrid(rows, cols): an empty grid, or the exception the dimension check
        throws. */
    static method Create(rows: int32, cols: int32) returns (res: Result<NeighborCountingGrid>)
      ensures res.Success? <==> rows >= MIN_SIZE && cols >= MIN_SIZE
      ensures res.Failure? ==> res == Failure(DimensionCheckAsWritten(rows, cols).error)
      ensures res.Success? ==> fresh(res.value) && fresh(res.value.grid) && res.value.Valid()
      ensures res.Success? ==> res.value.rows == rows && res.value.cols == cols && res.value.live == {}
    {
      var check := DimensionCheckAsWritten(rows, cols);
      if check.Fail? {
        return Failure(check.error);
      }
      var g := new NeighborCountingGrid(rows, cols);
      return Success(g);
    }

    /** get: bit 0 of the cell's byte; indices outside the array throw. */
    function Get(row: int32, col: int32): (r: Result<bool>)
      requires Valid()
      reads this, grid
      ensures r.Success? <==> InBounds(rows as int, cols as int, row as int, col as int)
      ensures r.Success? ==> (r.value <==> (row as int, col as int) in live)
      ensures r.Failure? ==> r.error == ArrayIndexOutOfBounds
    {
      if !(0 <= row < rows && 0 <= col < cols) then Failure(ArrayIndexOutOfBounds)
      else
        EncodeDecode(live, rows as int, cols as int, row as int, col as int);
        Success(AliveBit(grid[row, col]))
    }

    /** neighbors: the cell's byte shifted right by one; indices outside the array throw. */
    function GetNeighbors(row: int32, col: int32): (r: Result<int32>)
      requires Valid()
      reads this, grid
      ensures r.Success? <==> InBounds(rows as int, cols as int, row as int, col as int)
      ensures r.Success? ==> r.value as int == Neighbors(live, rows as int, cols as int, row as int, col as int)
      ensures r.Failure? ==> r.error == ArrayIndexOutOfBounds
    {
      if !(0 <= row < rows && 0 <= col < cols) then Failure(ArrayIndexOutOfBounds)
      else
        EncodeDecode(live, rows as int, cols as int, row as int, col as int);
        Success(UnsignedShift1(grid[row, col]) as int32)
    }

    /** set: indices outside the array throw before anything is written. A set that keeps the
        cell's state returns at once; otherwise bit 0 flips and the eight neighbours' counts move
        by one neighbour, those off the grid skipped by the edge tests. */
    method Set(row: int32, col: int32, state: bool) returns (res: Outcome)
      requires Valid()
      modifies this, grid
      ensures Valid()
      ensures res.Pass? <==> InBounds(rows as int, cols as int, row as int, col as int)
      ensures res.Fail? ==> res.error == ArrayIndexOutOfBounds
      ensures res.Fail? ==> live == old(live) && unchanged(grid)
      ensures res.Pass? ==> live == if state then old(live) + {(row as int, col as int)}
                                   else old(live) - {(row as int, col as int)}
    {
      if !(0 <= row < rows && 0 <= col < cols) {
        return Fail(ArrayIndexOutOfBounds);
      }
      res := Pass;
      ghost var p: Cell := (row as int, col as int);
      EncodeDecode(live, rows as int, cols as int, p.0, p.1);
      var alive := AliveBit(grid[row, col]);
      if alive == state {
        return;
      }
      grid[row, col] := FlipAlive(grid[row, col]);
      var update := if state then ALIVE_NEIGHBOR else -ALIVE_NEIGHBOR;
      ghost var L := live;
      Spread(row as int, col as int, update);
      live := if state then live + {p} else live - {p};
      forall r, c | 0 <= r < rows as int && 0 <= c < cols as int
        ensures grid[r, c] == Encode(live, rows as int, cols as int, r, c)
      {
        EncodeAfterSet(L, rows as int, cols as int, p, state, (r, c));
      }
    }

    /** clear: zero-fills row 0, then copies it over every other row, which leaves every cell dead
        with no live neighbours. */
    method Clear()
      requires Valid()
      modifies this, grid
      ensures Valid() && live == {}
    {
      // Arrays.fill(grid[0], (byte) 0)
      var c := 0;
      while c < cols as int
        invariant 0 <= c <= cols as int
        invariant forall b | 0 <= b < c :: grid[0, b] == 0
      {
        grid[0, c] := 0;
        c := c + 1;
      }
      var row := 1;
      while row < rows as int
        invariant 1 <= row <= rows as int
        invariant forall a, b | 0 <= a < row && 0 <= b < cols as int :: grid[a, b] == 0
      {
        // System.arraycopy(grid[0], 0, grid[row], 0, cols)
        var k := 0;
        while k < cols as int
          invariant 0 <= k <= cols as int
          invariant forall a, b | 0 <= a < row && 0 <= b < cols as int :: grid[a, b] == 0
          invariant forall b | 0 <= b < k :: grid[row, b] == 0
        {
          grid[row, k] := grid[0, k];
          k := k + 1;
        }
        row := row + 1;
      }
      live := {};
      forall r, c | 0 <= r < rows as int && 0 <= c < cols as int
        ensures grid[r, c] == Encode(live, rows as int, cols as int, r, c)
      {
        EncodeEmpty(rows as int, cols as int, r, c);
      }
    }

    /** The adds around (row, col): up row, middle row, down row, the up and down rows skipped
        past the top and bottom edges. Each in-grid neighbour moves by update, nothing else. */
    method Spread(row: int, col: int, update: int)
      requires grid.Length0 == rows as int && grid.Length1 == cols as int
      requires 0 <= row < grid.Length0 && 0 <= col < grid.Length1
      requires update == ALIVE_NEIGHBOR || update == -ALIVE_NEIGHBOR
      requires forall a, b | 0 <= a < grid.Length0 && 0 <= b < grid.Length1 :: -100 <= grid[a, b] <= 100
      modifies grid
      ensures forall a, b | 0 <= a < grid.Length0 && 0 <= b < grid.Length1 ::
                grid[a, b] == old(grid[a, b]) + if Adjacent((row, col), (a, b)) then update else 0
    {
      var up, down := row - 1, row + 1;
      var notTopEdge, notDownEdge := up >= 0, down < rows as int;
      if notTopEdge {
        AddAround(up, col, update, true);
      }
      AddAround(row, col, update, false);
      if notDownEdge {
        AddAround(down, col, update, true);
      }
    }

    /** The adds of one row around column col, in the source's order: left, the column itself
        when `center`, right; the left and right ones are skipped past the edges. */
    method AddAround(r: int, col: int, update: int, center: bool)
      requires 0 <= r < grid.Length0 && 0 <= col < grid.Length1 && grid.Length1 == cols as int
      requires update == ALIVE_NEIGHBOR || update == -ALIVE_NEIGHBOR
      requires forall c | 0 <= c < grid.Length1 :: -100 <= grid[r, c] <= 100
      modifies grid
      ensures forall a, b | 0 <= a < grid.Length0 && 0 <= b < grid.Length1 ::
                grid[a, b] == old(grid[a, b]) + if a == r && Near(col, b, center) then update else 0
    {
      var left, right := col - 1, col + 1;
      if left >= 0 {
        grid[r, left] := ToByte(grid[r, left] + update);
      }
      if center {
        grid[r, col] := ToByte(grid[r, col] + update);
      }
      if right < cols as int {
        grid[r, right] := ToByte(grid[r, right] + update);
      }
    }
  }

  /** Column b is next to col, or is col itself when `center`. */
  predicate Near(col: int, b: int, center: bool) {
    b == col - 1 || b == col + 1 || (center && b == col)
  }
}

=== FILE: src/neighbor_counting_hash_grid.dfy ===
/** NeighborCountingHashGrid.java: a range-checked grid keeping its live cells in a cell set and,
    beside it, a NeighborMap from packed grid cells to their live-neighbour counts. Every set
    that changes a cell's state moves the counts of the cell's in-grid neighbours by one, so
    `neighbors` is a lookup. */
module NeighborCountingHashGrids {
  import opened JavaInt
  import opened Errors
  import opened LifeRules
  import opened Cells
  import opened CellSets
  import opened RowMajor
  import opened FiniteGrids

  /** mapping.get(pack(row, col)): the stored count, or the map's default return value 0. */
  function Lookup(m: map<int64, int>, row: int32, col: int32): int {
    var key := Pack(row, col);
    if key in m then m[key] else 0
  }

  /** The count a cell-keyed map gives p, 0 when it has none. */
  function CountOf(m: map<Cell, int>, p: Cell): int {
    if p in m then m[p] else 0
  }

  /** The counts after `add(row, col, delta)`: for a cell of the rows x cols grid the count moves
      by delta as a byte addition (`addTo`); positions off the grid are ignored. */
  function Bump(m: map<Cell, int>, rows: int, cols: int, row: int, col: int, delta: int): map<Cell, int> {
    if InBounds(rows, cols, row, col) then m[(row, col) := ToByte(CountOf(m, (row, col)) + delta)] else m
  }

  /** The eight adds of a state-changing set, in the source's order: up-right, up, up-left,
      right, left, down-right, down, down-left. */
  function BumpAround(m: map<Cell, int>, rows: int, cols: int, row: int, col: int, delta: int): map<Cell, int> {
    var up, down, left, right := row - 1, row + 1, col - 1, col + 1;
    var m1 := Bump(m, rows, cols, up, right, delta);
    var m2 := Bump(m1, rows, cols, up, col, delta);
    var m3 := Bump(m2, rows, cols, up, left, delta);
    var m4 := Bump(m3, rows, cols, row, right, delta);
    var m5 := Bump(m4, rows, cols, row, left, delta);
    var m6 := Bump(m5, rows, cols, down, right, delta);
    var m7 := Bump(m6, rows, cols, down, col, delta);
    Bump(m7, rows, cols, down, left, delta)
  }

  /** The counts hold the live-neighbour count of every grid cell. */
  ghost predicate CountsMatch(m: map<Cell, int>, live: set<Cell>, rows: int, cols: int) {
    forall p: Cell | InBounds(rows, cols, p.0, p.1) :: CountOf(m, p) == Neighbors(live, rows, cols, p.0, p.1)
  }

  /** The eight adds of a set that brings (row, col) to life (delta 1) or kills it (delta -1)
      keep the counts exact: each grid cell adjacent to (row, col) moves by delta once, no other
      count moves, and counts of at most 8 stay clear of byte overflow. */
  lemma BumpAroundKeepsCounts(m: map<Cell, int>, live: set<Cell>, next: set<Cell>, rows: int, cols: int, row: int, col: int, delta: int)
    requires InBounds(rows, cols, row, col) && CountsMatch(m, live, rows, cols)
    requires delta == (if (row, col) in live then -1 else 1)
    requires next == if delta == 1 then live + {(row, col)} else live - {(row, col)}
    ensures CountsMatch(BumpAround(m, rows, cols, row, col, delta), next, rows, cols)
  {
    forall p: Cell | InBounds(rows, cols, p.0, p.1)
      ensures CountOf(BumpAround(m, rows, cols, row, col, delta), p) == Neighbors(next, rows, cols, p.0, p.1)
    {
      BumpAroundAt(m, rows, cols, row, col, delta, p);
      if delta == 1 {
        NeighborsAfterBirth(live, rows, cols, (row, col), p.0, p.1);
      } else {
        NeighborsAfterDeath(live, rows, cols, (row, col), p.0, p.1);
      }
    }
  }

  /** One grid cell p: at most one of the eight adds is its own. */
  lemma BumpAroundAt(m: map<Cell, int>, rows: int, cols: int, row: int, col: int, delta: int, p: Cell)
    requires InBounds(rows, cols, p.0, p.1) && 0 <= CountOf(m, p) <= 8 && (delta == 1 || delta == -1)
    ensures CountOf(BumpAround(m, rows, cols, row, col, delta), p) ==
            CountOf(m, p) + if Adjacent((row, col), p) then delta else 0
  {
    var up, down, left, right := row - 1, row + 1, col - 1, col + 1;
    var m1 := Bump(m, rows, cols, up, right, delta);
    BumpAt(m, rows, cols, up, right, delta, p);
    var m2 := Bump(m1, rows, cols, up, col, delta);
    BumpAt(m1, rows, cols, up, col, delta, p);
    var m3 := Bump(m2, rows, cols, up, left, delta);
    BumpAt(m2, rows, cols, up, left, delta, p);
    var m4 := Bump(m3, rows, cols, row, right, delta);
    BumpAt(m3, rows, cols, row, right, delta, p);
    var m5 := Bump(m4, rows, cols, row, left, delta);
    BumpAt(m4, rows, cols, row, left, delta, p);
    var m6 := Bump(m5, rows, cols, down, right, delta);
    BumpAt(m5, rows, cols, down, right, delta, p);
    var m7 := Bump(m6, rows, cols, down, col, delta);
    BumpAt(m6, rows, cols, down, col, delta, p);
    BumpAt(m7, rows, cols, down, left, delta, p);
    assert BumpAround(m, rows, cols, row, col, delta) == Bump(m7, rows, cols, down, left, delta);
    AdjacentIsOneOfEight(row, col, p, delta);
  }

  /** p is adjacent to (row, col) exactly when it is one of the eight positions around it, and
      then it is exactly one of them. */
  lemma AdjacentIsOneOfEight(row: int, col: int, p: Cell, delta: int)
    ensures (if (row - 1, col + 1) == p then delta else 0) + (if (row - 1, col) == p then delta else 0) +
            (if (row - 1, col - 1) == p then delta else 0) + (if (row, col + 1) == p then delta else 0) +
            (if (row, col - 1) == p then delta else 0) + (if (row + 1, col + 1) == p then delta else 0) +
            (if (row + 1, col) == p then delta else 0) + (if (row + 1, col - 1) == p then delta else 0)
            == if Adjacent((row, col), p) then delta else 0
  {
  }

  /** One add moves the count of p by delta when it is p's own, and leaves it otherwise. */
  lemma BumpAt(m: map<Cell, int>, rows: int, cols: int, row: int, col: int, delta: int, p: Cell)
    requires InBounds(rows, cols, p.0, p.1) && -100 <= CountOf(m, p) <= 100 && (delta == 1 || delta == -1)
    ensures CountOf(Bump(m, rows, cols, row, col, delta), p) == CountOf(m, p) + if (row, col) == p then delta else 0
  {
  }

  /** A packed-key map and a cell-keyed map give every int pair the same count. */
  ghost predicate Mirrors(mapping: map<int64, int>, counts: map<Cell, int>) {
    forall r: int32, c: int32 {:trigger Lookup(mapping, r, c)} :: Lookup(mapping, r, c) == CountOf(counts, (r as int, c as int))
  }

  /** Storing the same count under pack(row, col) and under (row, col) keeps the maps in step,
      because pack is injective. */
  lemma MirrorsStore(mapping: map<int64, int>, counts: map<Cell, int>, row: int32, col: int32, v: int)
    requires Mirrors(mapping, counts)
    ensures Mirrors(mapping[Pack(row, col) := v], counts[(row as int, col as int) := v])
  {
    var stored := mapping[Pack(row, col) := v];
    forall r: int32, c: int32
      ensures Lookup(stored, r, c) == CountOf(counts[(row as int, col as int) := v], (r as int, c as int))
    {
      PackInjective(r, c, row, col);
      assert Lookup(mapping, r, c) == CountOf(counts, (r as int, c as int));
    }
  }

  /** The NeighborMap inner class: a Long2ByteOpenHashMap from packed cells to counts. It stores
      counts of cells of the enclosing grid only, whose dimensions it shares. `Counts` is the
      same map keyed by the unpacked cells. */
  class NeighborMap {
    const rows: int32
    const cols: int32
    var mapping: map<int64, int>
    ghost var Counts: map<Cell, int>

    ghost predicate Valid()
      reads this
    {
      Mirrors(mapping, Counts)
    }

    constructor (rows: int32, cols: int32)
      ensures Valid() && this.rows == rows && this.cols == cols && Counts == map[]
    {
      this.rows := rows;
      this.cols := cols;
      mapping := map[];
      Counts := map[];
    }

    /** get(row, col) */
    function Count(row: int32, col: int32): (n: int)
      requires Valid()
      reads this
      ensures n == CountOf(Counts, (row as int, col as int))
    {
      Lookup(mapping, row, col)
    }

    /** add(row, col, neighbors): ignored off the grid, `addTo` on it. */
    method Add(row: int32, col: int32, delta: int)
      requires Valid()
      modifies this
      ensures Valid() && Counts == Bump(old(Counts), rows as int, cols as int, row as int, col as int, delta)
    {
      if 0 <= row < rows && 0 <= col < cols {
        var key := Pack(row, col);
        var current := if key in mapping then mapping[key] else 0;
        assert current == Lookup(mapping, row, col) == CountOf(Counts, (row as int, col as int));
        mapping := mapping[key := ToByte(current + delta)];
        Counts := Bump(Counts, rows as int, cols as int, row as int, col as int, delta);
        MirrorsStore(old(mapping), old(Counts), row, col, ToByte(current + delta));
      }
    }

    /** clear() */
    method Clear()
      modifies this
      ensures Valid() && Counts == map[]
    {
      mapping := map[];
      Counts := map[];
    }
  }

  class NeighborCountingHashGrid {
    const rows: int32
    const cols: int32
    const size: int64
    const cells: CellSet
    const neighbors: NeighborMap

    /** The cell set holds cells of the grid, and the map holds the live-neighbour count of every
        grid cell. */
    ghost predicate Valid()
      reads this, cells, neighbors
    {
      && rows >= MIN_SIZE && cols >= MIN_SIZE
      && size == rows as int * cols as int
      && neighbors.rows == rows && neighbors.cols == cols
      && cells.Valid()
      && WithinGrid(cells.Elements, rows as int, cols as int)
      && neighbors.Valid()
      && CountsMatch(neighbors.Counts, cells.Elements, rows as int, cols as int)
    }

    /** The live cells: the elements of the cell set. */
    ghost function Live(): set<Cell>
      reads this, cells
    {
      cells.Elements
    }

    constructor (rows: int32, cols: int32)
      requires DimensionCheck(rows, cols).Pass?
      ensures Valid() && fresh(cells) && fresh(neighbors) && this.rows == rows && this.cols == cols
      ensures Live() == {}
    {
      this.rows := rows;
      this.cols := cols;
      this.size := GridSize(rows, cols);
      this.cells := new CellSet();
      this.neighbors := new NeighborMap(rows, cols);
    }

    /** new NeighborCountingHashGrid(rows, cols): an empty grid, or the exception the dimension
        check throws. */
    static method Create(rows: int32, cols: int32) returns (res: Result<NeighborCountingHashGrid>)
      ensures res.Success? <==> rows >= MIN_SIZE && cols >= MIN_SIZE
      ensures res.Failure? ==> res == Failure(DimensionCheckAsWritten(rows, cols).error)
      ensures res.Success? ==> fresh(res.value) && fresh(res.value.cells) && fresh(res.value.neighbors)
      ensures res.Success? ==> res.value.Valid() && res.value.Live() == {}
      ensures res.Success? ==> res.value.rows == rows && res.value.cols == cols
    {
      var check := DimensionCheckAsWritten(rows, cols);
      if check.Fail? {
        return Failure(check.error);
      }
      var g := new NeighborCountingHashGrid(rows, cols);
      return Success(g);
    }

    /** checkIndex(row, col) */
    function CheckCell(row: int32, col: int32): (r: Outcome)
      reads this
      ensures r.Pass? <==> InBounds(rows as int, cols as int, row as int, col as int)
      ensures r.Fail? ==> r.error == IndexOutOfBounds
    {
      var rowCheck := CheckIndex(row, rows);
      if rowCheck.Fail? then rowCheck else CheckIndex(col, cols)
    }

    /** get: range-checked membership in the cell set. */
    function Get(row: int32, col: int32): (r: Result<bool>)
      requires Valid()
      reads this, cells, neighbors
      ensures r.Success? <==> InBounds(rows as int, cols as int, row as int, col as int)
      ensures r.Success? ==> (r.value <==> (row as int, col as int) in Live())
      ensures r.Failure? ==> r.error == IndexOutOfBounds
    {
      var check := CheckCell(row, col);
      if check.Fail? then Failure(check.error) else Success(cells.Contains(row, col))
    }

    /** set: range-checked. A set that leaves the cell's state as it was (add of a present cell,
        remove of an absent one) touches nothing else; otherwise the counts of the eight
        positions around the cell move by +1 for a birth or -1 for a death, the map ignoring
        those off the grid. */
    method Set(row: int32, col: int32, state: bool) returns (res: Outcome)
      requires Valid()
      modifies cells, neighbors
      ensures Valid()
      ensures res.Pass? <==> InBounds(rows as int, cols as int, row as int, col as int)
      ensures res.Fail? ==> res.error == IndexOutOfBounds
      ensures res.Fail? || ((row as int, col as int) in old(Live())) == state ==>
                Live() == old(Live()) && neighbors.mapping == old(neighbors.mapping)
      ensures res.Pass? && ((row as int, col as int) in old(Live())) != state ==>
                neighbors.Counts == BumpAround(old(neighbors.Counts), rows as int, cols as int, row as int, col as int,
                                               if state then 1 else -1)
      ensures res.Pass? ==> Live() == if state then old(Live()) + {(row as int, col as int)}
                                      else old(Live()) - {(row as int, col as int)}
    {
      res := CheckCell(row, col);
      if res.Fail? {
        return;
      }
      ghost var before := Live();
      var modified: bool;
      var neighbor: int;
      if state {
        modified := cells.Add(row, col);
        neighbor := 1;
      } else {
        modified := cells.Remove(row, col);
        neighbor := -1;
      }
      ghost var after := Live();
      if !modified {
        assert after == before;
        return;
      }
      assert WithinGrid(after, rows as int, cols as int);
      Spread(row, col, neighbor);
      BumpAroundKeepsCounts(old(neighbors.Counts), before, after, rows as int, cols as int, row as int, col as int, neighbor);
      assert cells.Elements == after;
    }

    /** The eight `neighbors.add` calls of a state-changing set, in the source's order. */
    method Spread(row: int32, col: int32, neighbor: int)
      requires 0 <= row < rows && 0 <= col < cols && neighbors.Valid()
      requires neighbors.rows == rows && neighbors.cols == cols
      modifies neighbors
      ensures neighbors.Valid()
      ensures neighbors.Counts == BumpAround(old(neighbors.Counts), rows as int, cols as int, row as int, col as int, neighbor)
    {
      var up, down, left, right := row - 1, row + 1, col - 1, col + 1;
      neighbors.Add(up, right, neighbor); neighbors.Add(up, col, neighbor); neighbors.Add(up, left, neighbor);
      neighbors.Add(row, right, neighbor);                                 neighbors.Add(row, left, neighbor);
      neighbors.Add(down, right, neighbor); neighbors.Add(down, col, neighbor); neighbors.Add(down, left, neighbor);
    }

    /** neighbors: range-checked lookup of the stored count. */
    function GetNeighbors(row: int32, col: int32): (r: Result<int32>)
      requires Valid()
      reads this, cells, neighbors
      ensures r.Success? <==> InBounds(rows as int, cols as int, row as int, col as int)
      ensures r.Success? ==> r.value as int == Neighbors(Live(), rows as int, cols as int, row as int, col as int)
      ensures r.Failure? ==> r.error == IndexOutOfBounds
    {
      var check := CheckCell(row, col);
      if check.Fail? then Failure(check.error) else Success(neighbors.Count(row, col) as int32)
    }

    /** liveCells: the size of the cell set, the population. */
    function LiveCells(): (n: int64)
      requires Valid()
      reads this, cells, neighbors
      ensures n as int == |Live()|
    {
      PopulationBound(Live(), rows as int, cols as int);
      cells.Size() as int64
    }

    /** clear: empties the cell set and the map, so every cell is dead with no live neighbours. */
    method Clear()
      requires Valid()
      modifies cells, neighbors
      ensures Valid() && Live() == {}
      ensures forall r: int32, c: int32 :: neighbors.Count(r, c) == 0
    {
      cells.Clear();
      neighbors.Clear();
    }

    /** forEachAlive: the set's own forEach, so every live cell is passed exactly once. */
    method ForEachAlive() returns (visits: seq<Cell>)
      requires Valid()
      ensures |visits| == |Live()|
      ensures forall p :: p in visits <==> p in Live()
      ensures forall i, j | 0 <= i < j < |visits| :: visits[i] != visits[j]
    {
      visits := cells.ForEach();
    }
  }
}

=== FILE: src/next_gen.dfy ===
/** game/NextGen.java: the delta of one generation, kept apart from the grid: the cells that will
    be born (`spawned`) and those that will die (`died`), each in a CellBag, and `updateGrid`,
    which applies the delta to the grid. The sparse strategies' nested NextGen classes keep their
    delta the same way, in bags of the other growth policy. */
module NextGens {
  import opened JavaInt
  import opened Errors
  import opened LifeRules
  import opened CellBags
  import opened FiniteGrids

  /** The cells of a sequence, as a set. */
  function Members(s: seq<Cell>): set<Cell> {
    set p | p in s
  }

  lemma MembersSnoc(s: seq<Cell>, x: Cell)
    ensures Members(s + [x]) == Members(s) + {x}
  {
  }

  /** The cells a grid holds after a delta: every spawned cell set alive, then every died cell
      set dead. */
  function ApplyBags(live: set<Cell>, spawned: seq<Cell>, died: seq<Cell>): (next: set<Cell>)
    ensures forall p :: p in next <==> (p in live || p in spawned) && p !in died
  {
    (live + Members(spawned)) - Members(died)
  }

  /** When no cell is both spawned and died, the order in which the two bags are applied does
      not matter. */
  lemma ApplyOrderFree(live: set<Cell>, spawned: seq<Cell>, died: seq<Cell>)
    requires forall p | p in spawned :: p !in died
    ensures ApplyBags(live, spawned, died) == (live - Members(died)) + Members(spawned)
  {
  }

  /** No cell occurs twice in s. */
  predicate Distinct(s: seq<Cell>) {
    forall i, j | 0 <= i < j < |s| :: s[i] != s[j]
  }

  /** A sequence without repeats has as many elements as its set. */
  lemma {:induction false} DistinctMembers(s: seq<Cell>)
    requires Distinct(s)
    ensures |Members(s)| == |s|
  {
    if s != [] {
      var init := s[..|s| - 1];
      assert s == init + [s[|s| - 1]];
      MembersSnoc(init, s[|s| - 1]);
      DistinctMembers(init);
    }
  }

  /** Bags holding exactly the births and the deaths of a generation turn the grid into the next
      generation. */
  lemma ApplyStep(live: set<Cell>, rows: int, cols: int, spawned: seq<Cell>, died: seq<Cell>)
    requires WithinGrid(live, rows, cols)
    requires Members(spawned) == Births(live, rows, cols) && Members(died) == Deaths(live, rows, cols)
    ensures ApplyBags(live, spawned, died) == Step(live, rows, cols)
  {
    ApplyDelta(live, rows, cols);
  }

  class NextGen {
    const grid: FiniteGrid
    const spawned: CellBag
    const died: CellBag
    ghost var Repr: set<object>

    ghost predicate Valid()
      reads this, Repr
    {
      && this in Repr && spawned in Repr && died in Repr
      && spawned.Repr <= Repr && died.Repr <= Repr
      && Repr == {this} + spawned.Repr + died.Repr
      && this !in spawned.Repr && this !in died.Repr && spawned.Repr !! died.Repr
      && grid !in Repr
      && spawned.Valid() && died.Valid()
      && spawned.growth == died.growth
    }

    /** Two empty bags of the given growth policy. */
    constructor (grid: FiniteGrid, growth: Growth)
      ensures Valid() && fresh(Repr) && this.grid == grid
      ensures spawned.Contents == [] && died.Contents == [] && spawned.growth == growth
    {
      this.grid := grid;
      spawned := new CellBag(growth);
      died := new CellBag(growth);
      new;
      Repr := {this} + spawned.Repr + died.Repr;
    }

    /** willDie: appends the cell to `died`; a full bag of MAX_ARRAY_LENGTH cells throws. */
    method WillDie(row: int32, col: int32) returns (res: Outcome)
      requires Valid()
      modifies Repr
      ensures Valid() && fresh(Repr - old(Repr))
      ensures res.Pass? <==> |old(died.Contents)| < MAX_ARRAY_LENGTH as int
      ensures res.Pass? ==> died.Contents == old(died.Contents) + [(row as int, col as int)]
      ensures res.Fail? ==> res.error == CellBagTooBig && died.Contents == old(died.Contents)
      ensures spawned.Contents == old(spawned.Contents)
    {
      res := died.Add(row, col);
      Repr := {this} + spawned.Repr + died.Repr;
    }

    /** willSpawn: appends the cell to `spawned`; a full bag of MAX_ARRAY_LENGTH cells throws. */
    method WillSpawn(row: int32, col: int32) returns (res: Outcome)
      requires Valid()
      modifies Repr
      ensures Valid() && fresh(Repr - old(Repr))
      ensures res.Pass? <==> |old(spawned.Contents)| < MAX_ARRAY_LENGTH as int
      ensures res.Pass? ==> spawned.Contents == old(spawned.Contents) + [(row as int, col as int)]
      ensures res.Fail? ==> res.error == CellBagTooBig && spawned.Contents == old(spawned.Contents)
      ensures died.Contents == old(died.Contents)
    {
      res := spawned.Add(row, col);
      Repr := {this} + spawned.Repr + died.Repr;
    }

    /** updateGrid: `set(row, col, true)` for every spawned cell in insertion order, then
        `set(row, col, false)` for every died cell. The strategies record grid cells only, so
        none of the sets throws. */
    method UpdateGrid()
      requires Valid() && grid.Valid()
      requires forall p | p in spawned.Contents :: InBounds(grid.rows as int, grid.cols as int, p.0, p.1)
      requires forall p | p in died.Contents :: InBounds(grid.rows as int, grid.cols as int, p.0, p.1)
      modifies grid
      ensures grid.Valid()
      ensures grid.live == ApplyBags(old(grid.live), spawned.Contents, died.Contents)
    {
      var born := spawned.ForEach();
      var i := 0;
      while i < |born|
        invariant 0 <= i <= |born|
        invariant grid.Valid()
        invariant grid.live == old(grid.live) + Members(born[..i])
      {
        var p := born[i];
        var _ := grid.Set(p.0 as int32, p.1 as int32, true);
        assert born[..i + 1] == born[..i] + [p];
        MembersSnoc(born[..i], p);
        i := i + 1;
      }
      assert born[..i] == born;
      var dead := died.ForEach();
      var j := 0;
      while j < |dead|
        invariant 0 <= j <= |dead|
        invariant grid.Valid()
        invariant grid.live == (old(grid.live) + Members(born)) - Members(dead[..j])
      {
        var p := dead[j];
        var _ := grid.Set(p.0 as int32, p.1 as int32, false);
        assert dead[..j + 1] == dead[..j] + [p];
        MembersSnoc(dead[..j], p);
        j := j + 1;
      }
      assert dead[..j] == dead;
    }
  }
}

=== FILE: src/padded_grid.dfy ===
/** PaddedInMemoryGrid.java: the cells live in a (rows + 2) x (columns + 2) boolean matrix whose
    outer ring (row 0, row rows + 1, column 0, column columns + 1) starts dead, so as long as no
    set() writes it `neighbors` can read all eight neighbours of any grid cell without range
    checks. Cell (r, c) is stored at grid[r + 1][c + 1]. */
module PaddedGrids {
  import opened JavaInt
  import opened Errors
  import opened LifeRules
  import opened FiniteGrids

  /** PaddedInMemoryGrid.PADDING */
  const PADDING: int32 := 1

  /** The length `n + 2` that initGrid allocates, computed in 32-bit arithmetic. */
  function PaddedLength(n: int32): int32 {
    Wrap32(n as int + 2)
  }

  /** The padded length is the intended n + 2 exactly when that fits in an int; for the two
      largest counts it wraps negative and the allocation throws. */
  lemma PaddedLengthWraps(n: int32)
    requires n >= MIN_SIZE
    ensures PaddedLength(n) >= 0 <==> n <= INT_MAX - 2
    ensures n <= INT_MAX - 2 ==> PaddedLength(n) as int == n as int + 2
  {
  }

  /** The matrix has the padded shape of a rows x cols grid. */
  predicate PaddedDims(grid: array2<bool>, rows: int, cols: int) {
    1 <= rows && 1 <= cols && grid.Length0 == rows + 2 && grid.Length1 == cols + 2
  }

  /** Every entry of the ring around the grid is false. */
  ghost predicate DeadRing(grid: array2<bool>, rows: int, cols: int)
    reads grid
  {
    forall a, b | 0 <= a < grid.Length0 && 0 <= b < grid.Length1 && !InBounds(rows, cols, a - 1, b - 1) :: !grid[a, b]
  }

  /** The matrix is a padded picture of some rows x cols grid: the right shape, a dead ring. */
  ghost predicate PaddedShape(grid: array2<bool>, rows: int, cols: int)
    reads grid
  {
    PaddedDims(grid, rows, cols) && DeadRing(grid, rows, cols)
  }

  /** The live cells of a padded matrix: the interior entries that are true. */
  ghost function LiveOf(grid: array2<bool>, rows: int, cols: int): (s: set<Cell>)
    requires PaddedDims(grid, rows, cols)
    reads grid
    ensures forall p :: p in s <==> InBounds(rows, cols, p.0, p.1) && grid[p.0 + 1, p.1 + 1]
  {
    set p | p in AllCells(rows, cols) && grid[p.0 + 1, p.1 + 1]
  }

  /** Every true entry of the matrix, ring included, in padded coordinates. */
  ghost function Entries(grid: array2<bool>): (s: set<Cell>)
    reads grid
    ensures forall p :: p in s <==> 0 <= p.0 < grid.Length0 && 0 <= p.1 < grid.Length1 && grid[p.0, p.1]
  {
    set a, b | 0 <= a < grid.Length0 && 0 <= b < grid.Length1 && grid[a, b] :: (a, b)
  }

  /** value(row, col) on padded coordinates: 1 for a true entry. */
  function ValueAt(grid: array2<bool>, a: int, b: int): int
    requires 0 <= a < grid.Length0 && 0 <= b < grid.Length1
    reads grid
  {
    if grid[a, b] then 1 else 0
  }

  /** An interior entry is the state of the grid cell one up and one left of it. */
  lemma EntryAt(grid: array2<bool>, rows: int, cols: int, a: int, b: int)
    requires PaddedShape(grid, rows, cols) && 1 <= a <= rows && 1 <= b <= cols
    ensures grid[a, b] <==> (a - 1, b - 1) in LiveOf(grid, rows, cols)
  {
  }

  /** A padded read is the value of the grid cell one up and one left of it. */
  lemma ValueAtCell(grid: array2<bool>, rows: int, cols: int, a: int, b: int)
    requires PaddedDims(grid, rows, cols) && 0 <= a < grid.Length0 && 0 <= b < grid.Length1
    ensures DeadRing(grid, rows, cols) ==> ValueAt(grid, a, b) == LifeRules.Value(LiveOf(grid, rows, cols), rows, cols, a - 1, b - 1)
  {
  }

  /** Thanks to the dead ring, the eight padded reads around grid cell (row, col), in the order
      neighbors() adds them, count its live neighbours. */
  lemma PaddedNeighborsOf(grid: array2<bool>, rows: int, cols: int, row: int, col: int)
    requires PaddedShape(grid, rows, cols) && InBounds(rows, cols, row, col)
    ensures ValueAt(grid, row, col + 2) + ValueAt(grid, row, col + 1) + ValueAt(grid, row, col) +
            ValueAt(grid, row + 1, col + 2) + ValueAt(grid, row + 1, col) +
            ValueAt(grid, row + 2, col + 2) + ValueAt(grid, row + 2, col + 1) + ValueAt(grid, row + 2, col)
            == Neighbors(LiveOf(grid, rows, cols), rows, cols, row, col)
  {
    ValueAtCell(grid, rows, cols, row, col + 2);
    ValueAtCell(grid, rows, cols, row, col + 1);
    ValueAtCell(grid, rows, cols, row, col);
    ValueAtCell(grid, rows, cols, row + 1, col + 2);
    ValueAtCell(grid, rows, cols, row + 1, col);
    ValueAtCell(grid, rows, cols, row + 2, col + 2);
    ValueAtCell(grid, rows, cols, row + 2, col + 1);
    ValueAtCell(grid, rows, cols, row + 2, col);
  }

  /** initGrid: the dimension checks, then an all-false padded matrix. */
  method InitGrid(rows: int32, cols: int32) returns (res: Result<array2<bool>>)
    ensures res.Success? <==> MIN_SIZE <= rows <= INT_MAX - 2 && MIN_SIZE <= cols <= INT_MAX - 2
    ensures DimensionCheckAsWritten(rows, cols).Fail? ==> res == Failure(DimensionCheckAsWritten(rows, cols).error)
    ensures DimensionCheckAsWritten(rows, cols).Pass? && res.Failure? ==> res.error == NegativeArraySize
    ensures res.Success? ==> fresh(res.value) && PaddedShape(res.value, rows as int, cols as int)
    ensures res.Success? ==> forall a, b | 0 <= a < res.value.Length0 && 0 <= b < res.value.Length1 :: !res.value[a, b]
  {
    var check := DimensionCheckAsWritten(rows, cols);
    if check.Fail? {
      return Failure(check.error);
    }
    PaddedLengthWraps(rows);
    PaddedLengthWraps(cols);
    var paddedRows := PaddedLength(rows);
    var paddedCols := PaddedLength(cols);
    if paddedRows < 0 || paddedCols < 0 {
      return Failure(NegativeArraySize);
    }
    var grid := new bool[paddedRows, paddedCols]((_, _) => false);
    return Success(grid);
  }

  /** buildGrid: initGrid, then each existing row of the initial matrix copied into the interior,
      truncated to the grid; short and null rows leave the rest dead. */
  method BuildGrid(initial: Matrix, rows: int32, cols: int32) returns (res: Result<array2<bool>>)
    ensures res.Success? <==> MIN_SIZE <= rows <= INT_MAX - 2 && MIN_SIZE <= cols <= INT_MAX - 2
    ensures DimensionCheckAsWritten(rows, cols).Fail? ==> res == Failure(DimensionCheckAsWritten(rows, cols).error)
    ensures DimensionCheckAsWritten(rows, cols).Pass? && res.Failure? ==> res.error == NegativeArraySize
    ensures res.Success? ==> fresh(res.value) && PaddedShape(res.value, rows as int, cols as int)
    ensures res.Success? ==> forall p: Cell | InBounds(rows as int, cols as int, p.0, p.1) ::
                               res.value[p.0 + 1, p.1 + 1] == (Entry(initial, p.0, p.1) == Some(true))
  {
    res := InitGrid(rows, cols);
    if res.Failure? || initial.None? {
      return;
    }
    var grid := res.value;
    var m := initial.value;
    var rowsLength := if rows as int < |m| then rows as int else |m|;
    var i := 0;
    while i < rowsLength
      invariant 0 <= i <= rowsLength
      invariant PaddedShape(grid, rows as int, cols as int)
      invariant forall p: Cell | InBounds(rows as int, cols as int, p.0, p.1) ::
                  grid[p.0 + 1, p.1 + 1] == (p.0 < i && Entry(initial, p.0, p.1) == Some(true))
    {
      if m[i].Some? {
        var row := m[i].value;
        var columnLength := if cols as int < |row| then cols as int else |row|;
        // System.arraycopy(row, 0, grid[i + 1], PADDING, columnLength)
        var j := 0;
        while j < columnLength
          invariant 0 <= j <= columnLength
          invariant PaddedShape(grid, rows as int, cols as int)
          invariant forall p: Cell | InBounds(rows as int, cols as int, p.0, p.1) ::
                      grid[p.0 + 1, p.1 + 1] == ((p.0 < i || (p.0 == i && p.1 < j)) && Entry(initial, p.0, p.1) == Some(true))
        {
          grid[i + 1, j + PADDING as int] := row[j];
          j := j + 1;
        }
      }
      i := i + 1;
    }
  }

  class PaddedInMemoryGrid {
    const grid: array2<bool>
    const rows: int32
    const cols: int32
    const upperRowBound: int32
    const upperColBound: int32

    ghost predicate Valid()
      reads this
    {
      && PaddedDims(grid, rows as int, cols as int)
      && upperRowBound as int == rows as int + 1
      && upperColBound as int == cols as int + 1
    }

    /** The ring holds no true entry, as every constructor leaves it; only a set() on the ring
        breaks this. */
    ghost predicate RingDead()
      reads this, grid
    {
      DeadRing(grid, rows as int, cols as int)
    }

    /** The live cells: the interior entries that are true. */
    ghost function Live(): (s: set<Cell>)
      requires Valid()
      reads this, grid
      ensures forall p :: p in s <==> InBounds(rows as int, cols as int, p.0, p.1) && grid[p.0 + 1, p.1 + 1]
    {
      LiveOf(grid, rows as int, cols as int)
    }

    constructor (grid: array2<bool>, rows: int32, cols: int32)
      requires PaddedShape(grid, rows as int, cols as int) && rows < INT_MAX && cols < INT_MAX
      ensures Valid() && RingDead() && this.grid == grid && this.rows == rows && this.cols == cols
    {
      this.grid := grid;
      this.rows := rows;
      this.cols := cols;
      this.upperRowBound := rows + 1;
      this.upperColBound := cols + 1;
    }

    /** new PaddedInMemoryGrid(initial, rows, columns): the grid holding the initial matrix's true
        entries, or the exception buildGrid throws. */
    static method Create(initial: Matrix, rows: int32, cols: int32) returns (res: Result<PaddedInMemoryGrid>)
      ensures res.Success? <==> MIN_SIZE <= rows <= INT_MAX - 2 && MIN_SIZE <= cols <= INT_MAX - 2
      ensures DimensionCheckAsWritten(rows, cols).Fail? ==> res == Failure(DimensionCheckAsWritten(rows, cols).error)
      ensures DimensionCheckAsWritten(rows, cols).Pass? && res.Failure? ==> res.error == NegativeArraySize
      ensures res.Success? ==> fresh(res.value) && fresh(res.value.grid) && res.value.Valid() && res.value.RingDead()
      ensures res.Success? ==> res.value.rows == rows && res.value.cols == cols
      ensures res.Success? ==> res.value.Live() == TrueEntries(initial, rows as int, cols as int)
    {
      var built := BuildGrid(initial, rows, cols);
      if built.Failure? {
        return Failure(built.error);
      }
      var g := new PaddedInMemoryGrid(built.value, rows, cols);
      return Success(g);
    }

    /** get(row, col) reads grid[row + 1][col + 1] with no range check: the ring around the grid
        reads its own entries (dead unless set() wrote there), anything further out throws. */
    function Get(row: int32, col: int32): (r: Result<bool>)
      requires Valid()
      reads this, grid
      ensures r.Success? <==> -1 <= row as int <= rows as int && -1 <= col as int <= cols as int
      ensures r.Success? && InBounds(rows as int, cols as int, row as int, col as int) ==> (r.value <==> (row as int, col as int) in Live())
      ensures r.Success? ==> (r.value <==> (row as int + 1, col as int + 1) in Entries(grid))
      ensures r.Success? && RingDead() ==> (r.value <==> (row as int, col as int) in Live())
      ensures r.Failure? ==> r.error == ArrayIndexOutOfBounds
    {
      var a := Wrap32(row as int + 1);
      var b := Wrap32(col as int + 1);
      if 0 <= a < grid.Length0 && 0 <= b < grid.Length1 then Success(grid[a, b])
      else Failure(ArrayIndexOutOfBounds)
    }

    /** set(row, col, state) writes grid[row + 1][col + 1] with no range check: a position on the
        ring is written like any other, so setting one alive breaks the dead ring that neighbors()
        counts on; anything further out throws and changes nothing. */
    method Set(row: int32, col: int32, state: bool) returns (res: Outcome)
      requires Valid()
      modifies grid
      ensures Valid()
      ensures res.Pass? <==> -1 <= row as int <= rows as int && -1 <= col as int <= cols as int
      ensures res.Fail? ==> res.error == ArrayIndexOutOfBounds
      ensures res.Pass? ==> grid[row as int + 1, col as int + 1] == state
      ensures forall a, b | 0 <= a < grid.Length0 && 0 <= b < grid.Length1 && (res.Fail? || (a, b) != (row as int + 1, col as int + 1)) ::
                grid[a, b] == old(grid[a, b])
      ensures Live() == if res.Pass? && InBounds(rows as int, cols as int, row as int, col as int) then
                          (if state then old(Live()) + {(row as int, col as int)} else old(Live()) - {(row as int, col as int)})
                        else old(Live())
      ensures old(RingDead()) && (res.Fail? || !state || InBounds(rows as int, cols as int, row as int, col as int)) ==> RingDead()
      ensures res.Pass? && state && !InBounds(rows as int, cols as int, row as int, col as int) ==> !RingDead()
    {
      var a := Wrap32(row as int + 1);
      var b := Wrap32(col as int + 1);
      if !(0 <= a < grid.Length0 && 0 <= b < grid.Length1) {
        return Fail(ArrayIndexOutOfBounds);
      }
      grid[a, b] := state;
      return Pass;
    }

    /** set(row, col, state) guarded by checkIndex(row, col), as the other grids guard it: only a
        grid cell is written, so the dead ring survives every call. */
    method SetChecked(row: int32, col: int32, state: bool) returns (res: Outcome)
      requires Valid()
      modifies grid
      ensures Valid()
      ensures res.Pass? <==> InBounds(rows as int, cols as int, row as int, col as int)
      ensures res.Fail? ==> res.error == IndexOutOfBounds
      ensures Live() == if res.Pass? then
                          (if state then old(Live()) + {(row as int, col as int)} else old(Live()) - {(row as int, col as int)})
                        else old(Live())
      ensures old(RingDead()) ==> RingDead()
    {
      if !(0 <= row < rows && 0 <= col < cols) {
        return Fail(IndexOutOfBounds);
      }
      res := Set(row, col, state);
    }

    /** value(row, col) on padded coordinates. */
    function Value(a: int, b: int): (v: int)
      requires Valid() && 0 <= a < grid.Length0 && 0 <= b < grid.Length1
      reads this, grid
      ensures v == LifeRules.Value(Entries(grid), grid.Length0, grid.Length1, a, b)
      ensures RingDead() ==> v == LifeRules.Value(Live(), rows as int, cols as int, a - 1, b - 1)
    {
      ValueAtCell(grid, rows as int, cols as int, a, b);
      ValueAt(grid, a, b)
    }

    /** neighbors(row, col): the sum of value() over the eight padded neighbours, so it counts
        the true entries of the matrix around the cell, ring included. With the ring dead that is
        the cell's live neighbours. Off the grid one of those reads falls outside the matrix and
        throws. */
    function GetNeighbors(row: int32, col: int32): (r: Result<int32>)
      requires Valid()
      reads this, grid
      ensures r.Success? <==> InBounds(rows as int, cols as int, row as int, col as int)
      ensures r.Success? ==> r.value as int == Neighbors(Entries(grid), grid.Length0, grid.Length1, row as int + 1, col as int + 1)
      ensures r.Success? && RingDead() ==> r.value as int == Neighbors(Live(), rows as int, cols as int, row as int, col as int)
      ensures r.Failure? ==> r.error == ArrayIndexOutOfBounds
    {
      if !(0 <= row < rows && 0 <= col < cols) then Failure(ArrayIndexOutOfBounds)
      else
        // up = row, down = row + 2, left = col, right = col + 2 in padded coordinates
        PaddedNeighbors(row as int, col as int);
        Success((Value(row as int, col as int + 2) + Value(row as int, col as int + 1) + Value(row as int, col as int) +
                 Value(row as int + 1, col as int + 2) + Value(row as int + 1, col as int) +
                 Value(row as int + 2, col as int + 2) + Value(row as int + 2, col as int + 1) + Value(row as int + 2, col as int)) as int32)
    }

    /** Thanks to the dead ring, the eight padded reads around a grid cell count its live
        neighbours. */
    lemma PaddedNeighbors(row: int, col: int)
      requires Valid() && InBounds(rows as int, cols as int, row, col)
      ensures RingDead() ==>
              Value(row, col + 2) + Value(row, col + 1) + Value(row, col) +
              Value(row + 1, col + 2) + Value(row + 1, col) +
              Value(row + 2, col + 2) + Value(row + 2, col + 1) + Value(row + 2, col)
              == Neighbors(Live(), rows as int, cols as int, row, col)
    {
      if RingDead() {
        PaddedNeighborsOf(grid, rows as int, cols as int, row, col);
      }
    }

    /** What set(-1, 0, true) leaves in an empty grid: no cell is alive, yet get(-1, 0) reads
        true and neighbors(0, 0) counts one neighbour. */
    lemma RingWriteCountsPhantom()
      requires Valid()
      requires forall a, b | 0 <= a < grid.Length0 && 0 <= b < grid.Length1 :: grid[a, b] == (a == 0 && b == 1)
      ensures Live() == {} && Neighbors(Live(), rows as int, cols as int, 0, 0) == 0
      ensures Get(-1, 0) == Success(true)
      ensures GetNeighbors(0, 0) == Success(1)
    {
      assert (0, 1) in Entries(grid);
      assert forall p | p in Entries(grid) :: p == (0, 1);
    }

    /** snapshot(): a fresh rows x columns copy of the interior. */
    method Snapshot() returns (snap: array2<bool>)
      requires Valid()
      ensures fresh(snap) && snap.Length0 == rows as int && snap.Length1 == cols as int
      ensures forall i, j | 0 <= i < rows as int && 0 <= j < cols as int :: snap[i, j] == ((i, j) in Live())
    {
      snap := new bool[rows, cols]((_, _) => false);
      var i := 0;
      while i < rows
        invariant 0 <= i <= rows
        invariant forall a, b | 0 <= a < rows as int && 0 <= b < cols as int :: snap[a, b] == (a < i as int && grid[a + 1, b + 1])
      {
        // Arrays.copyOfRange(grid[i + PADDING], PADDING, upperColBound)
        var j := PADDING;
        while j < upperColBound
          invariant PADDING <= j <= upperColBound
          invariant forall a, b | 0 <= a < rows as int && 0 <= b < cols as int ::
                      snap[a, b] == ((a < i as int || (a == i as int && b + 1 < j as int)) && grid[a + 1, b + 1])
        {
          snap[i, j - PADDING] := grid[i + PADDING, j];
          j := j + 1;
        }
        i := i + 1;
      }
    }

    /** clear(): copies columns 1 .. columns + 1 of row 0 over every interior row, the right ring
        column included. With the ring dead that kills every cell and keeps the ring dead. */
    method Clear()
      requires Valid()
      modifies grid
      ensures Valid()
      ensures forall a, b | 0 <= a < grid.Length0 && 0 <= b < grid.Length1 ::
                grid[a, b] == if 1 <= a <= rows as int && 1 <= b <= cols as int + 1 then old(grid[0, b]) else old(grid[a, b])
      ensures old(RingDead()) ==> RingDead() && Live() == {}
    {
      var i := PADDING;
      while i < upperRowBound
        invariant PADDING <= i <= upperRowBound
        invariant forall a, b | 0 <= a < grid.Length0 && 0 <= b < grid.Length1 ::
                    grid[a, b] == if 1 <= a < i as int && 1 <= b <= cols as int + 1 then old(grid[0, b]) else old(grid[a, b])
      {
        // System.arraycopy(grid[0], PADDING, grid[i], PADDING, upperColBound)
        var k := 0;
        while k < upperColBound
          invariant 0 <= k <= upperColBound
          invariant forall a, b | 0 <= a < grid.Length0 && 0 <= b < grid.Length1 ::
                      grid[a, b] == if (1 <= a < i as int || (a == i as int && b < PADDING as int + k as int)) && 1 <= b <= cols as int + 1
                                    then old(grid[0, b]) else old(grid[a, b])
        {
          grid[i, PADDING + k] := grid[0, PADDING + k];
          k := k + 1;
        }
        i := i + 1;
      }
    }

    /** getSize(): (long) columns * rows. */
    function GetSize(): (n: int64)
      requires Valid()
      reads this, grid
      ensures n as int == rows as int * cols as int
    {
      GridSize(cols, rows)
    }
  }
}

=== FILE: src/parallel_tiling.dfy ===
/** GameOfLife.ParallelProgressStrategy, on values: the tiling of the grid into chunks of
    chunkWidth rows by chunkHeight columns, and the account of the deltas the chunks record.
    Coordinates are grid coordinates (padded ones less one) unless a name says otherwise. */
module ParallelTiling {
  import opened JavaInt
  import opened LifeRules
  import opened NextGens
  import ChunkedProgress

  /** `toRow = fromRow + chunkWidth` (and `toCol`) as written: an int sum, which wraps. */
  function TileEndAsWritten(from: int32, side: int32): int32 {
    Wrap32(from as int + side as int)
  }

  /** The end of a tile summed without wrap-around and saturated at Integer.MAX_VALUE, which
      progressChunk then clamps to the grid: a tile never ends before it starts. */
  function TileEnd(from: int32, side: int32): (e: int32)
    requires side >= 0
    ensures from as int + side as int <= INT_MAX as int ==> e as int == from as int + side as int
    ensures from as int + side as int > INT_MAX as int ==> e == INT_MAX
  {
    if from as int + side as int > INT_MAX as int then INT_MAX else (from as int + side as int) as int32
  }

  /** The clamped end of a tile that starts inside a grid of at most INT_MAX - 2 rows: exactly
      the smaller of the grid's end and the tile's unwrapped end, never before the start. */
  lemma ClampedTileEnd(upper: int32, from: int32, side: int32)
    requires 1 <= from < upper <= INT_MAX - 1 && side >= 1
    ensures var e := ChunkedProgress.Min(upper, TileEnd(from, side)) as int;
            from as int < e && (e == upper as int || e == from as int + side as int) && e <= from as int + side as int
  {
  }

  /** On a grid of two rows (upperRowBound 3, a padded matrix of 4 rows), a chunk side of
      Integer.MAX_VALUE makes the first band's toRow wrap to Integer.MIN_VALUE, so that band is
      clamped to nothing. `row += chunkWidth` wraps the same way, so a second band starts at
      Integer.MIN_VALUE, still below upperRowBound; it is clamped to [MIN_VALUE, -1), which is not
      empty, and its first cell reads the row above, `row - 1`, which wraps to Integer.MAX_VALUE,
      outside the matrix: that chunk throws. The counter goes on to -1, a third band that reads
      row -1, and then to MAX_VALUE - 1, where the loop ends. The unwrapped, saturated end covers
      the two rows in one band. */
  lemma TileEndOverflow()
    ensures TileEndAsWritten(1, INT_MAX) == -0x8000_0000
    ensures ChunkedProgress.Min(3, TileEndAsWritten(1, INT_MAX)) < 1
    ensures TileEndAsWritten(1, INT_MAX) < 3
    ensures var second := TileEndAsWritten(1, INT_MAX);
            var end := ChunkedProgress.Min(3, TileEndAsWritten(second, INT_MAX));
            var third := TileEndAsWritten(second, INT_MAX);
            second < end && Wrap32(second as int - 1) as int >= 4 &&
            third == -1 && TileEndAsWritten(third, INT_MAX) >= 3
    ensures ChunkedProgress.Min(3, TileEnd(1, INT_MAX)) == 3
  {
    assert Wrap32(0x8000_0000) == -0x8000_0000;
    assert Wrap32(-0x8000_0001) == INT_MAX;
    assert Wrap32(-1) == -1;
    assert Wrap32(INT_MAX as int - 1) == INT_MAX - 1;
  }

  /** The cells of every part, as one set. */
  ghost function Cells(parts: seq<seq<Cell>>): set<Cell>
    decreases |parts|
  {
    if parts == [] then {} else Cells(parts[..|parts| - 1]) + Members(parts[|parts| - 1])
  }

  lemma CellsSnoc(parts: seq<seq<Cell>>, part: seq<Cell>)
    ensures Cells(parts + [part]) == Cells(parts) + Members(part)
  {
    assert (parts + [part])[..|parts|] == parts;
  }

  /** The empty prefix holds nothing, the whole prefix all of the cells. */
  lemma CellsEnds(parts: seq<seq<Cell>>)
    ensures Cells(parts[..0]) == {} && Cells(parts[..|parts|]) == Cells(parts)
  {
    assert parts[..0] == [];
    assert parts[..|parts|] == parts;
  }

  lemma CellsTake(parts: seq<seq<Cell>>, k: int)
    requires 0 <= k < |parts|
    ensures Cells(parts[..k + 1]) == Cells(parts[..k]) + Members(parts[k])
  {
    assert parts[..k + 1][..k] == parts[..k];
  }

  /** A part, and every prefix of the parts, holds no cell the parts do not hold. */
  lemma {:induction false} CellsPart(parts: seq<seq<Cell>>, k: int)
    requires 0 <= k < |parts|
    ensures Members(parts[k]) <= Cells(parts) && Cells(parts[..k]) <= Cells(parts)
    decreases |parts|
  {
    var init := parts[..|parts| - 1];
    if k < |parts| - 1 {
      CellsPart(init, k);
      assert init[k] == parts[k] && init[..k] == parts[..k];
    } else {
      assert parts[..k] == init;
    }
  }

  /** Every cell lies in the rows x cols grid. */
  predicate Inside(cells: set<Cell>, rows: int, cols: int) {
    forall q | q in cells :: InBounds(rows, cols, q.0, q.1)
  }

  /** The births and the deaths of a generation lie in the grid. */
  lemma DeltaInside(live: set<Cell>, rows: int, cols: int)
    requires WithinGrid(live, rows, cols)
    ensures Inside(Births(live, rows, cols), rows, cols) && Inside(Deaths(live, rows, cols), rows, cols)
  {
    forall q | q in Births(live, rows, cols) || q in Deaths(live, rows, cols)
      ensures InBounds(rows, cols, q.0, q.1)
    {
      DeltaCells(live, rows, cols, q);
    }
  }

  /** The tiles laid so far: every row before bandRow, and the columns before col of the band
      [bandRow, bandEnd). */
  predicate Swept(q: Cell, bandRow: int, bandEnd: int, col: int) {
    q.0 < bandRow || (bandRow <= q.0 < bandEnd && q.1 < col)
  }

  /** The swept cells among `cells`. */
  function SweptOf(cells: set<Cell>, bandRow: int, bandEnd: int, col: int): set<Cell> {
    set q | q in cells && Swept(q, bandRow, bandEnd, col)
  }

  /** The cells the chunks so far have recorded are exactly the swept births and the swept
      deaths. */
  predicate Accounted(births: set<Cell>, deaths: set<Cell>, spawned: set<Cell>, died: set<Cell>,
                      bandRow: int, bandEnd: int, col: int)
  {
    && spawned == SweptOf(births, bandRow, bandEnd, col)
    && died == SweptOf(deaths, bandRow, bandEnd, col)
  }

  /** Before the first tile nothing is swept and nothing is recorded. */
  lemma NothingSwept(births: set<Cell>, deaths: set<Cell>, rows: int, cols: int)
    requires Inside(births, rows, cols) && Inside(deaths, rows, cols)
    ensures Accounted(births, deaths, {}, {}, 0, 0, 0)
  {
    assert SweptOf(births, 0, 0, 0) == {};
    assert SweptOf(deaths, 0, 0, 0) == {};
  }

  /** A band opens: widening its end sweeps no cell while no column of it is swept. */
  lemma BandStart(births: set<Cell>, deaths: set<Cell>, rows: int, cols: int, spawned: set<Cell>, died: set<Cell>,
                  bandRow: int, bandEnd: int)
    requires Inside(births, rows, cols) && Inside(deaths, rows, cols)
    requires Accounted(births, deaths, spawned, died, bandRow, bandRow, 0)
    ensures Accounted(births, deaths, spawned, died, bandRow, bandEnd, 0)
  {
    assert SweptOf(births, bandRow, bandRow, 0) == SweptOf(births, bandRow, bandEnd, 0);
    assert SweptOf(deaths, bandRow, bandRow, 0) == SweptOf(deaths, bandRow, bandEnd, 0);
  }

  /** A chunk over the tile [r0, r1) x [c0, c1) recorded in d exactly the deaths of the tile
      and in s exactly its births. */
  ghost predicate TileRecorded(births: set<Cell>, deaths: set<Cell>, s: seq<Cell>, d: seq<Cell>,
                               r0: int, c0: int, r1: int, c1: int)
  {
    && (forall q :: q in d <==> q in deaths && ChunkedProgress.InRect(q, r0, c0, r1, c1))
    && (forall q :: q in s <==> q in births && ChunkedProgress.InRect(q, r0, c0, r1, c1))
  }

  /** One tile [bandRow, bandEnd) x [col, tileEnd) of the band, whose chunk recorded its births
      s and deaths d: the swept columns reach the next tile's start, nextCol, which is tileEnd
      unless the tile was clamped at the grid's last column. */
  lemma TileStep(births: set<Cell>, deaths: set<Cell>, rows: int, cols: int, spawned: set<Cell>, died: set<Cell>,
                 s: seq<Cell>, d: seq<Cell>, bandRow: int, bandEnd: int, col: int, tileEnd: int, nextCol: int)
    requires Inside(births, rows, cols) && Inside(deaths, rows, cols)
    requires Accounted(births, deaths, spawned, died, bandRow, bandEnd, col)
    requires TileRecorded(births, deaths, s, d, bandRow, col, bandEnd, tileEnd)
    requires col <= tileEnd && (nextCol == tileEnd || (tileEnd == cols && nextCol >= cols))
    ensures Accounted(births, deaths, spawned + Members(s), died + Members(d), bandRow, bandEnd, nextCol)
  {
    assert SweptOf(births, bandRow, bandEnd, nextCol) == spawned + Members(s);
    assert SweptOf(deaths, bandRow, bandEnd, nextCol) == died + Members(d);
  }

  /** The same step on the parts recorded so far: the chunk's parts are appended to them. */
  lemma TileStepParts(births: set<Cell>, deaths: set<Cell>, rows: int, cols: int, sp: seq<seq<Cell>>, dp: seq<seq<Cell>>,
                      s: seq<Cell>, d: seq<Cell>, bandRow: int, bandEnd: int, col: int, tileEnd: int, nextCol: int)
    requires Inside(births, rows, cols) && Inside(deaths, rows, cols)
    requires Accounted(births, deaths, Cells(sp), Cells(dp), bandRow, bandEnd, col)
    requires TileRecorded(births, deaths, s, d, bandRow, col, bandEnd, tileEnd)
    requires col <= tileEnd && (nextCol == tileEnd || (tileEnd == cols && nextCol >= cols))
    ensures Accounted(births, deaths, Cells(sp + [s]), Cells(dp + [d]), bandRow, bandEnd, nextCol)
  {
    TileStep(births, deaths, rows, cols, Cells(sp), Cells(dp), s, d, bandRow, bandEnd, col, tileEnd, nextCol);
    CellsSnoc(sp, s);
    CellsSnoc(dp, d);
  }

  /** A band closes once its tiles reach the last column: every row before the next band's
      start, nextRow, is swept, which is bandEnd unless the band was clamped at the last row. */
  lemma BandEnd(births: set<Cell>, deaths: set<Cell>, rows: int, cols: int, spawned: set<Cell>, died: set<Cell>,
                bandRow: int, bandEnd: int, col: int, nextRow: int)
    requires Inside(births, rows, cols) && Inside(deaths, rows, cols)
    requires Accounted(births, deaths, spawned, died, bandRow, bandEnd, col)
    requires col >= cols && bandRow <= bandEnd && (nextRow == bandEnd || (bandEnd == rows && nextRow >= rows))
    ensures Accounted(births, deaths, spawned, died, nextRow, nextRow, 0)
  {
    assert SweptOf(births, nextRow, nextRow, 0) == SweptOf(births, bandRow, bandEnd, col);
    assert SweptOf(deaths, nextRow, nextRow, 0) == SweptOf(deaths, bandRow, bandEnd, col);
  }

  /** A chunk [row, bandEnd) x [col, col + side) of the band starting at padded row `row`,
      clamped to the grid as progressChunk clamps it, whose births s and deaths d (grid
      coordinates) were recorded, carries the account of the band on to the next chunk's padded
      column col + side. */
  lemma TileDelta(births: set<Cell>, deaths: set<Cell>, rows: int, cols: int, sp: seq<seq<Cell>>, dp: seq<seq<Cell>>,
                  s: seq<Cell>, d: seq<Cell>, row: int, bandEnd: int, col: int32, upperCol: int32, side: int32)
    requires Inside(births, rows, cols) && Inside(deaths, rows, cols)
    requires upperCol as int == cols + 1 && 1 <= col < upperCol <= INT_MAX - 1 && side >= 1
    requires Accounted(births, deaths, Cells(sp), Cells(dp), row - 1, bandEnd - 1, col as int - 1)
    requires TileRecorded(births, deaths, s, d, row - 1, col as int - 1, bandEnd - 1,
                          ChunkedProgress.Min(upperCol, TileEnd(col, side)) as int - 1)
    ensures Accounted(births, deaths, Cells(sp + [s]), Cells(dp + [d]), row - 1, bandEnd - 1,
                      col as int + side as int - 1)
  {
    var tileEnd := ChunkedProgress.Min(upperCol, TileEnd(col, side)) as int - 1;
    NextTile(cols, col as int, side as int, tileEnd, upperCol, col, side);
    TileStepParts(births, deaths, rows, cols, sp, dp, s, d, row - 1, bandEnd - 1, col as int - 1, tileEnd,
                  col as int + side as int - 1);
  }

  /** The clamped end of a tile in grid coordinates, e, against the next tile's start. */
  lemma NextTile(cols: int, col: int, side: int, e: int, upperCol: int32, c: int32, s: int32)
    requires upperCol as int == cols + 1 && c as int == col && s as int == side
    requires 1 <= c < upperCol <= INT_MAX - 1 && s >= 1
    requires e == ChunkedProgress.Min(upperCol, TileEnd(c, s)) as int - 1
    ensures col - 1 <= e && (col + side - 1 == e || (e == cols && col + side - 1 >= cols))
  {
    ClampedTileEnd(upperCol, c, s);
  }

  /** A band of `side` rows opens at padded row `row`; it ends where progressChunk clamps it. */
  lemma BandOpen(births: set<Cell>, deaths: set<Cell>, rows: int, cols: int, spawned: set<Cell>, died: set<Cell>,
                 row: int32, upper: int32, side: int32)
    requires Inside(births, rows, cols) && Inside(deaths, rows, cols)
    requires upper as int == rows + 1 && 1 <= row < upper <= INT_MAX - 1 && side >= 1
    requires Accounted(births, deaths, spawned, died, row as int - 1, row as int - 1, 0)
    ensures Accounted(births, deaths, spawned, died, row as int - 1, ChunkedProgress.Min(upper, TileEnd(row, side)) as int - 1, 0)
  {
    BandStart(births, deaths, rows, cols, spawned, died, row as int - 1, ChunkedProgress.Min(upper, TileEnd(row, side)) as int - 1);
  }

  /** The band's chunks have passed the last column (padded col at least cols + 1): every row
      before the next band, at padded row row + side, is accounted for. */
  lemma BandClose(births: set<Cell>, deaths: set<Cell>, rows: int, cols: int, spawned: set<Cell>, died: set<Cell>,
                  row: int32, upper: int32, side: int32, col: int)
    requires Inside(births, rows, cols) && Inside(deaths, rows, cols)
    requires upper as int == rows + 1 && 1 <= row < upper <= INT_MAX - 1 && side >= 1 && col >= cols + 1
    requires Accounted(births, deaths, spawned, died, row as int - 1, ChunkedProgress.Min(upper, TileEnd(row, side)) as int - 1, col - 1)
    ensures Accounted(births, deaths, spawned, died, row as int + side as int - 1, row as int + side as int - 1, 0)
  {
    ClampedTileEnd(upper, row, side);
    BandEnd(births, deaths, rows, cols, spawned, died, row as int - 1, ChunkedProgress.Min(upper, TileEnd(row, side)) as int - 1,
            col - 1, row as int + side as int - 1);
  }

  /** Once the bands pass the last row, the chunks have recorded every birth and every death. */
  lemma AllSwept(births: set<Cell>, deaths: set<Cell>, rows: int, cols: int, spawned: set<Cell>, died: set<Cell>, row: int)
    requires Inside(births, rows, cols) && Inside(deaths, rows, cols)
    requires Accounted(births, deaths, spawned, died, row, row, 0) && row >= rows
    ensures spawned == births && died == deaths
  {
    assert SweptOf(births, row, row, 0) == births;
    assert SweptOf(deaths, row, row, 0) == deaths;
  }

  /** Applying one more chunk's delta after those before it: the births of this chunk are no
      deaths of the earlier ones, so spawning them cannot undo an earlier kill. */
  lemma ApplyInTurn(live: set<Cell>, spawned: set<Cell>, died: set<Cell>, s: seq<Cell>, d: seq<Cell>)
    requires Members(s) !! died
    ensures ApplyBags((live + spawned) - died, s, d) == (live + (spawned + Members(s))) - (died + Members(d))
  {
  }
}

=== FILE: src/row_major.dfy ===
/** Row-major order over a rows x cols grid: the order in which the grids' `forEachAlive`
    loops meet the cells (row by row, each row left to right). */
module RowMajor {
  import opened LifeRules

  /** p comes before q in row-major order. */
  predicate Precedes(p: Cell, q: Cell) {
    p.0 < q.0 || (p.0 == q.0 && p.1 < q.1)
  }

  /** The cells of s are in strictly increasing row-major order (so s has no repeats). */
  predicate Increasing(s: seq<Cell>) {
    forall i, j | 0 <= i < j < |s| :: Precedes(s[i], s[j])
  }

  /** What a row-major walk over columns 0 .. cols - 1 has met when it reaches cell (row, col):
      the live cells of the earlier rows and the live cells left of col in this row, in the order
      it met them. */
  function Scan(live: set<Cell>, cols: nat, row: nat, col: nat): seq<Cell>
    decreases row, col
  {
    if col == 0 then
      (if row == 0 then [] else Scan(live, cols, row - 1, cols))
    else
      Scan(live, cols, row, col - 1) + (if (row, col - 1) in live then [(row, col - 1)] else [])
  }

  /** The live cells of a grid in row-major order. */
  function RowMajorLive(live: set<Cell>, rows: nat, cols: nat): seq<Cell> {
    Scan(live, cols, rows, 0)
  }

  /** The cells a walk has passed on reaching (row, col). */
  predicate Passed(p: Cell, cols: int, row: int, col: int) {
    0 <= p.1 < cols && 0 <= p.0 && (p.0 < row || (p.0 == row && p.1 < col))
  }

  /** Stepping over cell (row, col) adds it to the walk exactly when it is live. */
  lemma ScanStep(live: set<Cell>, cols: nat, row: nat, col: nat)
    ensures Scan(live, cols, row, col + 1) ==
            Scan(live, cols, row, col) + (if (row, col) in live then [(row, col)] else [])
  {
  }

  /** Reaching the end of a row is reaching the start of the next one. */
  lemma ScanNextRow(live: set<Cell>, cols: nat, row: nat)
    ensures Scan(live, cols, row, cols) == Scan(live, cols, row + 1, 0)
  {
  }

  /** Stepping over dead cells c1 .. c2 - 1 of a row adds nothing to the walk. */
  lemma {:induction false} ScanSkip(live: set<Cell>, cols: nat, row: nat, c1: nat, c2: nat)
    requires c1 <= c2
    requires forall c | c1 <= c < c2 :: (row, c) !in live
    ensures Scan(live, cols, row, c2) == Scan(live, cols, row, c1)
    decreases c2 - c1
  {
    if c1 < c2 {
      ScanSkip(live, cols, row, c1, c2 - 1);
    }
  }

  /** A walk holds exactly the live cells it has passed. */
  lemma {:induction false} ScanMembers(live: set<Cell>, cols: nat, row: nat, col: nat)
    requires col <= cols
    ensures forall p :: p in Scan(live, cols, row, col) <==> p in live && Passed(p, cols, row, col)
    decreases row, col
  {
    if col == 0 {
      if row > 0 {
        ScanMembers(live, cols, row - 1, cols);
      }
    } else {
      ScanMembers(live, cols, row, col - 1);
    }
  }

  /** A walk meets the cells in increasing row-major order. */
  lemma {:induction false} ScanIncreasing(live: set<Cell>, cols: nat, row: nat, col: nat)
    requires col <= cols
    ensures Increasing(Scan(live, cols, row, col))
    decreases row, col
  {
    if col == 0 {
      if row > 0 {
        ScanIncreasing(live, cols, row - 1, cols);
      }
    } else if (row, col - 1) in live {
      var s := Scan(live, cols, row, col - 1);
      ScanIncreasing(live, cols, row, col - 1);
      ScanMembers(live, cols, row, col - 1);
      IncreasingSnoc(s, (row, col - 1));
    } else {
      ScanIncreasing(live, cols, row, col - 1);
    }
  }

  /** Appending a cell that follows every cell of an increasing sequence keeps it increasing. */
  lemma IncreasingSnoc(s: seq<Cell>, x: Cell)
    requires Increasing(s)
    requires forall y | y in s :: Precedes(y, x)
    ensures Increasing(s + [x])
  {
    forall i, j | 0 <= i < j < |s| + 1 ensures Precedes((s + [x])[i], (s + [x])[j]) {
      if j == |s| {
        assert s[i] in s;
      }
    }
  }

  /** A walk stopped early is a prefix of the walk that goes on to (row2, col2). */
  lemma {:induction false} ScanPrefix(live: set<Cell>, cols: nat, row: nat, col: nat, row2: nat, col2: nat)
    requires col <= cols && col2 <= cols
    requires row < row2 || (row == row2 && col <= col2)
    ensures Scan(live, cols, row, col) <= Scan(live, cols, row2, col2)
    decreases row2, col2
  {
    if row == row2 && col == col2 {
    } else if col2 == 0 {
      ScanPrefix(live, cols, row, col, row2 - 1, cols);
    } else {
      ScanPrefix(live, cols, row, col, row2, col2 - 1);
    }
  }

  /** Every live cell appears in RowMajorLive exactly once, in row-major order, and nothing else
      does. */
  lemma RowMajorLiveIsLive(live: set<Cell>, rows: nat, cols: nat)
    requires WithinGrid(live, rows, cols)
    ensures forall p :: p in RowMajorLive(live, rows, cols) <==> p in live
    ensures Increasing(RowMajorLive(live, rows, cols))
    ensures |RowMajorLive(live, rows, cols)| == |live|
  {
    var s := RowMajorLive(live, rows, cols);
    ScanMembers(live, cols, rows, 0);
    ScanIncreasing(live, cols, rows, 0);
    DistinctCard(s);
    assert (set x | x in s) == live;
  }

  /** A walk that has already met every live cell is the whole row-major listing. */
  lemma ScanComplete(live: set<Cell>, rows: nat, cols: nat, row: nat, col: nat)
    requires WithinGrid(live, rows, cols) && row < rows && col <= cols
    requires |Scan(live, cols, row, col)| == |live|
    ensures Scan(live, cols, row, col) == RowMajorLive(live, rows, cols)
  {
    ScanPrefix(live, cols, row, col, rows, 0);
    RowMajorLiveIsLive(live, rows, cols);
  }

  /** A sequence without repeats has as many elements as its set. */
  lemma {:induction false} DistinctCard(s: seq<Cell>)
    requires Increasing(s)
    ensures |set x | x in s| == |s|
  {
    if s != [] {
      var init := s[..|s| - 1];
      DistinctCard(init);
      assert (set x | x in s) == (set x | x in init) + {s[|s| - 1]};
      assert s[|s| - 1] !in init;
    }
  }

  /** Every cell of the full grid is live, so a walk over it meets every cell it passes. */
  lemma {:induction false} FullScan(rows: nat, cols: nat, row: nat, col: nat)
    requires row <= rows && col <= cols && (row == rows ==> col == 0)
    ensures |Scan(AllCells(rows, cols), cols, row, col)| == row * cols + col
    decreases row, col
  {
    if col == 0 {
      if row > 0 {
        FullScan(rows, cols, row - 1, cols);
        assert (row - 1) * cols + cols == row * cols;
      }
    } else {
      FullScan(rows, cols, row, col - 1);
    }
  }

  /** A grid has rows * cols cells, so at most that many are live. */
  lemma PopulationBound(live: set<Cell>, rows: nat, cols: nat)
    requires WithinGrid(live, rows, cols)
    ensures |live| <= rows * cols
  {
    var all := AllCells(rows, cols);
    FullScan(rows, cols, rows, 0);
    RowMajorLiveIsLive(all, rows, cols);
    assert live <= all;
    SubsetCard(live, all);
  }

  lemma SubsetCard<T>(a: set<T>, b: set<T>)
    requires a <= b
    ensures |a| <= |b|
  {
    assert b == a + (b - a);
  }

  lemma MulMonotone(a: int, b: int, cols: int)
    requires a <= b && cols > 0
    ensures a * cols <= b * cols
  {
    assert b * cols - a * cols == (b - a) * cols;
  }
}

=== FILE: src/sparse_progress.dfy ===
/** AbstractProgressStrategy.java and AllAtOnceProgressStrategy.java: the sparse rule. Instead of
    scanning the whole grid, `evaluate` looks at each live cell (the grid's forEachAlive order),
    records it in `died` when it dies, and `visit`s its eight neighbours: each dead grid cell met
    for the first time (the `visited` set remembers packed coordinates) is recorded in `spawned`
    when it has three live neighbours. Only then is the delta applied to the grid. The listener
    hears onCellDied and onCellSpawned for every recorded cell. */
module SparseProgress {
  import opened JavaInt
  import opened Errors
  import opened LifeRules
  import opened RowMajor
  import opened CellSets
  import opened CellBags
  import opened FiniteGrids
  import opened NextGens
  import opened Listeners

  /** What a sparse NextGen has recorded: the two bags' contents, the visited cells and the
      events the listener has heard. */
  datatype Account = Account(died: seq<Cell>, spawned: seq<Cell>, visited: set<Cell>, events: seq<Event>)

  /** The effect of evaluating a live cell's own fate: recorded as a death, and reported, when
      it has fewer than two or more than three live neighbours. */
  function DieEffect(a: Account, live: set<Cell>, rows: int, cols: int, p: Cell): Account {
    if Dies(live, rows, cols, p) then a.(died := a.died + [p], events := a.events + [CellDied(p.0, p.1)])
    else a
  }

  /** The effect of visiting a position: a dead grid cell not visited before becomes visited,
      and is recorded as a birth, and reported, when it has exactly three live neighbours. */
  function VisitEffect(a: Account, live: set<Cell>, rows: int, cols: int, q: Cell): Account {
    if !InBounds(rows, cols, q.0, q.1) || q in live || q in a.visited then a
    else if Spawns(live, rows, cols, q) then
      Account(a.died, a.spawned + [q], a.visited + {q}, a.events + [CellSpawned(q.0, q.1)])
    else a.(visited := a.visited + {q})
  }

  /** The effect of visiting the positions qs in order. */
  function VisitAll(a: Account, live: set<Cell>, rows: int, cols: int, qs: seq<Cell>): Account
    decreases |qs|
  {
    if qs == [] then a else VisitAll(VisitEffect(a, live, rows, cols, qs[0]), live, rows, cols, qs[1..])
  }

  lemma {:induction false} VisitAllAppend(a: Account, live: set<Cell>, rows: int, cols: int, xs: seq<Cell>, ys: seq<Cell>)
    ensures VisitAll(a, live, rows, cols, xs + ys) == VisitAll(VisitAll(a, live, rows, cols, xs), live, rows, cols, ys)
    decreases |xs|
  {
    if xs == [] {
      assert xs + ys == ys;
    } else {
      assert (xs + ys)[0] == xs[0] && (xs + ys)[1..] == xs[1..] + ys;
      VisitAllAppend(VisitEffect(a, live, rows, cols, xs[0]), live, rows, cols, xs[1..], ys);
    }
  }

  lemma VisitAllSnoc(a: Account, live: set<Cell>, rows: int, cols: int, qs: seq<Cell>, k: int)
    requires 0 <= k < |qs|
    ensures VisitAll(a, live, rows, cols, qs[..k + 1]) == VisitEffect(VisitAll(a, live, rows, cols, qs[..k]), live, rows, cols, qs[k])
  {
    assert qs[..k + 1] == qs[..k] + [qs[k]];
    VisitAllAppend(a, live, rows, cols, qs[..k], [qs[k]]);
    assert [qs[k]][1..] == [];
  }

  /** evaluate(row, col): the cell's own fate, then a visit to each of its eight neighbours in
      the source's order. */
  function EvaluateEffect(a: Account, live: set<Cell>, rows: int, cols: int, p: Cell): Account {
    VisitAll(DieEffect(a, live, rows, cols, p), live, rows, cols, Around(p))
  }

  /** The effect of evaluating the live cells ps in order, as forEachAlive does. */
  function EvaluateAll(a: Account, live: set<Cell>, rows: int, cols: int, ps: seq<Cell>): Account
    decreases |ps|
  {
    if ps == [] then a
    else EvaluateEffect(EvaluateAll(a, live, rows, cols, ps[..|ps| - 1]), live, rows, cols, ps[|ps| - 1])
  }

  lemma EvaluateAllSnoc(a: Account, live: set<Cell>, rows: int, cols: int, ps: seq<Cell>, k: int)
    requires 0 <= k < |ps|
    ensures EvaluateAll(a, live, rows, cols, ps[..k + 1]) ==
            EvaluateEffect(EvaluateAll(a, live, rows, cols, ps[..k]), live, rows, cols, ps[k])
  {
    assert ps[..k + 1][..k] == ps[..k];
  }

  /** Nothing recorded yet: a fresh NextGen. */
  const Empty := Account([], [], {}, [])

  /** The positions around the cells of D: the only places where the sparse rule looks for
      births. */
  ghost function Near(D: set<Cell>): set<Cell> {
    set p, i | p in D && 0 <= i < 8 :: Around(p)[i]
  }

  lemma NearAdd(D: set<Cell>, p: Cell)
    ensures Near(D + {p}) == Near(D) + Members(Around(p))
  {
    forall q | q in Members(Around(p)) ensures q in Near(D + {p}) {
      var i :| 0 <= i < 8 && Around(p)[i] == q;
    }
  }

  /** `died` holds, without repeats, exactly the cells of D that die. */
  ghost predicate DiedAccount(live: set<Cell>, rows: int, cols: int, died: seq<Cell>, D: set<Cell>) {
    && D <= live
    && (forall p :: p in died <==> p in D && Dies(live, rows, cols, p))
    && Distinct(died)
  }

  /** `visited` holds the dead grid cells among R. */
  ghost predicate VisitedAccount(live: set<Cell>, rows: int, cols: int, visited: set<Cell>, R: set<Cell>) {
    forall q :: q in visited <==> q in R && InBounds(rows, cols, q.0, q.1) && q !in live
  }

  /** `spawned` holds, without repeats, exactly the visited cells that are born. */
  ghost predicate SpawnedAccount(live: set<Cell>, rows: int, cols: int, spawned: seq<Cell>, visited: set<Cell>) {
    && (forall q :: q in spawned <==> q in visited && Spawns(live, rows, cols, q))
    && Distinct(spawned)
  }

  /** The listener has heard one event per recorded cell, in the order they were recorded. */
  ghost predicate Heard(died: seq<Cell>, spawned: seq<Cell>, events: seq<Event>) {
    && DiedCells(events) == died && SpawnedCells(events) == spawned
    && (forall i | 0 <= i < |events| :: events[i].CellDied? || events[i].CellSpawned?)
  }

  /** The account is right for the evaluated live cells D and the visited positions R. */
  ghost predicate Accounted(live: set<Cell>, rows: int, cols: int, a: Account, D: set<Cell>, R: set<Cell>) {
    && DiedAccount(live, rows, cols, a.died, D)
    && VisitedAccount(live, rows, cols, a.visited, R)
    && SpawnedAccount(live, rows, cols, a.spawned, a.visited)
    && Heard(a.died, a.spawned, a.events)
  }

  /** Reporting a death keeps the listener's account of a bag that records it. */
  lemma HeardDied(died: seq<Cell>, spawned: seq<Cell>, events: seq<Event>, p: Cell)
    requires Heard(died, spawned, events)
    ensures Heard(died + [p], spawned, events + [CellDied(p.0, p.1)])
  {
    ReportedSnoc(events, CellDied(p.0, p.1));
  }

  /** Reporting a birth keeps the listener's account of a bag that records it. */
  lemma HeardSpawned(died: seq<Cell>, spawned: seq<Cell>, events: seq<Event>, q: Cell)
    requires Heard(died, spawned, events)
    ensures Heard(died, spawned + [q], events + [CellSpawned(q.0, q.1)])
  {
    ReportedSnoc(events, CellSpawned(q.0, q.1));
  }

  lemma DistinctSnoc(s: seq<Cell>, x: Cell)
    requires Distinct(s) && x !in s
    ensures Distinct(s + [x])
  {
  }

  /** Evaluating a live cell's own fate, for a cell not evaluated before, keeps the account. */
  lemma DieStep(live: set<Cell>, rows: int, cols: int, a: Account, D: set<Cell>, R: set<Cell>, p: Cell)
    requires Accounted(live, rows, cols, a, D, R)
    requires p in live && p !in D
    ensures Accounted(live, rows, cols, DieEffect(a, live, rows, cols, p), D + {p}, R)
  {
    var a' := DieEffect(a, live, rows, cols, p);
    if Dies(live, rows, cols, p) {
      HeardDied(a.died, a.spawned, a.events, p);
      DistinctSnoc(a.died, p);
      assert forall x :: x in a'.died <==> x in a.died || x == p;
    }
    assert DiedAccount(live, rows, cols, a'.died, D + {p});
  }

  /** Visiting a position keeps the account, with the position added to those visited. */
  lemma VisitStep(live: set<Cell>, rows: int, cols: int, a: Account, D: set<Cell>, R: set<Cell>, q: Cell)
    requires Accounted(live, rows, cols, a, D, R)
    ensures Accounted(live, rows, cols, VisitEffect(a, live, rows, cols, q), D, R + {q})
  {
    var a' := VisitEffect(a, live, rows, cols, q);
    if InBounds(rows, cols, q.0, q.1) && q !in live && q !in a.visited {
      if Spawns(live, rows, cols, q) {
        HeardSpawned(a.died, a.spawned, a.events, q);
        DistinctSnoc(a.spawned, q);
        assert forall x :: x in a'.spawned <==> x in a.spawned || x == q;
      }
      assert VisitedAccount(live, rows, cols, a'.visited, R + {q});
      assert SpawnedAccount(live, rows, cols, a'.spawned, a'.visited);
    }
  }

  lemma {:induction false} VisitAllStep(live: set<Cell>, rows: int, cols: int, a: Account, D: set<Cell>, R: set<Cell>, qs: seq<Cell>)
    requires Accounted(live, rows, cols, a, D, R)
    ensures Accounted(live, rows, cols, VisitAll(a, live, rows, cols, qs), D, R + Members(qs))
    decreases |qs|
  {
    if qs != [] {
      VisitStep(live, rows, cols, a, D, R, qs[0]);
      VisitAllStep(live, rows, cols, VisitEffect(a, live, rows, cols, qs[0]), D, R + {qs[0]}, qs[1..]);
      assert R + {qs[0]} + Members(qs[1..]) == R + Members(qs) by {
        assert qs == [qs[0]] + qs[1..];
      }
    }
  }

  /** Evaluating a live cell not evaluated before keeps the account, with the cell added to
      those evaluated and its neighbours to those visited. */
  lemma EvaluateStep(live: set<Cell>, rows: int, cols: int, a: Account, D: set<Cell>, p: Cell)
    requires Accounted(live, rows, cols, a, D, Near(D))
    requires p in live && p !in D
    ensures Accounted(live, rows, cols, EvaluateEffect(a, live, rows, cols, p), D + {p}, Near(D + {p}))
  {
    DieStep(live, rows, cols, a, D, Near(D), p);
    VisitAllStep(live, rows, cols, DieEffect(a, live, rows, cols, p), D + {p}, Near(D), Around(p));
    NearAdd(D, p);
  }

  /** Evaluating distinct live cells ps in order from a fresh NextGen accounts for exactly the
      cells of ps and their neighbourhood. */
  lemma {:induction false} EvaluateAllAccounted(live: set<Cell>, rows: int, cols: int, ps: seq<Cell>)
    requires Distinct(ps) && forall p | p in ps :: p in live
    ensures Accounted(live, rows, cols, EvaluateAll(Empty, live, rows, cols, ps), Members(ps), Near(Members(ps)))
  {
    if ps == [] {
      assert Near({}) == {};
    } else {
      var init, p := ps[..|ps| - 1], ps[|ps| - 1];
      assert ps == init + [p];
      EvaluateAllAccounted(live, rows, cols, init);
      assert p !in Members(init);
      EvaluateStep(live, rows, cols, EvaluateAll(Empty, live, rows, cols, init), Members(init), p);
      MembersSnoc(init, p);
    }
  }

  /** Once every live cell is evaluated, `died` holds exactly the deaths and `spawned` exactly
      the births of the generation: a cell can only be born next to a live cell, so every birth
      is among the visited positions. */
  lemma SparseComplete(live: set<Cell>, rows: int, cols: int, a: Account)
    requires WithinGrid(live, rows, cols)
    requires Accounted(live, rows, cols, a, live, Near(live))
    ensures Members(a.died) == Deaths(live, rows, cols)
    ensures Members(a.spawned) == Births(live, rows, cols)
  {
    DiedComplete(live, rows, cols, a.died);
    forall q ensures q in a.spawned <==> q in Births(live, rows, cols) {
      BirthVisited(live, rows, cols, a, q);
    }
  }

  lemma DiedComplete(live: set<Cell>, rows: int, cols: int, died: seq<Cell>)
    requires WithinGrid(live, rows, cols)
    requires DiedAccount(live, rows, cols, died, live)
    ensures Members(died) == Deaths(live, rows, cols)
  {
    forall p ensures p in died <==> p in Deaths(live, rows, cols) {
      DeltaCells(live, rows, cols, p);
    }
  }

  lemma BirthVisited(live: set<Cell>, rows: int, cols: int, a: Account, q: Cell)
    requires WithinGrid(live, rows, cols)
    requires VisitedAccount(live, rows, cols, a.visited, Near(live))
    requires SpawnedAccount(live, rows, cols, a.spawned, a.visited)
    ensures q in a.spawned <==> q in Births(live, rows, cols)
  {
    DeltaCells(live, rows, cols, q);
    if q in Births(live, rows, cols) {
      LiveNeighborWitness(live, rows, cols, q.0, q.1);
      var p :| p in live && InBounds(rows, cols, p.0, p.1) && q in Around(p);
      var i :| 0 <= i < 8 && Around(p)[i] == q;
      assert q in Near(live);
    }
  }

  /** The listener of one generation has heard of each death once and of each birth once, and
      of nothing else. */
  ghost predicate Reported(live: set<Cell>, rows: int, cols: int, events: seq<Event>) {
    && Members(DiedCells(events)) == Deaths(live, rows, cols) && Distinct(DiedCells(events))
    && Members(SpawnedCells(events)) == Births(live, rows, cols) && Distinct(SpawnedCells(events))
    && (forall i | 0 <= i < |events| :: events[i].CellDied? || events[i].CellSpawned?)
  }

  /** A record that accounts for one generation: only grid cells, a delta that turns the grid
      into the next generation, one report per death and per birth, and one bag entry per
      changing cell, none when the generation is a fixed point. */
  ghost predicate Generation(live: set<Cell>, rows: int, cols: int, a: Account) {
    && (forall p | p in a.spawned :: InBounds(rows, cols, p.0, p.1))
    && (forall p | p in a.died :: InBounds(rows, cols, p.0, p.1))
    && ApplyBags(live, a.spawned, a.died) == Step(live, rows, cols)
    && Reported(live, rows, cols, a.events)
    && |a.spawned| + |a.died| == |Births(live, rows, cols)| + |Deaths(live, rows, cols)|
    && (|a.spawned| + |a.died| == 0 <==> Step(live, rows, cols) == live)
  }

  /** What a fresh NextGen holds once every live cell has been evaluated in forEachAlive order. */
  ghost function Evaluation(live: set<Cell>, rows: int, cols: int): Account
    requires rows >= 0 && cols >= 0
  {
    EvaluateAll(Empty, live, rows, cols, RowMajorLive(live, rows, cols))
  }

  /** The sparse rule computes the generation: evaluating every live cell in forEachAlive order
      from a fresh NextGen records exactly the generation's delta. */
  lemma SparseGeneration(live: set<Cell>, rows: int, cols: int)
    requires WithinGrid(live, rows, cols) && rows >= 0 && cols >= 0
    ensures Generation(live, rows, cols, Evaluation(live, rows, cols))
  {
    var cells := RowMajorLive(live, rows, cols);
    RowMajorLiveIsLive(live, rows, cols);
    assert Members(cells) == live;
    EvaluateAllAccounted(live, rows, cols, cells);
    var a := EvaluateAll(Empty, live, rows, cols, cells);
    SparseComplete(live, rows, cols, a);
    ApplyStep(live, rows, cols, a.spawned, a.died);
    DistinctMembers(a.spawned);
    DistinctMembers(a.died);
    FixedPoint(live, rows, cols);
  }

  /** Java `int` addition of two bag sizes is the number of updates, and zero only when both
      bags are empty: two sizes of at most MAX_ARRAY_LENGTH cannot wrap around to zero. */
  lemma UpdatesZero(spawned: int, died: int, changes: int)
    requires 0 <= spawned <= MAX_ARRAY_LENGTH as int && 0 <= died <= MAX_ARRAY_LENGTH as int
    requires spawned + died == changes
    ensures Wrap32(spawned + died) == Wrap32(changes)
    ensures Wrap32(changes) == 0 <==> spawned == 0 && died == 0
  {
  }

  /** The nested NextGen of the sparse strategies: the grid, the visited set, the delta (two
      bags growing by half) and the listener's trace. */
  class SparseNextGen {
    const grid: FiniteGrid
    const delta: NextGen
    const visited: CellSet
    var events: seq<Event>
    ghost var Repr: set<object>

    ghost predicate Valid()
      reads this, Repr
    {
      && this in Repr && delta in Repr && visited in Repr
      && delta.Repr <= Repr && Repr == {this, visited} + delta.Repr
      && this !in delta.Repr && visited !in delta.Repr && grid !in Repr
      && delta.Valid() && visited.Valid() && delta.grid == grid
    }

    /** What has been recorded so far. */
    ghost function State(): Account
      reads this, delta, delta.died, delta.spawned, visited
    {
      Account(delta.died.Contents, delta.spawned.Contents, visited.Elements, events)
    }

    constructor (grid: FiniteGrid)
      ensures Valid() && fresh(Repr) && this.grid == grid && delta.spawned.growth == ThreeHalves
      ensures State() == Empty
    {
      this.grid := grid;
      delta := new NextGen(grid, ThreeHalves);
      visited := new CellSet();
      events := [];
      new;
      Repr := {this, visited} + delta.Repr;
    }

    /** The forEachAlive loop of progressAndCountUpdates: evaluate(row, col) for each live cell
        in the grid's order, stopping at the first overflowing bag. */
    method EvaluateEach(cells: seq<Cell>) returns (res: Outcome)
      requires Valid() && grid.Valid() && forall p | p in cells :: p in grid.live
      modifies Repr
      ensures Valid() && fresh(Repr - old(Repr))
      ensures res.Pass? ==> State() == EvaluateAll(old(State()), grid.live, grid.rows as int, grid.cols as int, cells)
      ensures res.Fail? ==> res.error == CellBagTooBig
    {
      ghost var live, rows, cols := grid.live, grid.rows as int, grid.cols as int;
      ghost var a0 := State();
      res := Pass;
      var i := 0;
      while i < |cells|
        invariant 0 <= i <= |cells| && res == Pass
        invariant Valid() && fresh(Repr - old(Repr)) && grid.live == live
        invariant State() == EvaluateAll(a0, live, rows, cols, cells[..i])
      {
        var p := cells[i];
        assert InBounds(rows, cols, p.0, p.1);
        res := Evaluate(p.0 as int32, p.1 as int32);
        if res.Fail? {
          return;
        }
        EvaluateAllSnoc(a0, live, rows, cols, cells, i);
        i := i + 1;
      }
      assert cells[..i] == cells;
    }

    /** evaluate(row, col), called for each live cell: a death when the cell has fewer than two
        or more than three live neighbours, then a visit to each of its eight neighbours. A bag
        that overflows throws. */
    method Evaluate(row: int32, col: int32) returns (res: Outcome)
      requires Valid() && grid.Valid() && (row as int, col as int) in grid.live
      modifies Repr
      ensures Valid() && fresh(Repr - old(Repr))
      ensures res.Pass? ==> State() == EvaluateEffect(old(State()), grid.live, grid.rows as int, grid.cols as int, (row as int, col as int))
      ensures res.Fail? ==> res.error == CellBagTooBig
    {
      ghost var live, rows, cols := grid.live, grid.rows as int, grid.cols as int;
      ghost var p, a0 := (row as int, col as int), State();
      var neighbors := grid.GetNeighbors(row, col).value;
      res := Pass;
      if neighbors < 2 || neighbors > 3 {
        assert Dies(live, rows, cols, p);
        res := RecordDeath(row, col);
        if res.Fail? {
          return;
        }
      }
      ghost var a1 := State();
      assert a1 == DieEffect(a0, live, rows, cols, p);
      res := VisitNeighbors(row, col);
    }

    /** The eight visits of evaluate(row, col), in the source's order: the row above, the
        cell's own row and the row below, left to right. */
    method VisitNeighbors(row: int32, col: int32) returns (res: Outcome)
      requires Valid() && grid.Valid() && InBounds(grid.rows as int, grid.cols as int, row as int, col as int)
      modifies Repr
      ensures Valid() && fresh(Repr - old(Repr))
      ensures res.Pass? ==> State() == VisitAll(old(State()), grid.live, grid.rows as int, grid.cols as int, Around((row as int, col as int)))
      ensures res.Fail? ==> res.error == CellBagTooBig
    {
      ghost var live, rows, cols := grid.live, grid.rows as int, grid.cols as int;
      ghost var a0 := State();
      var up, down, left, right := row - 1, row + 1, col - 1, col + 1;
      var around: seq<(int32, int32)> := [(up, left), (up, col), (up, right), (row, left), (row, right), (down, left), (down, col), (down, right)];
      ghost var qs := Around((row as int, col as int));
      assert forall k | 0 <= k < 8 :: (around[k].0 as int, around[k].1 as int) == qs[k];
      res := Pass;
      var k := 0;
      while k < 8
        invariant 0 <= k <= 8 && res == Pass
        invariant Valid() && fresh(Repr - old(Repr)) && grid.live == live
        invariant State() == VisitAll(a0, live, rows, cols, qs[..k])
      {
        var (r, c) := around[k];
        res := Visit(r, c);
        if res.Fail? {
          return;
        }
        VisitAllSnoc(a0, live, rows, cols, qs, k);
        k := k + 1;
      }
      assert qs[..8] == qs;
    }

    /** visit(row, col): off-grid and live cells are skipped; a dead cell already in `visited`
        is skipped; otherwise it is added to `visited` and, with exactly three live neighbours,
        recorded in `spawned`. */
    method Visit(row: int32, col: int32) returns (res: Outcome)
      requires Valid() && grid.Valid()
      modifies Repr
      ensures Valid() && fresh(Repr - old(Repr))
      ensures res.Pass? ==> State() == VisitEffect(old(State()), grid.live, grid.rows as int, grid.cols as int, (row as int, col as int))
      ensures res.Fail? ==> res.error == CellBagTooBig
    {
      res := Pass;
      if !grid.HasCell(row, col) || grid.Get(row, col).value {
        return;
      }
      var added := visited.Add(row, col);
      if !added {
        return;
      }
      var neighbors := grid.GetNeighbors(row, col).value;
      if neighbors == 3 {
        res := RecordBirth(row, col);
      }
    }

    /** willDie(row, col) followed by listener.onCellDied(row, col). */
    method RecordDeath(row: int32, col: int32) returns (res: Outcome)
      requires Valid()
      modifies Repr
      ensures Valid() && fresh(Repr - old(Repr))
      ensures res.Pass? ==> State() == old(State()).(died := old(State()).died + [(row as int, col as int)],
                                                     events := old(State()).events + [CellDied(row as int, col as int)])
      ensures res.Fail? ==> res.error == CellBagTooBig
    {
      res := delta.WillDie(row, col);
      Repr := {this, visited} + delta.Repr;
      if res.Pass? {
        events := events + [CellDied(row as int, col as int)];
      }
    }

    /** willSpawn(row, col) followed by listener.onCellSpawned(row, col). */
    method RecordBirth(row: int32, col: int32) returns (res: Outcome)
      requires Valid()
      modifies Repr
      ensures Valid() && fresh(Repr - old(Repr))
      ensures res.Pass? ==> State() == old(State()).(spawned := old(State()).spawned + [(row as int, col as int)],
                                                     events := old(State()).events + [CellSpawned(row as int, col as int)])
      ensures res.Fail? ==> res.error == CellBagTooBig
    {
      res := delta.WillSpawn(row, col);
      Repr := {this, visited} + delta.Repr;
      if res.Pass? {
        events := events + [CellSpawned(row as int, col as int)];
      }
    }

    /** updateGrid, then countUpdates, once every live cell has been evaluated: the grid
        becomes the next generation, and the count is the number of cells that changed, as a
        Java int, zero exactly when none did. */
    method UpdateAndCount() returns (n: int32)
      requires Valid() && grid.Valid()
      requires State() == Evaluation(grid.live, grid.rows as int, grid.cols as int)
      modifies grid
      ensures grid.Valid() && grid.live == Step(old(grid.live), grid.rows as int, grid.cols as int)
      ensures n == Wrap32(|Births(old(grid.live), grid.rows as int, grid.cols as int)| +
                          |Deaths(old(grid.live), grid.rows as int, grid.cols as int)|)
      ensures n == 0 <==> grid.live == old(grid.live)
    {
      SparseGeneration(grid.live, grid.rows as int, grid.cols as int);
      delta.UpdateGrid();
      n := CountUpdates();
      ghost var changes := |Births(old(grid.live), grid.rows as int, grid.cols as int)| +
                           |Deaths(old(grid.live), grid.rows as int, grid.cols as int)|;
      UpdatesZero(|delta.spawned.Contents|, |delta.died.Contents|, changes);
    }

    /** countUpdates: the two bag sizes added as Java ints; zero exactly when both bags are
        empty. */
    function CountUpdates(): (n: int32)
      requires Valid()
      reads Repr
      ensures n == Wrap32(|delta.spawned.Contents| + |delta.died.Contents|)
      ensures n == 0 <==> delta.spawned.Contents == [] && delta.died.Contents == []
    {
      UpdatesZero(delta.spawned.Size() as int, delta.died.Size() as int, delta.spawned.Size() as int + delta.died.Size() as int);
      Wrap32(delta.spawned.Size() as int + delta.died.Size() as int)
    }
  }

  class AllAtOnceStrategy {
    var frozen: bool
    var finished: bool

    constructor ()
      ensures !frozen && !finished
    {
      frozen := false;
      finished := false;
    }

    /** The first half of progressAndCountUpdates: a fresh NextGen, and every live cell
        evaluated through forEachAlive. */
    static method Evaluated(grid: FiniteGrid) returns (ng: SparseNextGen, res: Outcome)
      requires grid.Valid()
      ensures ng.Valid() && fresh(ng.Repr) && ng.grid == grid
      ensures res.Pass? ==> ng.State() == Evaluation(grid.live, grid.rows as int, grid.cols as int)
      ensures res.Fail? ==> res.error == CellBagTooBig
    {
      ng := new SparseNextGen(grid);
      var cells := grid.ForEachAlive();
      RowMajorLiveIsLive(grid.live, grid.rows as int, grid.cols as int);
      res := ng.EvaluateEach(cells);
    }

    /** progressAndCountUpdates: every live cell evaluated through forEachAlive, then the delta
        applied, then the number of updates returned. The grid becomes the next generation; the
        listener hears each death and each birth once; the count is the number of cells that
        changed (as a Java int), zero exactly when the grid did not change. A bag overflow throws
        before the grid is touched. */
    method ProgressAndCountUpdates(grid: FiniteGrid) returns (res: Result<int32>, events: seq<Event>)
      requires grid.Valid()
      modifies grid
      ensures grid.Valid()
      ensures res.Success? ==> grid.live == Step(old(grid.live), grid.rows as int, grid.cols as int)
      ensures res.Success? ==>
                res.value == Wrap32(|Births(old(grid.live), grid.rows as int, grid.cols as int)| +
                                    |Deaths(old(grid.live), grid.rows as int, grid.cols as int)|)
      ensures res.Success? ==> (res.value == 0 <==> grid.live == old(grid.live))
      ensures res.Success? ==> Reported(old(grid.live), grid.rows as int, grid.cols as int, events)
      ensures res.Failure? ==> res.error == CellBagTooBig && grid.live == old(grid.live)
    {
      var ng, o := Evaluated(grid);
      if o.Fail? {
        return Failure(o.error), ng.events;
      }
      ghost var live, rows, cols := grid.live, grid.rows as int, grid.cols as int;
      SparseGeneration(live, rows, cols);
      events := ng.events;
      assert Reported(live, rows, cols, events);
      var n := ng.UpdateAndCount();
      res := Success(n);
    }

    /** progress(grid, listener): nothing at all once finished or while frozen; otherwise one
        generation, after which the strategy is frozen exactly when nothing changed. */
    method Progress(grid: FiniteGrid) returns (res: Outcome, events: seq<Event>)
      requires grid.Valid()
      modifies this, grid
      ensures grid.Valid() && finished == old(finished)
      ensures old(finished || frozen) ==>
                res.Pass? && events == [] && grid.live == old(grid.live) && frozen == old(frozen)
      ensures !old(finished || frozen) && res.Pass? ==>
                grid.live == Step(old(grid.live), grid.rows as int, grid.cols as int) &&
                (frozen <==> grid.live == old(grid.live)) &&
                Reported(old(grid.live), grid.rows as int, grid.cols as int, events)
      ensures res.Fail? ==> res.error == CellBagTooBig && grid.live == old(grid.live) && frozen == old(frozen)
    {
      if finished || frozen {
        return Pass, [];
      }
      var updates;
      updates, events := ProgressAndCountUpdates(grid);
      if updates.Failure? {
        return Fail(updates.error), events;
      }
      frozen := updates.value == 0;
      res := Pass;
    }

    /** freeze: frozen from now on, whatever it was. */
    method Freeze()
      modifies this
      ensures frozen && finished == old(finished)
    {
      frozen := true;
    }

    /** unfreeze: no longer frozen, whatever it was. */
    method Unfreeze()
      modifies this
      ensures !frozen && finished == old(finished)
    {
      frozen := false;
    }

    /** finish: finished for good; nothing clears the flag. */
    method Finish()
      modifies this
      ensures finished && frozen == old(frozen)
    {
      finished := true;
    }

    function IsFinished(): bool
      reads this
    {
      finished
    }

    function IsFrozen(): bool
      reads this
    {
      frozen
    }
  }
}
